=== FILE: README.md ===
# Rule-based GPU kernel predictor (kernel_analyzer), modelled in Dafny

kernel_analyzer predicts which GPU kernels an ONNX Runtime operator will launch.
Its rule library is built from execution traces. A trace is an ordered log of
operator ("Node") events and kernel-launch ("Kernel") events. The parser pairs
every operator with the kernels launched after it, up to the next operator.
Kernels are numbered so that they line up with the rows of an Nsight Compute
(NCU) metric table, and memory copies get the sentinel index -1. The NCU
integrator joins the table's metrics onto the kernels. The data collector turns
every operator of a trace into a library entry of its operator type, holding
its kernels, input shapes and output shapes.

To predict, the kernel finder looks up the operator type's entries. It scores
each entry's shapes against the operator's shapes, using a per-dimension ratio
score plus a total-size score. It returns the kernels of the first best entry,
under a gate that depends on the strategy chosen for the type (convolution,
concat, split, slice, element-wise binary, element-wise unary, operators that
launch nothing, memory copies). Three evaluators judge the predictor on a trace:

- the sequence tester counts exact matches and kernel-name matches;
- the GPU performance tester scores grid size, block size and registers per
  thread by the ratio accuracy `min(p/r, r/p)`;
- the kernel-execute metric tester scores compute throughput, memory
  throughput and SM active cycles the same way.

The relation finder groups operator/kernel pairs by their
(operator type, provider, kernel-name sequence) key, and extracts per-instance
arguments.

The model splits into modules:

- `Records` holds the trace records.
- `ShapeScore` scores shapes.
- `KernelFinder` and `KernelFinderProperties` hold the matcher and its
  properties.
- `TraceParser`, `NcuIntegrator` and `DataCollector` build the library.
- `PerfCalculator` holds the kernel-size arithmetic.
- `SequenceTester` and `PerfTester` are the evaluators; `PerfTesterRuns`
  runs the performance testers from a trace and a metric table.
- `RelationFinder` groups the pairs.

Loops in the source are methods with loop invariants, and each is proved equal
to a specification function. Lemmas then characterise that function. A lookup
may rewrite the library it is given, because the binary strategy normalises
empty shapes in place. The model returns the rewritten library, and proves
that the rewrite never changes any later lookup.

Behaviours of the code that the model keeps:

- A trace without operator events gives an empty pair list, not an error
  (utils/trace_file_parser.py:31-60).
- A library build on such a trace stops with exit status 1
  (rule_based_model/model_data_collector.py:30-32).
- Conv, Concat and Split return None when no entry scores above 0
  (rule_based_model/data_based_kernel_finder.py:168-170, 227-229, 283-285).
- Slice, Binary and Unary then fail on the missing `kernels` key of the
  empty record (rule_based_model/data_based_kernel_finder.py:317, 367, 395).
- A scalar shape [] has element count 1, so against a shape of another
  rank whose dimensions multiply to 1 it reaches the full score of rank 0.
  A unary query with input [] therefore stops at an entry with input [1]
  (rule_based_model/data_based_kernel_finder.py:59-65, 386-392).

## Model

| member | source | states |
|---|---|---|
| ShapeScore.ScoreBounds | rule_based_model/data_based_kernel_finder.py:41-81 | For shapes with positive dimensions the match score is positive. For equal ranks it is at most the full score, with equality exactly when the shapes are equal. For different ranks it is at most the total-size weight. |
| ShapeScore.ScoreOfIdenticalShapes | rule_based_model/data_based_kernel_finder.py:41-81 | A shape without zero dimensions scored against itself gets exactly the full score for its rank. A shape with a zero dimension gets only its rank, because the size ratio of 0 and 0 is 0. |
| ShapeScore.ScoreSymmetric | rule_based_model/data_based_kernel_finder.py:41-78 | The match score does not depend on which shape is the query and which the candidate. |
| ShapeScore.ScoreAtMostFull | rule_based_model/data_based_kernel_finder.py:41-81 | With the weights the finder uses and positive dimensions, no candidate of any rank scores above the full score of the query's rank. Only an identical shape reaches it, except for a scalar query, which any candidate whose dimensions multiply to 1 reaches. |
| ShapeScore.DimScoreBounds | rule_based_model/data_based_kernel_finder.py:67-74 | For positive shapes of equal rank and a difference weight in (0, 1], the per-dimension part lies between 0 and the rank. It reaches the rank exactly when the shapes are equal. |
| ShapeScore.HeadScore | rule_based_model/data_based_kernel_finder.py:70-74 | One dimension pair of positive sizes scores in (0, 1]: a full point exactly when the sizes are equal, otherwise the weighted ratio. |
| ShapeScore.DimScoreSelf | rule_based_model/data_based_kernel_finder.py:67-74 | A shape compared with itself scores 1 per dimension. |
| ShapeScore.DimScoreSymmetric | rule_based_model/data_based_kernel_finder.py:67-74 | The per-dimension part does not depend on the order of the shapes. |
| ShapeScore.SizeScoreBounds | rule_based_model/data_based_kernel_finder.py:76-77 | For positive shapes the total-size term lies in (0, weight]. |
| ShapeScore.SizeScoreOfEqual | rule_based_model/data_based_kernel_finder.py:67-77 | A shape compared with itself gets the full total-size term when its element count is non-zero (in particular with positive dimensions), and 0 when a dimension is 0. |
| ShapeScore.RatioOfPositives | rule_based_model/data_based_kernel_finder.py:64-76 | The ratio of two positive sizes lies in (0, 1], and is 1 only when they are equal. |
| ShapeScore.RatioBelowOne | rule_based_model/data_based_kernel_finder.py:64 | Of two different positive sizes, the smaller over the larger lies strictly between 0 and 1, and the larger over the smaller exceeds 1, so the minimum is the former. |
| ShapeScore.ProdNonZero | rule_based_model/data_based_kernel_finder.py:62-69 | A shape's element count is non-zero exactly when no dimension is 0. |
| ShapeScore.ProdPositive | rule_based_model/data_based_kernel_finder.py:62-69 | A shape with positive dimensions has a positive element count. |
| ShapeScore.RatioSelf | rule_based_model/data_based_kernel_finder.py:64-76 | The ratio of a size with itself is 1, except for 0, whose ratio is 0. |
| ShapeScore.RatioSymmetric | rule_based_model/data_based_kernel_finder.py:64-76 | The ratio does not depend on the order of its arguments. |
| KernelFinder.LoadJsonData | rule_based_model/data_based_kernel_finder.py:5-34 | A library document loads exactly when it has both a version and data, and loading yields its data. A null document exits with status 1, and a missing field exits with status 2. |
| KernelFinder.Match | rule_based_model/data_based_kernel_finder.py:397-449 | Operators that launch nothing predict the empty kernel list. Memory copies and unregistered operator types predict nothing. A gated search on a type missing from the library fails. |
| KernelFinder.FindBestMatchKernels | rule_based_model/data_based_kernel_finder.py:427-449 | The lookup returns the match, the normalised query and the library with its scanned binary entries normalised in place. |
| KernelFinder.ScanEntries | rule_based_model/data_based_kernel_finder.py:344-366 | The scan loop's outcome and the entries it visited are those of the first-best selection over the entries' ratings. Binary scans normalise exactly the visited prefix. |
| KernelFinder.PickPicked | rule_based_model/data_based_kernel_finder.py:344-366 | A picked entry scores above 0 and strictly above every earlier rated entry, and no earlier entry raises or ends the scan. Either the picked entry ends the scan itself, or no later entry raises or scores higher. |
| KernelFinder.PickNothing | rule_based_model/data_based_kernel_finder.py:344-366 | Nothing is picked exactly when no entry is broken and no rated entry scores above 0. |
| KernelFinder.PickAborted | rule_based_model/data_based_kernel_finder.py:344-366 | The scan aborts exactly when some entry raises and no earlier entry raises or ends the scan. |
| KernelFinder.PickStops | rule_based_model/data_based_kernel_finder.py:359-362 | The first entry whose rating is an exact match ends the scan and is returned. |
| KernelFinder.NormalizedIdempotent | rule_based_model/data_based_kernel_finder.py:324-330 | Normalising empty operand shapes to [1] twice changes nothing more than doing it once. |
| KernelFinderProperties.FoundIsFirstBest | rule_based_model/data_based_kernel_finder.py:117-395 | Every gated search that finds kernels returns those of the first best-rated entry of the operator type. |
| KernelFinderProperties.FoundComesFromLibrary | rule_based_model/data_based_kernel_finder.py:108-449 | Found kernels are either the empty list or the kernels of some library entry of the operator's type. |
| KernelFinderProperties.ScanOutcomes | rule_based_model/data_based_kernel_finder.py:117-395 | A search fails on a missing shape exactly when a broken entry is reached. For Conv, Concat and Split it is "not found" exactly when no entry scores. For the other strategies that case is the missing-kernels failure. |
| KernelFinderProperties.ConvGates | rule_based_model/data_based_kernel_finder.py:117-172 | A weight that is not four-dimensional predicts nothing. A found convolution has the query's bias arity. |
| KernelFinderProperties.ConcatGates | rule_based_model/data_based_kernel_finder.py:174-233 | A found concat has the query's input count and respects the homogeneity rule on its kernel count. With no entry of the right input count, it predicts nothing. |
| KernelFinderProperties.SplitGates | rule_based_model/data_based_kernel_finder.py:234-289 | A found split has the query's output count and respects the homogeneity rule on its kernel count. With no entry of the right output count, it predicts nothing. |
| KernelFinderProperties.SliceGates | rule_based_model/data_based_kernel_finder.py:291-317 | A slice with fewer than four inputs predicts nothing. A found slice is the first entry of maximal score. |
| KernelFinderProperties.BinaryScalarOperands | rule_based_model/data_based_kernel_finder.py:324-336 | A binary operator whose two operands are scalars (empty or [1]) runs off the GPU: it predicts the empty list, whatever the library holds. |
| KernelFinderProperties.UnaryRating | rule_based_model/data_based_kernel_finder.py:369-395 | For a unary operator with positive shapes, every comparable entry scores in (0, full]. It stops the scan exactly when its shapes equal the query's, which is exactly when it reaches the full score. |
| KernelFinderProperties.UnaryExactMatch | rule_based_model/data_based_kernel_finder.py:369-395 | A unary lookup for a query with positive dimensions returns the first entry whose shapes equal the query's, when every entry before it has the query's ranks and positive dimensions. Later entries are never read. |
| KernelFinderProperties.ScalarInputMatchesUnitShape | rule_based_model/data_based_kernel_finder.py:59-65 | A unary query with scalar input [] stops at a first entry with input [1] and the query's output, and returns it although it is not exact. |
| KernelFinderProperties.RateIgnoresNormalization | rule_based_model/data_based_kernel_finder.py:345-349 | Rating a binary entry gives the same result before and after its empty shapes are normalised. |
| KernelFinderProperties.MatchUnchanged | rule_based_model/data_based_kernel_finder.py:345-349 | A library that differs from another only by that normalisation gives every query the same match. |
| KernelFinderProperties.LibraryAfterDescends | rule_based_model/data_based_kernel_finder.py:320-367 | The library a lookup leaves behind differs from the one it was given only by that normalisation. |
| KernelFinderProperties.LookupsIndependent | rule_based_model/data_based_kernel_finder.py:427-449 | A later lookup sees the same match in the rewritten library as in the original one, and repeating a lookup repeats its result. |
| KernelFinderProperties.LookupStep | rule_based_model/data_based_kernel_finder.py:427-449 | A lookup in a library rewritten by earlier lookups gives the original library's answer, and the library it leaves behind still descends from the original. |
| TraceParser.GetPairsFromTraceFile | utils/trace_file_parser.py:31-60 | The parsing loop yields the pairing of the event log. |
| TraceParser.PairingNumbering | utils/trace_file_parser.py:37-56 | There is one pair per operator event, in order, with operator index j. The pairs' kernels are, in order, all kernel events after the first operator. Each non-copy kernel is numbered by the count of non-copy kernels before it; copies are numbered -1. |
| TraceParser.PairingNodes | utils/trace_file_parser.py:37-44 | Operator indices count the operator events from the starting index. |
| TraceParser.GetNodeKernelMapping | utils/trace_file_parser.py:69-90 | The mapping loop yields the name-to-pair map. |
| TraceParser.MappingLastWins | utils/trace_file_parser.py:69-90 | A name is mapped exactly when some pair has it, and to the last pair that has it. |
| TraceParser.DividePairsByOpName | utils/trace_file_parser.py:92-110 | The groups' keys are exactly the operator types present, so there are none exactly when there are no pairs. Each group is that type's pairs in trace order. |
| TraceParser.GroupsAddUp | utils/trace_file_parser.py:92-110 | Grouping loses and duplicates no pair: with each type of the groups listed once, the group sizes add up to the number of pairs. |
| TraceParser.FilterComplete | utils/trace_file_parser.py:92-110 | Every pair of a type is in that type's group. |
| NcuIntegrator.FillKernelMetric | utils/pairs_ncu_integrator.py:5-29 | A metric is added, with its value and unit, exactly when exactly one row carries it. Otherwise the metric map is unchanged. Other metrics are never touched. |
| NcuIntegrator.MetricsOfExact | utils/pairs_ncu_integrator.py:73-97 | A kernel's metric map holds exactly the listed metrics that have a unique row, with that row's value and unit. |
| NcuIntegrator.FillPairsWithNcu | utils/pairs_ncu_integrator.py:57-103 | The joining loop yields the join result: the first kernel without a table row, the count mismatch, or the enriched pairs. |
| NcuIntegrator.FillKernels | utils/pairs_ncu_integrator.py:60-97 | The inner loop reports the first kernel without rows, or enriches every kernel and tracks the last index seen. |
| NcuIntegrator.JoinMissingAt | utils/pairs_ncu_integrator.py:68-70 | The join fails at the first pair holding a kernel without rows, when no earlier kernel lacks rows. |
| NcuIntegrator.JoinKeepsPairs | utils/pairs_ncu_integrator.py:59-97 | A successful join keeps every pair's operator and kernels and changes only their metric maps. Copies are untouched. Every counted kernel gets exactly the metrics with a unique row. |
| NcuIntegrator.ConsistentTraceJoins | utils/pairs_ncu_integrator.py:59-103 | With the count check corrected, a table that profiles exactly the trace's counted kernels always joins. |
| NcuIntegrator.TrailingCopyRejected | utils/pairs_ncu_integrator.py:61-101 | As written, a trace whose last kernel is a memory copy is rejected as a count mismatch even when the table matches. The corrected check accepts it. |
| NcuIntegrator.NoneMissing | utils/pairs_ncu_integrator.py:68-70 | When every counted kernel has rows, no kernel is reported missing. |
| DataCollector.BuildDataFromSingleTraceFile | rule_based_model/model_data_collector.py:11-60 | A trace without operators exits with status 1. Otherwise the library holds the prior types plus the trace's types. Each type holds its prior entries followed by one entry per operator of that type, in trace order, and no other type changes. |
| DataCollector.AppendGroups | rule_based_model/model_data_collector.py:40-58 | The loop over types appends each group's entries to its type, creating new types as needed. |
| DataCollector.AppendEntries | rule_based_model/model_data_collector.py:44-58 | The loop over a group appends one entry per pair, in order. |
| DataCollector.EntryOf | rule_based_model/model_data_collector.py:44-58 | An entry records the pair's kernels, operator name, the trace's model name, the batch size and the operator's input and output shapes by position. |
| DataCollector.EntriesRecordOperators | rule_based_model/model_data_collector.py:40-58 | The entries appended for a type are exactly those of the trace's operators of that type. |
| DataCollector.ModelNameOfFile | rule_based_model/model_data_collector.py:34 | A trace stored as `dir/stem.json`, for a non-empty stem without '/' or '.', is labelled `stem`. |
| DataCollector.Basename | rule_based_model/model_data_collector.py:34 | The base name is the final path component: the longest suffix of the path without '/', so it is either the whole path or preceded by a '/'. |
| DataCollector.SaveDataToJson | rule_based_model/model_data_collector.py:62-85 | The saved document carries the GPU name, version and description. Loading it gives back the library. |
| PerfCalculator.RegistersPerThread | rule_based_model/GPU_performance_calculator.py:21-25 | Copies have 0 registers. Otherwise the count is defined exactly when the kernel carries the metric, and is its value truncated toward zero. |
| PerfCalculator.Trunc | rule_based_model/GPU_performance_calculator.py:25 | Truncation toward zero stays within 1 of the value, on the side of zero. |
| PerfCalculator.LaunchSizes | rule_based_model/GPU_performance_calculator.py:3-19 | Grid and block sizes are the products of the launch dimensions for compute kernels and 0 for copies. They are non-negative for non-negative dimensions. |
| PerfCalculator.MetricSum | rule_based_model/GPU_performance_calculator.py:27-30 | No prediction sums to 0. A kernel list sums its per-kernel values. |
| PerfCalculator.SumAppend | rule_based_model/GPU_performance_calculator.py:27-30 | The sum of a concatenation is defined exactly when both parts' sums are, and is their sum. |
| PerfCalculator.SumSkipsCopies | rule_based_model/GPU_performance_calculator.py:3-30 | When copies count 0, an operator's sum equals the sum over its compute kernels alone. |
| PerfCalculator.OperatorSums | rule_based_model/GPU_performance_calculator.py:3-30 | Grid, block and register sums ignore copies. Grid and block sums never fail, and are non-negative for non-negative launch dimensions. |
| PerfCalculator.ComputeKernels | rule_based_model/GPU_performance_calculator.py:3-19 | A kernel is kept exactly when it is in the list and is not a copy. |
| SequenceTester.JudgeKernelMatchVerbose | rule_based_model/trace_file_based_tester.py:5-75 | The two flag loops give the verdict: no match on any length or name difference. Otherwise it is exact when grid and block agree at every non-copy position, and a sequence match when they do not. |
| SequenceTester.JudgeTruthTable | rule_based_model/trace_file_based_tester.py:5-75 | Each of the four cases (length differs, a name differs, launches differ, all agree) gets its verdict. |
| SequenceTester.JudgeCases | rule_based_model/trace_file_based_tester.py:5-75 | A recorded sequence matches itself exactly, and no prediction never matches. |
| SequenceTester.CopiesNeverMatter | rule_based_model/trace_file_based_tester.py:40-60 | Predictions that differ only in launch configurations at copy positions get the same verdict. |
| SequenceTester.TraceFileBasedTest | rule_based_model/trace_file_based_tester.py:100-143 | The counting loop, although each lookup may rewrite the library, yields the counters of looking every operator up in the original library. It crashes with the first failing lookup. |
| SequenceTester.TestOperator | rule_based_model/trace_file_based_tester.py:129-137 | One counted operator: the lookup in the rewritten library, its verdict and the counter update equal the step against the original library; a raising lookup crashes the test. |
| SequenceTester.TallyCompletes | rule_based_model/trace_file_based_tester.py:100-143 | The test completes exactly when no counted operator's lookup fails. |
| SequenceTester.TallyBounds | rule_based_model/trace_file_based_tester.py:104-137 | A completed test counts exactly the non-copy operators in the operator list, and exact <= sequence <= total. |
| SequenceTester.PerfectLibraryAllExact | rule_based_model/trace_file_based_tester.py:100-143 | A library that predicts every counted operator's recorded kernels scores every one of them as exact. |
| PerfTester.DataAcc | rule_based_model/GPU_performance_tester.py:16-31 | For non-negative values the accuracy lies in [0, 1]. It is 1 exactly when prediction and truth agree, and 0 exactly when they differ and one of them is 0. |
| PerfTester.DataAccSymmetric | rule_based_model/GPU_performance_tester.py:16-31 | Accuracy does not depend on which value is the prediction. |
| PerfTester.NoPredictionAxis | rule_based_model/GPU_performance_tester.py:97-110 | With no prediction, an axis scores 1 when the recorded sum is 0 and 0 when it is positive. |
| PerfTester.Evaluate | rule_based_model/GPU_performance_tester.py:69-132 | The accumulation loop, although lookups may rewrite the library, yields the three mean accuracies over non-copy operators judged against the original library. It stops with the first failure, and fails on division by zero when no operator counted. |
| PerfTester.AccumulateOperator | rule_based_model/GPU_performance_tester.py:75-120 | One operator of the loop, looked up in the rewritten library, moves the counters to those after it against the original library, and the library left behind still descends from the original. |
| PerfTester.EvaluateOperator | rule_based_model/GPU_performance_tester.py:99-120 | One non-copy operator: its lookup in the rewritten library scores it as the original library would, never as a skipped copy, and the library left behind still descends from the original. |
| PerfTester.ScoreOperator | rule_based_model/GPU_performance_tester.py:104-120 | One operator's three accuracies, or the failure its lookup or a metric raised. A scored operator is never a skipped copy. |
| PerfTesterRuns.RunTester | rule_based_model/GPU_performance_tester.py:48-132 | Both testers pair the trace and join the profiler table first. A failed join (a kernel without rows, or the count mismatch) ends the run before any accuracy. Otherwise the result is the evaluation over the joined pairs. |
| PerfTesterRuns.GpuPerformanceTest | rule_based_model/GPU_performance_tester.py:48-132 | A failed profiler join ends the run. Otherwise the result is the evaluation of the joined trace on the grid-size, block-size and register sums. |
| PerfTesterRuns.KernelExecuteMetricTest | rule_based_model/kernel_execute_metric_tester.py:48-132 | A failed profiler join ends the run. Otherwise the result is the evaluation of the joined trace on compute throughput, memory throughput and summed SM active cycles. |
| PerfTesterRuns.TrailingCopyStopsTester | rule_based_model/GPU_performance_tester.py:50-51 | With the join as written, a trace whose last kernel is a memory copy never reaches the accuracy loop, for any table whose IDs are non-negative (the profiler numbers its rows from 0). |
| PerfTester.OperatorScoreBounds | rule_based_model/GPU_performance_tester.py:75-120 | An operator is skipped exactly when it is a copy. Its accuracies lie in [0, 1] when the metrics are non-negative. |
| PerfTester.AccumulationBounds | rule_based_model/GPU_performance_tester.py:62-120 | The operator count is the number of non-copy operators. Each accuracy sum lies between 0 and that count. |
| PerfTester.MeansInUnitInterval | rule_based_model/GPU_performance_tester.py:126-132 | Reported mean accuracies lie in [0, 1]. The run fails on division by zero exactly when it reaches the end with no non-copy operator. |
| PerfTester.PerfectPredictionAccumulates | rule_based_model/GPU_performance_tester.py:62-120 | When every operator is predicted with its recorded metrics, every accuracy sum equals the operator count. |
| PerfTester.PerfectPredictionScoresOne | rule_based_model/GPU_performance_tester.py:62-132 | Perfect predictions give mean accuracy 1 on every axis. |
| PerfTester.LaunchSumsNonNegative | rule_based_model/GPU_performance_calculator.py:3-30 | Grid, block and register sums of kernels with non-negative launch data are non-negative. |
| PerfTester.GpuAccuraciesBounded | rule_based_model/GPU_performance_tester.py:104-132 | With non-negative launch data in the trace and the library, the GPU performance accuracies lie in [0, 1]. |
| PerfTester.ExecuteAccuraciesBounded | rule_based_model/kernel_execute_metric_tester.py:104-132 | With non-negative metrics, the execute-metric accuracies lie in [0, 1]. |
| RelationFinder.GetRelationshipDict | utils/mapping_relation_info_finder.py:4-42 | A `None` pair list gives `None`, and an empty list gives an empty dictionary. Otherwise there is a key exactly for each occurring (type, provider, kernel names). Its bucket holds that key's pairs in order, its count is their number, and the counts add up to the number of pairs. |
| RelationFinder.BucketsPartition | utils/mapping_relationship_finder.py:4-42 | Every pair is in its key's bucket, every bucket holds only pairs of its key, and every count is positive. |
| RelationFinder.SameBucket | utils/mapping_relation_info_finder.py:34-38 | Two pairs share a key exactly when type, provider and the kernel-name sequence agree. |
| RelationFinder.WithKeyComplete | utils/mapping_relation_info_finder.py:30-40 | Every pair is among its key's instances. |
| RelationFinder.GetPairsFromSingleRelationDict | utils/mapping_relation_info_finder.py:44-78 | No dictionary gives nothing. Instances are returned exactly when the key has a non-empty bucket. A missing key leaves an empty bucket behind, which changes no count. |
| RelationFinder.InstancesOfKey | utils/mapping_relation_info_finder.py:44-78 | In a dictionary built from pairs, a key has instances exactly when it occurs, and they are its pairs in order. |
| RelationFinder.PyIndex | utils/mapping_relation_info_finder.py:100 | A kernel index is valid exactly in [-n, n). Negative indices count from the end. |
| RelationFinder.GetArgsFromPairs | utils/mapping_relation_info_finder.py:81-135 | Arguments are extracted exactly when every instance admits the kernel index. Then there is one record per instance, taken from the indexed kernel. |
| RelationFinder.ArgsSizes | utils/mapping_relation_info_finder.py:98-131 | The grid, block and thread sizes are the products of the launch dimensions. They agree with the calculator for compute kernels, and the operator shapes are copied by position. |

## Left out

- File and CSV I/O, JSON decoding, printing, warnings and exit calls are left
  out. Traces, metric tables and libraries are parameters. Exits become result
  values carrying the status code.
- Python floats are modelled as exact reals, so rounding in `min(p/r, r/p)`,
  in the shape ratios and in the final means is not captured. Integer
  products are unbounded, as in Python.
- In-place updates of caller dictionaries and lists become returned values:
  the enriched pairs, the rewritten library, the relation dictionary with an
  inserted empty bucket and the mutated query. Aliasing between those objects
  is not captured.
- The relation dictionary is a `defaultdict` in the source, so looking up a
  missing key inserts an empty bucket; the model returns the dictionary with
  that bucket.
- DataCollector.BuildDataFromSingleTraceFile: a supplied prior library is
  treated like the `defaultdict` the function creates when none is given, so a
  new operator type gets a fresh list. A plain dictionary loaded from a file
  would raise KeyError on a new type instead; that failure is not modelled.
- PerfTesterRuns.KernelExecuteMetricTest: `get_op_metric_average`,
  `get_kernel_compute_throughput`, `get_kernel_memory_throughput` and
  `get_kernel_sm_active_cycles` are called, but
  rule_based_model/GPU_performance_calculator.py does not define them. The
  three metrics are therefore parameters.
- KernelFinder.LoadJsonData: opening a file that does not exist raises
  FileNotFoundError before any check. The model starts from the decoded
  document, so that exception is not modelled.
- PerfTesterRuns.GpuPerformanceTest and PerfTesterRuns.KernelExecuteMetricTest take
  the rule library as already loaded. Its loading and exit codes belong to
  KernelFinder.LoadJsonData. The source loads it after the profiler join, so a
  failed join ends the run first either way.
- The `__main__` blocks, command-line handling and the report text of the
  testers are not part of this model.
- Operator names in a kernel key are modelled as the `op_name` argument.
  Shapes are taken from the first value of each typed-shape record, as the
  source does. A query's input or output shape is a present key exactly for
  the indices below the record count.
- A NaN or negative metric from the profiler is not modelled specially. The
  accuracy bounds assume non-negative metrics.
- RelationFinder.ArgsSizes: the argument extractor multiplies the grid and
  block dimensions even for memory copies, while the calculator gives copies
  size 0. The lemma relates the two only for compute kernels.

## Findings

| source | as written | input that shows it | evidently intended | confidence | as-written member | corrected member |
|---|---|---|---|---|---|---|
| utils/pairs_ncu_integrator.py:61-101 | `kernel_idx` is assigned before copies are skipped, so after the loop it holds -1 when the trace's last kernel is a memory copy, and the count check against the table's largest ID fails | one operator with a compute kernel (index 0) followed by a Memcpy kernel (index -1), and a table with one row of ID 0 | compare the index of the last counted kernel with the table's largest ID | low — not executed | NcuIntegrator.TrailingCopyRejected | NcuIntegrator.ConsistentTraceJoins |

=== FILE: data_collector.dfy ===
/** Building the rule library from execution traces: every operator of a
    trace becomes one entry of its operator type, labelled with the model
    name taken from the trace file name; and saving the library as a
    versioned document. */
module DataCollector {
  import opened Records
  import opened TraceParser
  import opened KernelFinder

  // -----------------------------------------------------------------------
  // The model name: the trace file's name without directory and extension

  /** The position of the last `c` in `s`, if any. */
  function LastIndexOf(s: string, c: char): (r: Option<nat>)
    ensures r.Some? ==> r.value < |s| && s[r.value] == c && forall j :: r.value < j < |s| ==> s[j] != c
    ensures r.None? ==> forall j :: 0 <= j < |s| ==> s[j] != c
  {
    if s == [] then None
    else if s[|s| - 1] == c then Some(|s| - 1)
    else LastIndexOf(s[..|s| - 1], c)
  }

  /** `os.path.basename`: what follows the last '/'. The result is the
      longest suffix of the path without '/': either the whole path, or the
      suffix right after a '/'. */
  function Basename(path: string): (r: string)
    ensures '/' !in r
    ensures |r| <= |path| && r == path[|path| - |r|..]
    ensures |r| < |path| ==> path[|path| - |r| - 1] == '/'
  {
    match LastIndexOf(path, '/')
    case None => path
    case Some(i) => path[i + 1..]
  }

  /** `os.path.splitext(name)[0]` for a name without '/': drop the text
      from the last '.' on, unless every character before that '.' is a
      '.' (a leading-dot name has no extension). */
  function StripExtension(name: string): (r: string)
    ensures r <= name
  {
    match LastIndexOf(name, '.')
    case None => name
    case Some(d) => if exists j :: 0 <= j < d && name[j] != '.' then name[..d] else name
  }

  /** The model name of a trace file path. */
  function ModelName(path: string): string
  {
    StripExtension(Basename(path))
  }

  /** A trace stored as `<dir>/<stem>.json` is labelled `stem`, for a stem
      without '/' or '.'. */
  lemma ModelNameOfFile(dir: string, stem: string)
    requires stem != [] && '/' !in stem && '.' !in stem
    ensures ModelName(dir + "/" + stem + ".json") == stem
  {
    var base := stem + ".json";
    assert dir + "/" + stem + ".json" == dir + "/" + base;
    BasenameAfterSlash(dir, base);
    StripJson(stem);
  }

  /** The base name of `dir/base` is `base` when `base` has no '/'. */
  lemma BasenameAfterSlash(dir: string, base: string)
    requires '/' !in base
    ensures Basename(dir + "/" + base) == base
  {
    var path := dir + "/" + base;
    assert LastIndexOf(path, '/') == Some(|dir|) by {
      assert path[|dir|] == '/';
      assert forall j :: |dir| < j < |path| ==> path[j] == base[j - |dir| - 1];
    }
    assert path[|dir| + 1..] == base;
  }

  /** `stem.json` loses its extension, for a non-empty stem without '.'. */
  lemma StripJson(stem: string)
    requires stem != [] && '.' !in stem
    ensures StripExtension(stem + ".json") == stem
  {
    var base := stem + ".json";
    assert LastIndexOf(base, '.') == Some(|stem|) by {
      assert base[|stem|] == '.';
      assert forall j :: |stem| < j < |base| ==> base[j] in "json";
    }
    assert base[0] == stem[0] != '.';
    assert base[..|stem|] == stem;
  }

  // -----------------------------------------------------------------------
  // Entries

  /** The library entry recorded for one pair. */
  function EntryOf(p: Pair, model: string, batchSize: int): (e: Entry)
    ensures e.kernels == p.kernels && e.nodeName == p.node.name
    ensures e.model == model && e.batchSize == batchSize
    ensures |e.inputs| == |p.node.inputs| && |e.outputs| == |p.node.outputs|
    ensures forall i :: 0 <= i < |e.inputs| ==> e.inputs[i] == p.node.inputs[i].shape
    ensures forall i :: 0 <= i < |e.outputs| ==> e.outputs[i] == p.node.outputs[i].shape
  {
    Entry(p.kernels, model, p.node.name, batchSize, Shapes(p.node.inputs), Shapes(p.node.outputs))
  }

  function EntriesOf(ps: seq<Pair>, model: string, batchSize: int): (r: seq<Entry>)
    ensures |r| == |ps|
    ensures forall i :: 0 <= i < |ps| ==> r[i] == EntryOf(ps[i], model, batchSize)
  {
    seq(|ps|, i requires 0 <= i < |ps| => EntryOf(ps[i], model, batchSize))
  }

  /** The entries a prior library already holds for `op`. */
  function Prior(data: Option<Library>, op: string): seq<Entry>
  {
    if data.Some? && op in data.value then data.value[op] else []
  }

  datatype BuildResult = Built(data: Library) | BuildExit(code: int)

  /** `build_data_from_single_trace_file` on a decoded trace: a trace
      without operators exits with status 1; otherwise every operator type
      of the trace gets its pairs' entries appended, in trace order, to
      what the prior library held for it, and no other type changes. */
  method BuildDataFromSingleTraceFile(events: seq<Event>, path: string, batchSize: int, data: Option<Library>)
    returns (r: BuildResult)
    ensures r.BuildExit? <==> NodeEvents(events) == []
    ensures r.BuildExit? ==> r.code == 1
    ensures r.Built? ==> forall op :: op in r.data <==>
      (data.Some? && op in data.value) || exists j :: 0 <= j < |Pairing(events, 0, 0)| && Pairing(events, 0, 0)[j].node.opName == op
    ensures r.Built? ==> forall op :: op in r.data ==>
      r.data[op] == Prior(data, op) + EntriesOf(Filter(Pairing(events, 0, 0), op), ModelName(path), batchSize)
  {
    var pairs := GetPairsFromTraceFile(events);
    var groups := DividePairsByOpName(pairs);
    PairingNodes(events, 0, 0);
    if |groups| == 0 {
      return BuildExit(1);
    }
    assert NodeEvents(events) != [] by {
      var op :| op in groups;
    }
    forall op | op !in groups
      ensures Filter(pairs, op) == []
    {
      FilterNone(pairs, op);
    }
    var lib := AppendGroups(if data.Some? then data.value else map[], groups, ModelName(path), batchSize);
    return Built(lib);
  }

  /** The loop over operator types: append each group's entries to its
      type's list, creating the list when the type is new. */
  method AppendGroups(lib0: Library, groups: map<string, seq<Pair>>, model: string, batchSize: int)
    returns (lib: Library)
    ensures forall op :: op in lib <==> op in lib0 || op in groups
    ensures forall op :: op in lib ==>
      lib[op] == (if op in lib0 then lib0[op] else []) + (if op in groups then EntriesOf(groups[op], model, batchSize) else [])
  {
    lib := lib0;
    var todo := groups.Keys;
    while todo != {}
      invariant todo <= groups.Keys
      invariant forall op :: op in lib <==> op in lib0 || (op in groups && op !in todo)
      invariant forall op :: op in lib ==>
        lib[op] == (if op in lib0 then lib0[op] else []) +
                   (if op in groups && op !in todo then EntriesOf(groups[op], model, batchSize) else [])
      decreases |todo|
    {
      var op :| op in todo;
      var entries := AppendEntries(if op in lib then lib[op] else [], groups[op], model, batchSize);
      lib := lib[op := entries];
      todo := todo - {op};
    }
  }

  /** The loop over one type's pairs: append one entry per pair. */
  method AppendEntries(entries0: seq<Entry>, group: seq<Pair>, model: string, batchSize: int)
    returns (entries: seq<Entry>)
    ensures entries == entries0 + EntriesOf(group, model, batchSize)
  {
    entries := entries0;
    var i := 0;
    while i < |group|
      invariant 0 <= i <= |group|
      invariant entries == entries0 + EntriesOf(group[..i], model, batchSize)
    {
      assert EntriesOf(group[..i + 1], model, batchSize) ==
             EntriesOf(group[..i], model, batchSize) + [EntryOf(group[i], model, batchSize)];
      entries := entries + [EntryOf(group[i], model, batchSize)];
      i := i + 1;
    }
    assert group[..i] == group;
  }

  /** The entries a build appends for `op` are exactly the trace's
      operators of type `op`: each such operator is recorded, with its
      kernels and shapes, and every appended entry records one of them. */
  lemma EntriesRecordOperators(events: seq<Event>, path: string, batchSize: int, op: string)
    ensures forall j :: 0 <= j < |Pairing(events, 0, 0)| && Pairing(events, 0, 0)[j].node.opName == op ==>
      EntryOf(Pairing(events, 0, 0)[j], ModelName(path), batchSize) in
        EntriesOf(Filter(Pairing(events, 0, 0), op), ModelName(path), batchSize)
    ensures forall e :: e in EntriesOf(Filter(Pairing(events, 0, 0), op), ModelName(path), batchSize) ==>
      exists p :: p in Pairing(events, 0, 0) && p.node.opName == op && e == EntryOf(p, ModelName(path), batchSize)
  {
    var ps := Pairing(events, 0, 0);
    var group := Filter(ps, op);
    var es := EntriesOf(group, ModelName(path), batchSize);
    forall j | 0 <= j < |ps| && ps[j].node.opName == op
      ensures EntryOf(ps[j], ModelName(path), batchSize) in es
    {
      FilterComplete(ps, op, j);
      var i :| 0 <= i < |group| && group[i] == ps[j];
      assert es[i] == EntryOf(ps[j], ModelName(path), batchSize);
    }
    forall e | e in es
      ensures exists p :: p in ps && p.node.opName == op && e == EntryOf(p, ModelName(path), batchSize)
    {
      var i :| 0 <= i < |es| && es[i] == e;
      assert group[i] in group;
    }
  }

  // -----------------------------------------------------------------------
  // Saving

  /** `save_data_to_json`: the document written, carrying the GPU name,
      version, library and description; loading it gives back the
      library. */
  function SaveDataToJson(data: Library, gpu: string, description: string, version: string): (doc: LibraryDocument)
    ensures LoadJsonData(Some(doc)) == Loaded(data)
    ensures doc.gpu == Some(gpu) && doc.description == Some(description) && doc.version == Some(version)
  {
    LibraryDocument(Some(gpu), Some(version), Some(data), Some(description))
  }
}

=== FILE: kernel_finder.dfy ===
/** The rule-based kernel finder: given the rule library (operator type ->
    historical entries) and a query operator's shapes, predict the kernel
    sequence the operator launches.

    Every strategy first applies gates that depend only on the query (they
    may answer at once), then scans the library entries of the queried type
    in order, rating each one, keeping the first entry with a strictly
    greater score than every earlier one, and stopping early on an exact
    match. The scan is one loop (`ScanEntries`) specified by the fold `Pick`;
    the strategies differ only in their gates (`ConvGate`, ...) and in how
    they rate an entry (`Rate`). */
module KernelFinder {
  import opened Records
  import opened ShapeScore

  /** One library entry: a historical operator's kernel sequence and shapes.
      `inputs[k]` is the document's "input_shape_k". */
  datatype Entry = Entry(
    kernels: seq<Kernel>,
    model: string,
    nodeName: string,
    batchSize: int,
    inputs: seq<Shape>,
    outputs: seq<Shape>)

  /** The operator information submitted for prediction ("node_info"). */
  datatype Query = Query(opName: string, nodeName: string, inputs: seq<Shape>, outputs: seq<Shape>)

  /** The query the evaluators build for a traced operator: its type, its
      name and the shapes of its inputs and outputs, position by position. */
  function QueryOf(n: Node): Query
  {
    Query(n.opName, n.name, Shapes(n.inputs), Shapes(n.outputs))
  }

  /** The rule library: operator type -> entries, in insertion order. */
  type Library = map<string, seq<Entry>>

  /** Why a lookup raised instead of returning: a shape key missing from the
      query or an entry (KeyError), no entry scoring above 0 where the
      strategy indexes the empty target (KeyError on "kernels"), or no
      library list for the operator type (iterating over None). */
  datatype Fault = MissingShape | NoScoredEntry | TypeNotInLibrary

  /** A kernel list (possibly empty: no GPU kernel), "not found" (None), or
      a failure of the lookup itself. */
  datatype MatchResult = Found(kernels: seq<Kernel>) | NotFound | Failed(fault: Fault)

  // -----------------------------------------------------------------------
  // Loading the library

  /** A library document; a field is None when its key is absent. */
  datatype LibraryDocument = LibraryDocument(
    gpu: Option<string>,
    version: Option<string>,
    data: Option<Library>,
    description: Option<string>)

  datatype LoadResult = Loaded(library: Library) | LoadExit(code: int)

  /** `load_json_data`: a null document exits with status 1; a document
      lacking "version" or "data" exits with status 2; otherwise the result
      is exactly the "data" field. */
  function LoadJsonData(doc: Option<LibraryDocument>): (r: LoadResult)
    ensures r.Loaded? <==> doc.Some? && doc.value.version.Some? && doc.value.data.Some?
    ensures r.Loaded? ==> r.library == doc.value.data.value
    ensures r.LoadExit? ==> r.code == (if doc.None? then 1 else 2)
  {
    if doc.None? then LoadExit(1)
    else if doc.value.version.None? then LoadExit(2)
    else if doc.value.data.None? then LoadExit(2)
    else Loaded(doc.value.data.value)
  }

  // -----------------------------------------------------------------------
  // The dispatch table

  datatype Strategy =
    | ConvStrategy | ConcatStrategy | SplitStrategy | SliceStrategy
    | BinaryStrategy | UnaryStrategy
    | EmptyStrategy | MemoryStrategy | UndefinedStrategy

  /** `op_func_dict.get(op, undefined_find_kernel)`. */
  function StrategyFor(op: string): Strategy
  {
    if op == "Conv" then ConvStrategy
    else if op == "Concat" then ConcatStrategy
    else if op == "Split" then SplitStrategy
    else if op == "Slice" then SliceStrategy
    else if op in {"Mul", "Add", "Div", "Sub"} then BinaryStrategy
    else if op in {"Sigmoid", "MaxPool", "Softmax", "Transpose"} then UnaryStrategy
    else if op in {"Reshape", "Resize", "Shape", "Gather"} then EmptyStrategy
    else if op in {"MemcpyFromHost", "MemcpyToHost"} then MemoryStrategy
    else UndefinedStrategy
  }

  // -----------------------------------------------------------------------
  // The scan: rate every entry, keep the first strict maximum, stop early

  /** How one entry fares in a scan: excluded by a gate, raising (a shape
      key missing), or scored, with whether a strict improvement by it ends
      the scan. */
  datatype Rating = Skipped | Broken | Rated(score: real, stop: bool)

  datatype Outcome = Picked(index: nat) | NothingPicked | Aborted

  /** The outcome of a scan and how many entries it visited. */
  datatype ScanResult = ScanResult(outcome: Outcome, visited: nat)

  /** The scan from position `i`, with `best` the greatest score so far
      (starting at 0) and `chosen` the entry that reached it. */
  function PickFrom(rs: seq<Rating>, i: nat, best: real, chosen: Option<nat>): (r: ScanResult)
    requires i <= |rs|
    requires chosen.Some? ==> chosen.value < i
    ensures i <= r.visited <= |rs|
    ensures r.outcome.Picked? ==> r.outcome.index < |rs|
    decreases |rs| - i
  {
    if i == |rs| then ScanResult(if chosen.Some? then Picked(chosen.value) else NothingPicked, i)
    else match rs[i]
      case Skipped => PickFrom(rs, i + 1, best, chosen)
      case Broken => ScanResult(Aborted, i + 1)
      case Rated(s, stop) =>
        if s > best then
          if stop then ScanResult(Picked(i), i + 1) else PickFrom(rs, i + 1, s, Some(i))
        else PickFrom(rs, i + 1, best, chosen)
  }

  /** One step of the scan, written out per rating. */
  lemma PickFromStep(rs: seq<Rating>, i: nat, best: real, chosen: Option<nat>)
    requires i < |rs| && (chosen.Some? ==> chosen.value < i)
    ensures rs[i].Skipped? ==> PickFrom(rs, i, best, chosen) == PickFrom(rs, i + 1, best, chosen)
    ensures rs[i].Broken? ==> PickFrom(rs, i, best, chosen) == ScanResult(Aborted, i + 1)
    ensures rs[i].Rated? && rs[i].score > best && rs[i].stop ==> PickFrom(rs, i, best, chosen) == ScanResult(Picked(i), i + 1)
    ensures rs[i].Rated? && rs[i].score > best && !rs[i].stop ==> PickFrom(rs, i, best, chosen) == PickFrom(rs, i + 1, rs[i].score, Some(i))
    ensures rs[i].Rated? && rs[i].score <= best ==> PickFrom(rs, i, best, chosen) == PickFrom(rs, i + 1, best, chosen)
  {
  }

  function Pick(rs: seq<Rating>): (r: ScanResult)
    ensures r.visited <= |rs|
    ensures r.outcome.Picked? ==> r.outcome.index < |rs|
  {
    PickFrom(rs, 0, 0.0, None)
  }

  /** Entry `i` beats the initial 0 and every earlier scored entry: a scan
      reaching it takes it as the new best. */
  predicate Improves(rs: seq<Rating>, i: int)
    requires 0 <= i < |rs|
  {
    rs[i].Rated? && rs[i].score > 0.0 &&
    forall j :: 0 <= j < i && rs[j].Rated? ==> rs[j].score < rs[i].score
  }

  /** Entry `i` ends a scan early. */
  predicate StopsAt(rs: seq<Rating>, i: int)
    requires 0 <= i < |rs|
  {
    Improves(rs, i) && rs[i].stop
  }

  /** No entry before `k` raises or ends the scan. */
  predicate ClearBefore(rs: seq<Rating>, k: int)
    requires k <= |rs|
  {
    forall j :: 0 <= j < k ==> !rs[j].Broken? && !StopsAt(rs, j)
  }

  /** `i` is the entry a scan keeps: it improves on everything before it,
      nothing before it raises or stops the scan, and either it stops the
      scan or no later entry raises or scores higher. */
  predicate FirstBest(rs: seq<Rating>, i: int)
  {
    0 <= i < |rs| && Improves(rs, i) && ClearBefore(rs, i) &&
    (rs[i].stop || forall j :: i < j < |rs| ==> !rs[j].Broken? && (rs[j].Rated? ==> rs[j].score <= rs[i].score))
  }

  /** What the scan knows after visiting `rs[..i]`. */
  predicate ScanState(rs: seq<Rating>, i: nat, best: real, chosen: Option<nat>)
  {
    && i <= |rs|
    && best >= 0.0
    && (chosen.None? ==> best == 0.0)
    && (chosen.Some? ==> chosen.value < i && Improves(rs, chosen.value) &&
                         rs[chosen.value].score == best && !rs[chosen.value].stop)
    && (forall j :: 0 <= j < i && rs[j].Rated? ==> rs[j].score <= best)
    && ClearBefore(rs, i)
  }

  lemma ScanStep(rs: seq<Rating>, i: nat, best: real, chosen: Option<nat>)
    requires ScanState(rs, i, best, chosen) && i < |rs|
    ensures rs[i].Rated? ==> (Improves(rs, i) <==> rs[i].score > best)
  {
    if rs[i].Rated? && rs[i].score <= best && chosen.Some? {
      assert rs[chosen.value].score >= rs[i].score;
    }
  }

  lemma {:induction false} PickFromPicked(rs: seq<Rating>, i: nat, best: real, chosen: Option<nat>, k: nat)
    requires ScanState(rs, i, best, chosen)
    requires PickFrom(rs, i, best, chosen).outcome == Picked(k)
    ensures FirstBest(rs, k)
    decreases |rs| - i
  {
    if i < |rs| {
      ScanStep(rs, i, best, chosen);
      match rs[i]
      case Skipped =>
        PickFromPicked(rs, i + 1, best, chosen, k);
      case Broken =>
      case Rated(s, stop) =>
        if s > best {
          if !stop {
            PickFromPicked(rs, i + 1, s, Some(i), k);
          }
        } else {
          PickFromPicked(rs, i + 1, best, chosen, k);
        }
    }
  }

  lemma {:induction false} PickFromNothing(rs: seq<Rating>, i: nat, best: real, chosen: Option<nat>)
    requires ScanState(rs, i, best, chosen)
    ensures PickFrom(rs, i, best, chosen).outcome == NothingPicked <==>
      chosen.None? && forall j :: i <= j < |rs| ==> !rs[j].Broken? && (rs[j].Rated? ==> rs[j].score <= 0.0)
    decreases |rs| - i
  {
    if i < |rs| {
      ScanStep(rs, i, best, chosen);
      match rs[i]
      case Skipped =>
        PickFromNothing(rs, i + 1, best, chosen);
      case Broken =>
      case Rated(s, stop) =>
        if s > best {
          if !stop {
            PickFromNothing(rs, i + 1, s, Some(i));
          }
        } else {
          PickFromNothing(rs, i + 1, best, chosen);
        }
    }
  }

  lemma {:induction false} PickFromAborted(rs: seq<Rating>, i: nat, best: real, chosen: Option<nat>)
    requires ScanState(rs, i, best, chosen)
    ensures PickFrom(rs, i, best, chosen).outcome == Aborted <==>
      exists b :: i <= b < |rs| && rs[b].Broken? && ClearBefore(rs, b)
    decreases |rs| - i
  {
    if i < |rs| {
      ScanStep(rs, i, best, chosen);
      match rs[i]
      case Skipped =>
        PickFromAborted(rs, i + 1, best, chosen);
      case Broken =>
      case Rated(s, stop) =>
        if s > best {
          if stop {
            assert StopsAt(rs, i);
          } else {
            PickFromAborted(rs, i + 1, s, Some(i));
          }
        } else {
          PickFromAborted(rs, i + 1, best, chosen);
        }
    }
  }

  /** The entry a scan keeps is the first strict maximum, or the first entry
      that improves and stops the scan. */
  lemma PickPicked(rs: seq<Rating>, k: nat)
    requires Pick(rs).outcome == Picked(k)
    ensures FirstBest(rs, k)
  {
    PickFromPicked(rs, 0, 0.0, None, k);
  }

  /** A scan keeps nothing exactly when no entry raises and none scores
      above 0. */
  lemma PickNothing(rs: seq<Rating>)
    ensures Pick(rs).outcome == NothingPicked <==>
      forall j :: 0 <= j < |rs| ==> !rs[j].Broken? && (rs[j].Rated? ==> rs[j].score <= 0.0)
  {
    PickFromNothing(rs, 0, 0.0, None);
  }

  /** A scan raises exactly when it reaches an entry that raises. */
  lemma PickAborted(rs: seq<Rating>)
    ensures Pick(rs).outcome == Aborted <==>
      exists b :: 0 <= b < |rs| && rs[b].Broken? && ClearBefore(rs, b)
  {
    PickFromAborted(rs, 0, 0.0, None);
  }

  /** The scan ends at the first entry that improves and stops it, when no
      entry before it raises. */
  lemma PickStops(rs: seq<Rating>, k: nat)
    requires k < |rs| && StopsAt(rs, k) && ClearBefore(rs, k)
    ensures Pick(rs) == ScanResult(Picked(k), k + 1)
  {
    PickPrefix(rs, 0, 0.0, None, k);
  }

  lemma {:induction false} PickPrefix(rs: seq<Rating>, i: nat, best: real, chosen: Option<nat>, k: nat)
    requires ScanState(rs, i, best, chosen) && i <= k < |rs|
    requires StopsAt(rs, k) && ClearBefore(rs, k)
    ensures PickFrom(rs, i, best, chosen) == ScanResult(Picked(k), k + 1)
    decreases k - i
  {
    ScanStep(rs, i, best, chosen);
    if i < k {
      match rs[i]
      case Skipped =>
        PickPrefix(rs, i + 1, best, chosen, k);
      case Broken =>
      case Rated(s, stop) =>
        if s > best {
          PickPrefix(rs, i + 1, s, Some(i), k);
        } else {
          PickPrefix(rs, i + 1, best, chosen, k);
        }
    }
  }

  // -----------------------------------------------------------------------
  // Rating entries

  /** The scan configuration a strategy's gates produce from the query. */
  datatype Plan =
    | ConvPlan(bias: bool)
    | ConcatPlan(arity: nat, allSame: bool, full: real)
    | SplitPlan(arity: nat, allSame: bool, full: real)
    | SlicePlan
    | BinaryPlan
    | UnaryPlan(full: real)

  /** Conv's full score: input, weight and output of rank 4, plus a rank-1
      bias when the query has one. */
  function ConvFull(bias: bool): real
  {
    FullScore(4, TotalSizeWeight) * 3.0 + (if bias then FullScore(1, TotalSizeWeight) else 0.0)
  }

  /** The summed scores of the first `n` shapes of two shape lists. */
  function PrefixScore(ts: seq<Shape>, gs: seq<Shape>, n: nat): real
    requires n <= |ts| && n <= |gs|
  {
    if n == 0 then 0.0 else PrefixScore(ts, gs, n - 1) + Score(ts[n - 1], gs[n - 1])
  }

  /** The binary operators' repair of a capture defect: an empty shape among
      the first two operands reads as [1]. */
  function Normalized(shapes: seq<Shape>): (r: seq<Shape>)
    ensures |r| == |shapes|
    ensures forall i :: 0 <= i < |shapes| ==> r[i] == (if i < 2 && shapes[i] == [] then [1] else shapes[i])
  {
    seq(|shapes|, i requires 0 <= i < |shapes| => if i < 2 && shapes[i] == [] then [1] else shapes[i])
  }

  function NormalizeEntry(e: Entry): Entry
  {
    e.(inputs := Normalized(e.inputs))
  }

  function NormalizeQuery(q: Query): Query
  {
    q.(inputs := Normalized(q.inputs))
  }

  lemma NormalizedIdempotent(shapes: seq<Shape>)
    ensures Normalized(Normalized(shapes)) == Normalized(shapes)
  {
  }

  /** True when every shape equals the first. */
  predicate AllSame(shapes: seq<Shape>)
  {
    forall i :: 0 <= i < |shapes| ==> shapes[i] == shapes[0]
  }

  /** How one scanned entry fares under a plan. */
  function Rate(plan: Plan, q: Query, e: Entry): Rating
  {
    match plan
    case ConvPlan(bias) =>
      if (|e.inputs| > 2) != bias then Skipped
      else if |q.inputs| < 2 || |e.inputs| < 2 || (bias && |q.inputs| < 3) || |q.outputs| < 1 || |e.outputs| < 1 then Broken
      else
        var s := Score(q.inputs[0], e.inputs[0]) + Score(q.inputs[1], e.inputs[1])
          + (if bias then Score(q.inputs[2], e.inputs[2]) else 0.0)
          + Score(q.outputs[0], e.outputs[0]);
        Rated(s, s == ConvFull(bias))
    case ConcatPlan(n, same, full) =>
      if |e.inputs| != n then Skipped
      else if same && |e.kernels| > 1 then Skipped
      else if !same && |e.kernels| == 1 then Skipped
      else if |q.inputs| < n || |q.outputs| < 1 || |e.outputs| < 1 then Broken
      else
        var s := PrefixScore(q.inputs, e.inputs, n) + Score(q.outputs[0], e.outputs[0]);
        Rated(s, s == full)
    case SplitPlan(n, same, full) =>
      if |e.outputs| != n then Skipped
      else if same && |e.kernels| > 1 then Skipped
      else if !same && |e.kernels| == 2 then Skipped
      else if |q.outputs| < n || |q.inputs| < 1 || |e.inputs| < 1 then Broken
      else
        var s := PrefixScore(q.outputs, e.outputs, n) + Score(q.inputs[0], e.inputs[0]);
        Rated(s, s == full)
    case SlicePlan =>
      if |q.inputs| < 4 || |e.inputs| < 4 || |q.outputs| < 1 || |e.outputs| < 1 then Broken
      else Rated(PrefixScore(q.inputs, e.inputs, 4) + Score(q.outputs[0], e.outputs[0]), false)
    case BinaryPlan =>
      var n := NormalizeEntry(e);
      if |q.inputs| < 2 || |n.inputs| < 2 || |q.outputs| < 1 || |n.outputs| < 1 then Broken
      else
        var s := Score(q.inputs[0], n.inputs[0]) + Score(q.inputs[1], n.inputs[1])
          + Score(q.outputs[0], n.outputs[0]);
        Rated(s, q.inputs[0] == n.inputs[0] && q.inputs[1] == n.inputs[1] && q.outputs[0] == n.outputs[0])
    case UnaryPlan(full) =>
      if |q.inputs| < 1 || |e.inputs| < 1 || |q.outputs| < 1 || |e.outputs| < 1 then Broken
      else
        var s := Score(q.inputs[0], e.inputs[0]) + Score(q.outputs[0], e.outputs[0]);
        Rated(s, s == full)
  }

  function Ratings(plan: Plan, q: Query, es: seq<Entry>): (rs: seq<Rating>)
    ensures |rs| == |es|
    ensures forall i :: 0 <= i < |es| ==> rs[i] == Rate(plan, q, es[i])
  {
    seq(|es|, i requires 0 <= i < |es| => Rate(plan, q, es[i]))
  }

  // -----------------------------------------------------------------------
  // Strategies

  /** A strategy's answer before scanning, or the plan of its scan and the
      (possibly rewritten) query the scan uses. */
  datatype Gate = Answer(result: MatchResult) | Search(plan: Plan, query: Query)

  /** `conv_find_kernel`'s gates: the weight must have rank 4; the query's
      bias ("input_shape_2") decides which entries may compete. */
  function ConvGate(q: Query): Gate
  {
    if |q.inputs| < 2 then Answer(Failed(MissingShape))
    else if |q.inputs[1]| != 4 then Answer(NotFound)
    else Search(ConvPlan(|q.inputs| > 2), q)
  }

  /** `concat_find_kernel`'s gates: the input count and whether all inputs
      share one shape. */
  function ConcatGate(q: Query): Gate
  {
    if |q.inputs| == 0 then Answer(Failed(MissingShape))
    else
      var n := |q.inputs|;
      Search(ConcatPlan(n, AllSame(q.inputs), FullScore(|q.inputs[0]|, TotalSizeWeight) * (n + 1) as real), q)
  }

  /** `split_find_kernel`'s gates: the output count and whether all outputs
      share one shape. */
  function SplitGate(q: Query): Gate
  {
    if |q.outputs| == 0 then Answer(Failed(MissingShape))
    else
      var n := |q.outputs|;
      Search(SplitPlan(n, AllSame(q.outputs), FullScore(|q.outputs[0]|, TotalSizeWeight) * (n + 1) as real), q)
  }

  /** `slice_find_kernel`'s guard: data, starts, ends and axes inputs. */
  function SliceGate(q: Query): Gate
  {
    if |q.inputs| < 4 then Answer(NotFound) else Search(SlicePlan, q)
  }

  /** `simple_binary_find_kernel`'s gates: empty operand shapes read as [1],
      and two [1] operands run off the GPU. */
  function BinaryGate(q: Query): Gate
  {
    var n := NormalizeQuery(q);
    if |q.inputs| < 2 then Answer(Failed(MissingShape))
    else if n.inputs[0] == [1] && n.inputs[1] == [1] then Answer(Found([]))
    else Search(BinaryPlan, n)
  }

  /** `simple_unary_find_kernel`'s setup: the full score of one input and
      one output. */
  function UnaryGate(q: Query): Gate
  {
    if |q.inputs| < 1 || |q.outputs| < 1 then Answer(Failed(MissingShape))
    else Search(UnaryPlan(FullScore(|q.inputs[0]|, TotalSizeWeight) + FullScore(|q.outputs[0]|, TotalSizeWeight)), q)
  }

  function GateFor(s: Strategy, q: Query): Gate
  {
    match s
    case ConvStrategy => ConvGate(q)
    case ConcatStrategy => ConcatGate(q)
    case SplitStrategy => SplitGate(q)
    case SliceStrategy => SliceGate(q)
    case BinaryStrategy => BinaryGate(q)
    case UnaryStrategy => UnaryGate(q)
    case EmptyStrategy => Answer(Found([]))
    case MemoryStrategy => Answer(NotFound)
    case UndefinedStrategy => Answer(NotFound)
  }

  /** The strategy's answer for a scan outcome: the kept entry's kernels; a
      raise; or, when nothing scored above 0, None for Conv, Concat and
      Split and a raise for the others (they index an empty target). */
  function Conclude(plan: Plan, es: seq<Entry>, o: Outcome): MatchResult
    requires o.Picked? ==> o.index < |es|
  {
    match o
    case Picked(i) => Found(es[i].kernels)
    case Aborted => Failed(MissingShape)
    case NothingPicked =>
      if plan.ConvPlan? || plan.ConcatPlan? || plan.SplitPlan? then NotFound else Failed(NoScoredEntry)
  }

  /** A strategy applied to `data.get(op)`. */
  function Run(g: Gate, entries: Option<seq<Entry>>): MatchResult
  {
    match g
    case Answer(r) => r
    case Search(plan, q) =>
      if entries.None? then Failed(TypeNotInLibrary)
      else Conclude(plan, entries.value, Pick(Ratings(plan, q, entries.value)).outcome)
  }

  /** `data.get(op)`. */
  function Get(lib: Library, op: string): Option<seq<Entry>>
  {
    if op in lib then Some(lib[op]) else None
  }

  /** `find_best_match_kernels`: operators that launch no kernel answer the
      empty list, memory copies and unregistered types answer None, and a
      scanning strategy for a type the library lacks raises, whatever the
      library holds. */
  function Match(lib: Library, q: Query): (r: MatchResult)
    ensures q.opName in {"Reshape", "Resize", "Shape", "Gather"} ==> r == Found([])
    ensures q.opName in {"MemcpyFromHost", "MemcpyToHost"} ==> r == NotFound
    ensures StrategyFor(q.opName) == UndefinedStrategy ==> r == NotFound
    ensures GateFor(StrategyFor(q.opName), q).Search? && q.opName !in lib ==> r == Failed(TypeNotInLibrary)
  {
    Run(GateFor(StrategyFor(q.opName), q), Get(lib, q.opName))
  }

  /** What a lookup predicts, for a lookup that returned: `None` for "not found". */
  function Prediction(r: MatchResult): Option<seq<Kernel>>
    requires !r.Failed?
  {
    if r.Found? then Some(r.kernels) else None
  }

  /** The query after the call: binary operators rewrite empty operand
      shapes to [1] in place. */
  function QueryAfter(q: Query): Query
  {
    if StrategyFor(q.opName) == BinaryStrategy then NormalizeQuery(q) else q
  }

  /** The first `k` entries normalized, the rest untouched. */
  function NormalizePrefix(es: seq<Entry>, k: nat): (r: seq<Entry>)
    requires k <= |es|
    ensures |r| == |es|
    ensures forall i :: 0 <= i < |es| ==> r[i] == (if i < k then NormalizeEntry(es[i]) else es[i])
  {
    seq(|es|, i requires 0 <= i < |es| => if i < k then NormalizeEntry(es[i]) else es[i])
  }

  lemma NormalizeStep(es: seq<Entry>, i: nat)
    requires i < |es|
    ensures NormalizePrefix(es, i)[i := NormalizeEntry(es[i])] == NormalizePrefix(es, i + 1)
  {
  }

  /** The library after the call: the binary strategy rewrites the operand
      shapes of every entry it visits, in place. */
  function LibraryAfter(lib: Library, q: Query): Library
  {
    match GateFor(StrategyFor(q.opName), q)
    case Answer(_) => lib
    case Search(plan, sq) =>
      if plan.BinaryPlan? && q.opName in lib
      then lib[q.opName := NormalizePrefix(lib[q.opName], Pick(Ratings(plan, sq, lib[q.opName])).visited)]
      else lib
  }

  // -----------------------------------------------------------------------
  // The imperative scan and lookup

  /** The scan loop shared by every strategy: rate the entries in order,
      keep the first strict maximum, return early on a stopping
      improvement or a raise. The binary plan rewrites each visited entry. */
  method ScanEntries(plan: Plan, q: Query, entries: seq<Entry>)
    returns (outcome: Outcome, visited: nat, touched: seq<Entry>)
    ensures ScanResult(outcome, visited) == Pick(Ratings(plan, q, entries))
    ensures visited <= |entries|
    ensures touched == if plan.BinaryPlan? then NormalizePrefix(entries, visited) else entries
  {
    ghost var rs := Ratings(plan, q, entries);
    var best := 0.0;
    var chosen: Option<nat> := None;
    touched := entries;
    var i := 0;
    while i < |entries|
      invariant 0 <= i <= |entries|
      invariant chosen.Some? ==> chosen.value < i
      invariant Pick(rs) == PickFrom(rs, i, best, chosen)
      invariant touched == if plan.BinaryPlan? then NormalizePrefix(entries, i) else entries
    {
      if plan.BinaryPlan? {
        NormalizeStep(entries, i);
        touched := touched[i := NormalizeEntry(entries[i])];
      }
      var rating := Rate(plan, q, entries[i]);
      assert rating == rs[i];
      PickFromStep(rs, i, best, chosen);
      if rating.Broken? {
        return Aborted, i + 1, touched;
      } else if rating.Rated? && rating.score > best {
        best, chosen := rating.score, Some(i);
        if rating.stop {
          return Picked(i), i + 1, touched;
        }
      }
      i := i + 1;
    }
    outcome := if chosen.Some? then Picked(chosen.value) else NothingPicked;
    visited := |entries|;
  }

  /** `find_best_match_kernels`, with the in-place rewrites of the query and
      of the library made explicit as results. */
  method FindBestMatchKernels(lib: Library, q: Query) returns (r: MatchResult, q': Query, lib': Library)
    ensures r == Match(lib, q)
    ensures q' == QueryAfter(q)
    ensures lib' == LibraryAfter(lib, q)
  {
    q' := QueryAfter(q);
    lib' := lib;
    var gate := GateFor(StrategyFor(q.opName), q);
    if gate.Answer? {
      r := gate.result;
    } else if q.opName !in lib {
      r := Failed(TypeNotInLibrary);
    } else {
      var entries := lib[q.opName];
      var outcome, visited, touched := ScanEntries(gate.plan, gate.query, entries);
      r := Conclude(gate.plan, entries, outcome);
      if gate.plan.BinaryPlan? {
        lib' := lib[q.opName := touched];
      }
    }
  }
}

=== FILE: kernel_finder_properties.dfy ===
/** What the kernel finder promises: a found list is the kernels of the
    entry the scan keeps; the three kinds of outcome are told apart; each
    strategy's gates decide which entries may compete; an exact match wins;
    and the in-place rewrites of the binary strategy never change what a
    later lookup answers. */
module KernelFinderProperties {
  import opened Records
  import opened ShapeScore
  import opened KernelFinder

  // -----------------------------------------------------------------------
  // The outcome of a scanning strategy

  /** A found list is the kernel list of the library entry the scan keeps:
      the first one scoring strictly above all before it, unless an earlier
      entry matched exactly. */
  lemma FoundIsFirstBest(lib: Library, q: Query, plan: Plan, sq: Query)
    requires GateFor(StrategyFor(q.opName), q) == Search(plan, sq)
    requires Match(lib, q).Found?
    ensures q.opName in lib
    ensures exists i :: FirstBest(Ratings(plan, sq, lib[q.opName]), i) &&
                        Match(lib, q).kernels == lib[q.opName][i].kernels
  {
    var rs := Ratings(plan, sq, lib[q.opName]);
    var i := Pick(rs).outcome.index;
    PickPicked(rs, i);
  }

  /** Whatever a lookup finds is either the empty list or the kernel list
      of some library entry of the queried type. */
  lemma FoundComesFromLibrary(lib: Library, q: Query)
    requires Match(lib, q).Found?
    ensures Match(lib, q).kernels == [] ||
      (q.opName in lib && exists i :: 0 <= i < |lib[q.opName]| && lib[q.opName][i].kernels == Match(lib, q).kernels)
  {
    var g := GateFor(StrategyFor(q.opName), q);
    if g.Search? {
      FoundIsFirstBest(lib, q, g.plan, g.query);
    }
  }

  /** No entry raises and none scores above 0. */
  predicate NoneScores(rs: seq<Rating>)
  {
    forall j :: 0 <= j < |rs| ==> !rs[j].Broken? && (rs[j].Rated? ==> rs[j].score <= 0.0)
  }

  /** A scanning strategy raises on a missing shape exactly when the scan
      reaches an entry lacking one; it finds nothing exactly when no entry
      scores above 0, answering None for Conv, Concat and Split and raising
      for the others. */
  lemma ScanOutcomes(lib: Library, q: Query, plan: Plan, sq: Query)
    requires GateFor(StrategyFor(q.opName), q) == Search(plan, sq)
    requires q.opName in lib
    ensures Match(lib, q) == Failed(MissingShape) <==>
      exists b :: 0 <= b < |lib[q.opName]| && Ratings(plan, sq, lib[q.opName])[b].Broken? &&
                  ClearBefore(Ratings(plan, sq, lib[q.opName]), b)
    ensures (plan.ConvPlan? || plan.ConcatPlan? || plan.SplitPlan?) ==>
      (Match(lib, q) == NotFound <==> NoneScores(Ratings(plan, sq, lib[q.opName])))
    ensures !(plan.ConvPlan? || plan.ConcatPlan? || plan.SplitPlan?) ==>
      (Match(lib, q) == Failed(NoScoredEntry) <==> NoneScores(Ratings(plan, sq, lib[q.opName])))
  {
    var rs := Ratings(plan, sq, lib[q.opName]);
    PickAborted(rs);
    PickNothing(rs);
  }

  // -----------------------------------------------------------------------
  // Gates per strategy

  /** Conv: a weight of rank other than 4 is not found, and a found list
      comes from an entry whose bias presence equals the query's. */
  lemma ConvGates(lib: Library, q: Query)
    requires q.opName == "Conv"
    ensures |q.inputs| >= 2 && |q.inputs[1]| != 4 ==> Match(lib, q) == NotFound
    ensures Match(lib, q).Found? ==> ("Conv" in lib &&
      exists i :: 0 <= i < |lib["Conv"]| &&
        (|lib["Conv"][i].inputs| > 2 <==> |q.inputs| > 2) &&
        Match(lib, q).kernels == lib["Conv"][i].kernels)
  {
    var g := GateFor(StrategyFor(q.opName), q);
    if Match(lib, q).Found? && g.Search? {
      FoundIsFirstBest(lib, q, g.plan, g.query);
    }
  }

  /** Concat: a found list comes from an entry with as many inputs as the
      query; when all inputs share one shape the entry launched at most one
      kernel, otherwise not exactly one. When no entry has the query's input
      count the answer is None. */
  lemma ConcatGates(lib: Library, q: Query)
    requires q.opName == "Concat"
    ensures Match(lib, q).Found? ==> ("Concat" in lib &&
      exists i :: 0 <= i < |lib["Concat"]| &&
        |lib["Concat"][i].inputs| == |q.inputs| &&
        (AllSame(q.inputs) ==> |lib["Concat"][i].kernels| <= 1) &&
        (!AllSame(q.inputs) ==> |lib["Concat"][i].kernels| != 1) &&
        Match(lib, q).kernels == lib["Concat"][i].kernels)
    ensures ("Concat" in lib && |q.inputs| > 0 &&
             forall i :: 0 <= i < |lib["Concat"]| ==> |lib["Concat"][i].inputs| != |q.inputs|)
            ==> Match(lib, q) == NotFound
  {
    var g := GateFor(StrategyFor(q.opName), q);
    if g.Search? {
      if Match(lib, q).Found? {
        FoundIsFirstBest(lib, q, g.plan, g.query);
      }
      if "Concat" in lib {
        PickNothing(Ratings(g.plan, g.query, lib["Concat"]));
      }
    }
  }

  /** Split: the same over outputs; a split whose outputs differ never takes
      an entry that launched exactly two kernels. */
  lemma SplitGates(lib: Library, q: Query)
    requires q.opName == "Split"
    ensures Match(lib, q).Found? ==> ("Split" in lib &&
      exists i :: 0 <= i < |lib["Split"]| &&
        |lib["Split"][i].outputs| == |q.outputs| &&
        (AllSame(q.outputs) ==> |lib["Split"][i].kernels| <= 1) &&
        (!AllSame(q.outputs) ==> |lib["Split"][i].kernels| != 2) &&
        Match(lib, q).kernels == lib["Split"][i].kernels)
    ensures ("Split" in lib && |q.outputs| > 0 &&
             forall i :: 0 <= i < |lib["Split"]| ==> |lib["Split"][i].outputs| != |q.outputs|)
            ==> Match(lib, q) == NotFound
  {
    var g := GateFor(StrategyFor(q.opName), q);
    if g.Search? {
      if Match(lib, q).Found? {
        FoundIsFirstBest(lib, q, g.plan, g.query);
      }
      if "Split" in lib {
        PickNothing(Ratings(g.plan, g.query, lib["Split"]));
      }
    }
  }

  /** Slice: fewer than four inputs is not found; otherwise the scan never
      stops early, so a found list comes from the first entry of greatest
      score over the whole list. */
  lemma SliceGates(lib: Library, q: Query)
    requires q.opName == "Slice"
    ensures |q.inputs| < 4 ==> Match(lib, q) == NotFound
    ensures Match(lib, q).Found? ==> ("Slice" in lib &&
      exists i :: 0 <= i < |lib["Slice"]| &&
        Ratings(SlicePlan, q, lib["Slice"])[i].Rated? &&
        (forall j :: 0 <= j < |lib["Slice"]| && Ratings(SlicePlan, q, lib["Slice"])[j].Rated? ==>
           Ratings(SlicePlan, q, lib["Slice"])[j].score <= Ratings(SlicePlan, q, lib["Slice"])[i].score) &&
        (forall j :: 0 <= j < i && Ratings(SlicePlan, q, lib["Slice"])[j].Rated? ==>
           Ratings(SlicePlan, q, lib["Slice"])[j].score < Ratings(SlicePlan, q, lib["Slice"])[i].score) &&
        Match(lib, q).kernels == lib["Slice"][i].kernels)
  {
    assert GateFor(StrategyFor(q.opName), q) == SliceGate(q);
    if |q.inputs| >= 4 && Match(lib, q).Found? {
      FoundIsFirstBest(lib, q, SlicePlan, q);
      var rs := Ratings(SlicePlan, q, lib["Slice"]);
      var i :| FirstBest(rs, i) && Match(lib, q).kernels == lib["Slice"][i].kernels;
      assert !rs[i].stop;
      forall j | 0 <= j < |rs| && rs[j].Rated?
        ensures rs[j].score <= rs[i].score
      {
        if j < i {
          assert rs[j].score < rs[i].score;
        }
      }
    }
  }

  /** Binary operators: two operands that are scalars (shape [] or [1])
      launch no kernel, whatever the library holds. */
  lemma BinaryScalarOperands(lib: Library, q: Query)
    requires StrategyFor(q.opName) == BinaryStrategy && |q.inputs| >= 2
    requires q.inputs[0] == [] || q.inputs[0] == [1]
    requires q.inputs[1] == [] || q.inputs[1] == [1]
    ensures Match(lib, q) == Found([])
  {
  }

  // -----------------------------------------------------------------------
  // An exact match wins (unary operators)

  /** An entry a unary query can be scored against without raising, with
      the query's ranks and positive dimensions. */
  predicate Comparable(q: Query, e: Entry)
    requires |q.inputs| >= 1 && |q.outputs| >= 1
  {
    |e.inputs| >= 1 && |e.outputs| >= 1 &&
    |e.inputs[0]| == |q.inputs[0]| && |e.outputs[0]| == |q.outputs[0]| &&
    AllPositive(e.inputs[0]) && AllPositive(e.outputs[0])
  }

  predicate ExactFor(q: Query, e: Entry)
    requires |q.inputs| >= 1 && |q.outputs| >= 1
  {
    |e.inputs| >= 1 && |e.outputs| >= 1 && e.inputs[0] == q.inputs[0] && e.outputs[0] == q.outputs[0]
  }

  function UnaryFull(q: Query): real
    requires |q.inputs| >= 1 && |q.outputs| >= 1
  {
    FullScore(|q.inputs[0]|, TotalSizeWeight) + FullScore(|q.outputs[0]|, TotalSizeWeight)
  }

  /** A comparable entry scores at most the full score, reaching it (and so
      stopping the scan) exactly when its shapes equal the query's. */
  lemma UnaryRating(q: Query, e: Entry)
    requires |q.inputs| >= 1 && |q.outputs| >= 1
    requires AllPositive(q.inputs[0]) && AllPositive(q.outputs[0])
    requires Comparable(q, e)
    ensures Rate(UnaryPlan(UnaryFull(q)), q, e).Rated?
    ensures 0.0 < Rate(UnaryPlan(UnaryFull(q)), q, e).score <= UnaryFull(q)
    ensures Rate(UnaryPlan(UnaryFull(q)), q, e).stop <==> ExactFor(q, e)
    ensures Rate(UnaryPlan(UnaryFull(q)), q, e).stop <==> Rate(UnaryPlan(UnaryFull(q)), q, e).score == UnaryFull(q)
  {
    ScoreAtMostFull(q.inputs[0], e.inputs[0]);
    ScoreAtMostFull(q.outputs[0], e.outputs[0]);
  }

  /** A unary lookup answers with the kernel list of the first entry with
      exactly the query's shapes, when every entry before it has the
      query's ranks and positive dimensions. Entries after it are never
      read: the scan stops there. */
  lemma UnaryExactMatch(lib: Library, q: Query, k: nat)
    requires StrategyFor(q.opName) == UnaryStrategy && q.opName in lib
    requires |q.inputs| >= 1 && |q.outputs| >= 1
    requires AllPositive(q.inputs[0]) && AllPositive(q.outputs[0])
    requires k < |lib[q.opName]| && ExactFor(q, lib[q.opName][k])
    requires forall j :: 0 <= j < k ==> Comparable(q, lib[q.opName][j]) && !ExactFor(q, lib[q.opName][j])
    ensures Match(lib, q) == Found(lib[q.opName][k].kernels)
  {
    var es := lib[q.opName];
    var plan := UnaryPlan(UnaryFull(q));
    assert GateFor(StrategyFor(q.opName), q) == Search(plan, q);
    var rs := Ratings(plan, q, es);
    assert Comparable(q, es[k]);
    forall j | 0 <= j <= k
      ensures rs[j].Rated? && 0.0 < rs[j].score <= UnaryFull(q)
      ensures rs[j].stop <==> ExactFor(q, es[j])
      ensures rs[j].stop <==> rs[j].score == UnaryFull(q)
    {
      UnaryRating(q, es[j]);
    }
    assert Improves(rs, k);
    assert StopsAt(rs, k);
    assert ClearBefore(rs, k);
    PickStops(rs, k);
  }

  /** A scalar input reads as a full match for a unit shape: the product of
      [] is 1, so the size term alone reaches the full score of rank 0. A
      unary query with input [] therefore stops at a first entry whose input
      is [1] and whose output is the query's, although that entry is not
      exact. */
  lemma ScalarInputMatchesUnitShape(lib: Library, q: Query)
    requires StrategyFor(q.opName) == UnaryStrategy && q.opName in lib && |lib[q.opName]| >= 1
    requires |q.inputs| >= 1 && |q.outputs| >= 1 && q.inputs[0] == [] && AllPositive(q.outputs[0])
    requires |lib[q.opName][0].inputs| >= 1 && lib[q.opName][0].inputs[0] == [1]
    requires |lib[q.opName][0].outputs| >= 1 && lib[q.opName][0].outputs[0] == q.outputs[0]
    ensures Match(lib, q) == Found(lib[q.opName][0].kernels)
    ensures !ExactFor(q, lib[q.opName][0])
  {
    var es := lib[q.opName];
    var plan := UnaryPlan(UnaryFull(q));
    assert GateFor(StrategyFor(q.opName), q) == Search(plan, q);
    var rs := Ratings(plan, q, es);
    assert AllPositive([1]);
    ScoreAtMostFull([], [1]);
    ScoreAtMostFull(q.outputs[0], q.outputs[0]);
    assert rs[0] == Rated(UnaryFull(q), true);
    assert StopsAt(rs, 0);
    PickStops(rs, 0);
  }

  // -----------------------------------------------------------------------
  // The in-place rewrites are invisible to later lookups

  /** Two entry lists that agree once empty operand shapes read as [1]. */
  predicate SameUpToNormalization(a: seq<Entry>, b: seq<Entry>)
  {
    |a| == |b| && forall i :: 0 <= i < |a| ==> NormalizeEntry(a[i]) == NormalizeEntry(b[i])
  }

  /** `lib` arises from `lib0` by rewriting entries of binary operator types. */
  predicate Descends(lib: Library, lib0: Library)
  {
    lib.Keys == lib0.Keys &&
    forall op :: op in lib ==>
      lib[op] == lib0[op] ||
      (StrategyFor(op) == BinaryStrategy && SameUpToNormalization(lib[op], lib0[op]))
  }

  lemma RateIgnoresNormalization(q: Query, e: Entry)
    ensures Rate(BinaryPlan, q, NormalizeEntry(e)) == Rate(BinaryPlan, q, e)
  {
    NormalizedIdempotent(e.inputs);
  }

  /** Lookups cannot tell a library from one it descends to. */
  lemma MatchUnchanged(lib: Library, lib0: Library, q: Query)
    requires Descends(lib, lib0)
    ensures Match(lib, q) == Match(lib0, q)
  {
    var op := q.opName;
    var g := GateFor(StrategyFor(op), q);
    if g.Search? && op in lib && lib[op] != lib0[op] {
      var a, b := lib[op], lib0[op];
      assert g.plan == BinaryPlan;
      forall i | 0 <= i < |a|
        ensures Rate(BinaryPlan, g.query, a[i]) == Rate(BinaryPlan, g.query, b[i])
      {
        RateIgnoresNormalization(g.query, a[i]);
        RateIgnoresNormalization(g.query, b[i]);
      }
      assert Ratings(BinaryPlan, g.query, a) == Ratings(BinaryPlan, g.query, b);
      var o := Pick(Ratings(BinaryPlan, g.query, a)).outcome;
      if o.Picked? {
        assert NormalizeEntry(a[o.index]).kernels == NormalizeEntry(b[o.index]).kernels;
      }
    }
  }

  /** The library after a lookup descends from the library before it. */
  lemma LibraryAfterDescends(lib: Library, q: Query)
    ensures Descends(LibraryAfter(lib, q), lib)
  {
    var op := q.opName;
    var g := GateFor(StrategyFor(op), q);
    if g.Search? && g.plan.BinaryPlan? && op in lib {
      var es := lib[op];
      var k := Pick(Ratings(g.plan, g.query, es)).visited;
      forall i | 0 <= i < |es|
        ensures NormalizeEntry(NormalizePrefix(es, k)[i]) == NormalizeEntry(es[i])
      {
        NormalizedIdempotent(es[i].inputs);
      }
    }
  }

  lemma DescendsTransitive(a: Library, b: Library, c: Library)
    requires Descends(a, b) && Descends(b, c)
    ensures Descends(a, c)
  {
  }

  /** A lookup in a library that descends from `lib0` answers as `lib0`
      would, and leaves a library that still descends from `lib0`. */
  lemma LookupStep(current: Library, lib0: Library, q: Query)
    requires Descends(current, lib0)
    ensures Match(current, q) == Match(lib0, q)
    ensures Descends(LibraryAfter(current, q), lib0)
  {
    MatchUnchanged(current, lib0, q);
    LibraryAfterDescends(current, q);
    DescendsTransitive(LibraryAfter(current, q), current, lib0);
  }

  /** A lookup's rewrites of the library never change what a later lookup
      answers, and repeating a lookup on its own rewritten query and library
      answers the same. */
  lemma LookupsIndependent(lib: Library, q: Query, q2: Query)
    ensures Match(LibraryAfter(lib, q), q2) == Match(lib, q2)
    ensures Match(LibraryAfter(lib, q), QueryAfter(q)) == Match(lib, q)
  {
    LibraryAfterDescends(lib, q);
    MatchUnchanged(LibraryAfter(lib, q), lib, q2);
    MatchUnchanged(LibraryAfter(lib, q), lib, QueryAfter(q));
    NormalizedIdempotent(q.inputs);
  }
}

=== FILE: ncu_integrator.dfy ===
/** Joining per-kernel profiler metrics (one table row per kernel ID and
    metric) onto the kernels of trace pairs, by the sequence number trace
    pairing gave each non-copy kernel. */
module NcuIntegrator {
  import opened Records
  import opened TraceParser

  /** One row of the profiler's metric table. */
  datatype MetricRow = MetricRow(id: int, metricName: string, value: real, unit: string)

  /** The metrics copied onto every kernel, in the order they are filled. */
  const MetricNames: seq<string> := [
    "Compute (SM) Throughput", "Memory Throughput", "SM Active Cycles", "Elapsed Cycles",
    "Registers Per Thread", "# SMs", "Shared Memory Configuration Size",
    "Driver Shared Memory Per Block", "Dynamic Shared Memory Per Block", "Static Shared Memory Per Block",
    "Block Limit SM", "Block Limit Registers", "Block Limit Shared Mem", "Block Limit Warps",
    "Theoretical Active Warps per SM", "Theoretical Occupancy", "Achieved Occupancy",
    "Achieved Active Warps Per SM"]

  /** The rows of one kernel ID, in table order. */
  function RowsFor(table: seq<MetricRow>, id: int): (r: seq<MetricRow>)
    ensures forall x :: x in r ==> x in table && x.id == id
  {
    if table == [] then []
    else RowsFor(table[..|table| - 1], id) + (if table[|table| - 1].id == id then [table[|table| - 1]] else [])
  }

  /** The rows of one metric, in table order. */
  function RowsNamed(rows: seq<MetricRow>, name: string): (r: seq<MetricRow>)
    ensures forall x :: x in r ==> x in rows && x.metricName == name
  {
    if rows == [] then []
    else RowsNamed(rows[..|rows| - 1], name) + (if rows[|rows| - 1].metricName == name then [rows[|rows| - 1]] else [])
  }

  /** The largest ID of the table, None for an empty table (whose maximum
      is not a number and equals nothing). */
  function MaxId(table: seq<MetricRow>): (r: Option<int>)
    ensures r.None? <==> table == []
    ensures r.Some? ==> (exists x :: x in table && x.id == r.value) && forall x :: x in table ==> x.id <= r.value
  {
    if table == [] then None
    else
      var rest := MaxId(table[..|table| - 1]);
      var id := table[|table| - 1].id;
      assert table == table[..|table| - 1] + [table[|table| - 1]];
      if rest.None? || rest.value < id then Some(id) else rest
  }

  /** `_fill_kernel_metric`: a metric is recorded only when exactly one row
      of the kernel's rows carries its name; otherwise (none or several)
      the metrics stay as they were. */
  function FillKernelMetric(ncu: map<string, Measurement>, idRows: seq<MetricRow>, name: string): (r: map<string, Measurement>)
    ensures |RowsNamed(idRows, name)| == 1 ==> r.Keys == ncu.Keys + {name}
    ensures |RowsNamed(idRows, name)| == 1 ==>
      r[name] == Measurement(RowsNamed(idRows, name)[0].value, RowsNamed(idRows, name)[0].unit)
    ensures |RowsNamed(idRows, name)| != 1 ==> r == ncu
    ensures forall m :: m in ncu && m != name ==> m in r && r[m] == ncu[m]
  {
    var matching := RowsNamed(idRows, name);
    if |matching| != 1 then ncu else ncu[name := Measurement(matching[0].value, matching[0].unit)]
  }

  /** The metrics of `names` filled in order into an empty map. */
  function MetricsOf(idRows: seq<MetricRow>, names: seq<string>): map<string, Measurement>
  {
    if names == [] then map[]
    else FillKernelMetric(MetricsOf(idRows, names[..|names| - 1]), idRows, names[|names| - 1])
  }

  /** A kernel's metric map holds exactly the listed metrics with a unique
      row, each with that row's value and unit. */
  lemma {:induction false} MetricsOfExact(idRows: seq<MetricRow>, names: seq<string>, name: string)
    ensures name in MetricsOf(idRows, names) <==> name in names && |RowsNamed(idRows, name)| == 1
    ensures name in MetricsOf(idRows, names) ==>
      MetricsOf(idRows, names)[name] == Measurement(RowsNamed(idRows, name)[0].value, RowsNamed(idRows, name)[0].unit)
    decreases |names|
  {
    if names != [] {
      var init := names[..|names| - 1];
      MetricsOfExact(idRows, init, name);
      assert names == init + [names[|names| - 1]];
    }
  }

  /** A kernel after the join: non-copies get the metric map of their rows,
      copies are left alone. */
  function Enrich(k: Kernel, table: seq<MetricRow>): Kernel
  {
    if k.index < 0 then k else k.(ncu := Some(MetricsOf(RowsFor(table, k.index), MetricNames)))
  }

  function EnrichAll(ks: seq<Kernel>, table: seq<MetricRow>): (r: seq<Kernel>)
    ensures |r| == |ks|
    ensures forall j :: 0 <= j < |ks| ==> r[j] == Enrich(ks[j], table)
  {
    seq(|ks|, j requires 0 <= j < |ks| => Enrich(ks[j], table))
  }

  function EnrichPairs(ps: seq<Pair>, table: seq<MetricRow>): (r: seq<Pair>)
    ensures |r| == |ps|
    ensures forall i :: 0 <= i < |ps| ==> r[i] == Pair(ps[i].node, EnrichAll(ps[i].kernels, table))
  {
    seq(|ps|, i requires 0 <= i < |ps| => Pair(ps[i].node, EnrichAll(ps[i].kernels, table)))
  }

  /** The number of the first non-copy kernel without any row, if any. */
  function FirstMissing(ks: seq<Kernel>, table: seq<MetricRow>): Option<int>
  {
    if ks == [] then None
    else
      var before := FirstMissing(ks[..|ks| - 1], table);
      var k := ks[|ks| - 1];
      if before.Some? then before
      else if k.index >= 0 && RowsFor(table, k.index) == [] then Some(k.index)
      else None
  }

  /** The number of the last kernel visited, 0 when there is none. */
  function LastIndex(ks: seq<Kernel>): int
  {
    if ks == [] then 0 else ks[|ks| - 1].index
  }

  /** The outcome of the join: the enriched pairs, a fatal error for a
      kernel number missing from the table, or a fatal error when the last
      number does not equal the table's largest ID. */
  datatype JoinResult = Joined(pairs: seq<Pair>) | MissingKernelId(id: int) | CountMismatch(last: int, max: Option<int>)

  /** `fill_pairs_with_ncu` as written: the count check uses the number of
      the last kernel visited, copies included. */
  function Join(ps: seq<Pair>, table: seq<MetricRow>): JoinResult
  {
    var ks := Flatten(ps);
    var missing := FirstMissing(ks, table);
    if missing.Some? then MissingKernelId(missing.value)
    else if MaxId(table) != Some(LastIndex(ks)) then CountMismatch(LastIndex(ks), MaxId(table))
    else Joined(EnrichPairs(ps, table))
  }

  lemma {:induction false} FlattenAppend(a: seq<Pair>, b: seq<Pair>)
    ensures Flatten(a + b) == Flatten(a) + Flatten(b)
    decreases |a|
  {
    if a != [] {
      assert (a + b)[1..] == a[1..] + b;
      FlattenAppend(a[1..], b);
    } else {
      assert a + b == b;
    }
  }

  lemma FlattenSingle(p: Pair)
    ensures Flatten([p]) == p.kernels
  {
    assert [p][1..] == [];
    assert p.kernels + [] == p.kernels;
  }

  lemma {:induction false} FirstMissingPrefix(a: seq<Kernel>, b: seq<Kernel>, table: seq<MetricRow>)
    requires FirstMissing(a, table).Some?
    ensures FirstMissing(a + b, table) == FirstMissing(a, table)
    decreases |b|
  {
    if b == [] {
      assert a + b == a;
    } else {
      var init := b[..|b| - 1];
      FirstMissingPrefix(a, init, table);
      assert (a + b)[..|a + b| - 1] == a + init;
    }
  }

  lemma {:induction false} FirstMissingAppend(a: seq<Kernel>, b: seq<Kernel>, table: seq<MetricRow>)
    requires FirstMissing(a, table).None?
    ensures FirstMissing(a + b, table) == FirstMissing(b, table)
    decreases |b|
  {
    if b == [] {
      assert a + b == a;
    } else {
      var init := b[..|b| - 1];
      FirstMissingAppend(a, init, table);
      assert (a + b)[..|a + b| - 1] == a + init;
    }
  }

  /** The join raises at the first pair holding a kernel without rows. */
  lemma JoinMissingAt(pairs: seq<Pair>, i: nat, table: seq<MetricRow>)
    requires i < |pairs|
    requires FirstMissing(Flatten(pairs[..i]), table).None?
    requires FirstMissing(pairs[i].kernels, table).Some?
    ensures Join(pairs, table) == MissingKernelId(FirstMissing(pairs[i].kernels, table).value)
  {
    var done, ks := Flatten(pairs[..i]), pairs[i].kernels;
    assert pairs == pairs[..i] + [pairs[i]] + pairs[i + 1..];
    FlattenAppend(pairs[..i] + [pairs[i]], pairs[i + 1..]);
    FlattenAppend(pairs[..i], [pairs[i]]);
    FlattenSingle(pairs[i]);
    assert Flatten(pairs) == (done + ks) + Flatten(pairs[i + 1..]);
    FirstMissingAppend(done, ks, table);
    FirstMissingPrefix(done + ks, Flatten(pairs[i + 1..]), table);
  }

  /** One kernel more: the enriched prefix grows by that kernel, and the
      first missing number is the earlier one or this kernel's. */
  lemma FillStep(ks: seq<Kernel>, j: nat, table: seq<MetricRow>)
    requires j < |ks|
    ensures EnrichAll(ks[..j + 1], table) == EnrichAll(ks[..j], table) + [Enrich(ks[j], table)]
    ensures FirstMissing(ks[..j + 1], table) ==
      if FirstMissing(ks[..j], table).Some? then FirstMissing(ks[..j], table)
      else if ks[j].index >= 0 && RowsFor(table, ks[j].index) == [] then Some(ks[j].index)
      else None
  {
    assert ks[..j + 1][..j] == ks[..j];
  }

  /** The kernels of one pair: fill the metrics of each non-copy kernel,
      raising at the first one without rows; `last` follows every kernel
      visited. */
  method FillKernels(ks: seq<Kernel>, table: seq<MetricRow>, last0: int)
    returns (filled: seq<Kernel>, missing: Option<int>, last: int)
    ensures missing == FirstMissing(ks, table)
    ensures missing.None? ==> filled == EnrichAll(ks, table)
    ensures missing.None? ==> last == if ks == [] then last0 else LastIndex(ks)
  {
    filled, missing, last := [], None, last0;
    var j := 0;
    while j < |ks|
      invariant 0 <= j <= |ks|
      invariant filled == EnrichAll(ks[..j], table)
      invariant FirstMissing(ks[..j], table) == None
      invariant last == if j == 0 then last0 else ks[j - 1].index
    {
      var k := ks[j];
      FillStep(ks, j, table);
      last := k.index;
      if k.index >= 0 && RowsFor(table, k.index) == [] {
        missing := Some(k.index);
        FirstMissingPrefix(ks[..j + 1], ks[j + 1..], table);
        assert ks[..j + 1] + ks[j + 1..] == ks;
        return;
      }
      filled := filled + [Enrich(k, table)];
      j := j + 1;
    }
    assert ks[..j] == ks;
  }

  /** `fill_pairs_with_ncu`: walk the kernels of all pairs in order, fill
      the metrics of every non-copy kernel from its table rows, and check
      the count at the end. */
  method FillPairsWithNcu(pairs: seq<Pair>, table: seq<MetricRow>) returns (r: JoinResult)
    ensures r == Join(pairs, table)
  {
    var out: seq<Pair> := [];
    var last := 0;
    var i := 0;
    while i < |pairs|
      invariant 0 <= i <= |pairs|
      invariant out == EnrichPairs(pairs[..i], table)
      invariant FirstMissing(Flatten(pairs[..i]), table) == None
      invariant last == LastIndex(Flatten(pairs[..i]))
    {
      var filled, missing, last' := FillKernels(pairs[i].kernels, table, last);
      if missing.Some? {
        JoinMissingAt(pairs, i, table);
        return MissingKernelId(missing.value);
      }
      ghost var done, ks := Flatten(pairs[..i]), pairs[i].kernels;
      assert pairs[..i + 1] == pairs[..i] + [pairs[i]];
      FlattenAppend(pairs[..i], [pairs[i]]);
      FlattenSingle(pairs[i]);
      assert Flatten(pairs[..i + 1]) == done + ks;
      FirstMissingAppend(done, ks, table);
      assert ks == [] ==> done + ks == done;
      last := last';
      out := out + [Pair(pairs[i].node, filled)];
      i := i + 1;
    }
    assert pairs[..i] == pairs;
    var max := MaxId(table);
    if max != Some(last) {
      return CountMismatch(last, max);
    }
    return Joined(out);
  }

  // -----------------------------------------------------------------------
  // What the join keeps

  /** A successful join changes nothing but the metric maps of non-copy
      kernels: the same operators, the same kernels in the same order, and
      every non-copy kernel carries exactly its metrics with a unique row. */
  lemma JoinKeepsPairs(ps: seq<Pair>, table: seq<MetricRow>, i: nat, j: nat, name: string)
    requires Join(ps, table).Joined?
    requires i < |ps| && j < |ps[i].kernels|
    ensures |Join(ps, table).pairs| == |ps|
    ensures Join(ps, table).pairs[i].node == ps[i].node
    ensures |Join(ps, table).pairs[i].kernels| == |ps[i].kernels|
    ensures Join(ps, table).pairs[i].kernels[j].(ncu := ps[i].kernels[j].ncu) == ps[i].kernels[j]
    ensures ps[i].kernels[j].index < 0 ==> Join(ps, table).pairs[i].kernels[j] == ps[i].kernels[j]
    ensures ps[i].kernels[j].index >= 0 ==>
      var ncu := Join(ps, table).pairs[i].kernels[j].ncu;
      ncu.Some? &&
      (name in ncu.value <==> name in MetricNames && |RowsNamed(RowsFor(table, ps[i].kernels[j].index), name)| == 1)
  {
    if ps[i].kernels[j].index >= 0 {
      MetricsOfExact(RowsFor(table, ps[i].kernels[j].index), MetricNames, name);
    }
  }

  // -----------------------------------------------------------------------
  // The count check (see the findings in the documentation)

  /** The number of the last non-copy kernel, 0 when there is none. */
  function LastCounted(ks: seq<Kernel>): int
  {
    if ks == [] then 0
    else if ks[|ks| - 1].index >= 0 then ks[|ks| - 1].index
    else LastCounted(ks[..|ks| - 1])
  }

  /** The join with the count check on the last non-copy kernel, so that the
      check compares the number of kernels pairing numbered with the number
      of kernels in the table. */
  function JoinCounted(ps: seq<Pair>, table: seq<MetricRow>): JoinResult
  {
    var ks := Flatten(ps);
    var missing := FirstMissing(ks, table);
    if missing.Some? then MissingKernelId(missing.value)
    else if MaxId(table) != Some(LastCounted(ks)) then CountMismatch(LastCounted(ks), MaxId(table))
    else Joined(EnrichPairs(ps, table))
  }

  /** The table has rows for every kernel number below `count` and no larger
      ID: it profiles exactly `count` kernels. */
  predicate Profiles(table: seq<MetricRow>, count: nat)
  {
    (forall id :: 0 <= id < count ==> RowsFor(table, id) != []) && MaxId(table) == Some(count - 1)
  }

  lemma {:induction false} NumberRange(ks: seq<Kernel>, k: int, j: nat)
    requires j < |ks|
    ensures Number(ks, k)[j].index == -1 || k <= Number(ks, k)[j].index < k + Counted(ks)
    decreases |ks|
  {
    NumberAt(ks, k, j);
    assert ks == ks[..j] + ks[j..];
    NumberAppend(ks[..j], ks[j..], k);
    assert ks[j..] == [ks[j]] + ks[j + 1..];
    NumberAppend([ks[j]], ks[j + 1..], k);
  }

  lemma {:induction false} LastCountedOfNumber(ks: seq<Kernel>, k: int)
    requires k >= 0 && Counted(ks) >= 1
    ensures LastCounted(Number(ks, k)) == k + Counted(ks) - 1
    decreases |ks|
  {
    var init, x := ks[..|ks| - 1], ks[|ks| - 1];
    assert ks == init + [x];
    NumberAppend(init, [x], k);
    var n := Number(ks, k);
    assert n[..|n| - 1] == Number(init, k);
    assert n[|n| - 1] == Number([x], k + Counted(init))[0];
    assert [x][1..] == [];
    if IsMemcpy(x.name) {
      LastCountedOfNumber(init, k);
    }
  }

  lemma {:induction false} NoneMissing(ks: seq<Kernel>, table: seq<MetricRow>)
    requires forall j :: 0 <= j < |ks| && ks[j].index >= 0 ==> RowsFor(table, ks[j].index) != []
    ensures FirstMissing(ks, table) == None
    decreases |ks|
  {
    if ks != [] {
      NoneMissing(ks[..|ks| - 1], table);
    }
  }

  /** With the corrected check, a trace whose `count >= 1` numbered kernels
      are exactly the kernels of the table always joins, whether or not it
      ends with a memory copy. */
  lemma ConsistentTraceJoins(es: seq<Event>, table: seq<MetricRow>)
    requires Counted(KernelEvents(AfterFirstNode(es))) >= 1
    requires Profiles(table, Counted(KernelEvents(AfterFirstNode(es))))
    ensures JoinCounted(Pairing(es, 0, 0), table).Joined?
  {
    var xs := KernelEvents(AfterFirstNode(es));
    FlattenPairing(es, 0, 0);
    var ks := Flatten(Pairing(es, 0, 0));
    assert ks == Number(xs, 0);
    forall j | 0 <= j < |ks| && ks[j].index >= 0
      ensures RowsFor(table, ks[j].index) != []
    {
      NumberRange(xs, 0, j);
    }
    NoneMissing(ks, table);
    LastCountedOfNumber(xs, 0);
  }

  /** As written, the check rejects a consistent trace that ends with a
      memory copy: one operator launching one computing kernel and then a
      copy, against a table profiling that one kernel, fails the count
      check with last number -1 against largest ID 0. */
  lemma TrailingCopyRejected()
    ensures
      var compute := Kernel("conv", 1, Dim3(1, 1, 1), Dim3(1, 1, 1), 0, None);
      var copy := Kernel("Memcpy", 1, Dim3(1, 1, 1), Dim3(1, 1, 1), 0, None);
      var node := Node("conv0", "Conv", "CUDAExecutionProvider", [], [], 0, 0, 0);
      var es := [NodeEvent(node), KernelEvent(compute), KernelEvent(copy)];
      var table := [MetricRow(0, "Elapsed Cycles", 10.0, "cycle")];
      Counted(KernelEvents(AfterFirstNode(es))) == 1 &&
      Profiles(table, 1) &&
      Join(Pairing(es, 0, 0), table) == CountMismatch(-1, Some(0)) &&
      JoinCounted(Pairing(es, 0, 0), table).Joined?
  {
    var compute := Kernel("conv", 1, Dim3(1, 1, 1), Dim3(1, 1, 1), 0, None);
    var copy := Kernel("Memcpy", 1, Dim3(1, 1, 1), Dim3(1, 1, 1), 0, None);
    var node := Node("conv0", "Conv", "CUDAExecutionProvider", [], [], 0, 0, 0);
    var es := [NodeEvent(node), KernelEvent(compute), KernelEvent(copy)];
    var table := [MetricRow(0, "Elapsed Cycles", 10.0, "cycle")];
    assert IsMemcpy("Memcpy");
    assert !IsMemcpy("conv");
    assert es[1..] == [KernelEvent(compute), KernelEvent(copy)];
    assert es[1..][1..] == [KernelEvent(copy)];
    assert es[1..][1..][1..] == [];
    var ks := [compute, copy];
    assert LeadingKernels([KernelEvent(copy)]) == [copy];
    assert LeadingKernels(es[1..]) == [compute] + [copy] == ks;
    assert KernelEvents([KernelEvent(copy)]) == [copy];
    assert KernelEvents(es[1..]) == [compute] + [copy] == ks;
    assert AfterFirstNode(es) == es[1..];
    assert ks[1..] == [copy];
    assert Counted([copy]) == 0;
    assert Counted(ks) == 1;
    var numbered := [compute.(index := 0), copy.(index := -1)];
    assert Number(ks, 0) == numbered;
    var ps := Pairing(es, 0, 0);
    FlattenPairing(es, 0, 0);
    assert Flatten(ps) == numbered;
    assert numbered[..1] == [compute.(index := 0)];
    assert numbered[..1][..0] == [];
    assert RowsFor(table, 0) == table;
    assert FirstMissing(numbered[..1], table) == None;
    assert FirstMissing(numbered, table) == None;
    assert LastIndex(numbered) == -1;
    ConsistentTraceJoins(es, table);
  }
}

=== FILE: perf_calculator.dfy ===
/** Kernel-size arithmetic used by the evaluators: the launch sizes of one
    kernel, its register count, and the sum of a per-kernel quantity over
    an operator's kernel sequence. Memory copies launch nothing and count
    as 0 everywhere. */
module PerfCalculator {
  import opened Records

  /** `get_kernel_grid_size`: the number of blocks in the grid. */
  function GridSize(k: Kernel): int
  {
    if IsMemcpy(k.name) then 0 else k.grid.x * k.grid.y * k.grid.z
  }

  /** `get_kernel_block_size`: the number of threads in a block. */
  function BlockSize(k: Kernel): int
  {
    if IsMemcpy(k.name) then 0 else k.block.x * k.block.y * k.block.z
  }

  /** Python's `int()` on a number: truncation toward zero. */
  function Trunc(v: real): (r: int)
    ensures v >= 0.0 ==> r as real <= v < r as real + 1.0
    ensures v < 0.0 ==> r as real - 1.0 < v <= r as real
  {
    if v >= 0.0 then v.Floor else -((-v).Floor)
  }

  /** `get_kernel_register_per_thread`: read from the kernel's profiler
      metrics; `None` when the kernel carries no metric map or the map has
      no "Registers Per Thread" entry (the lookup raises KeyError). */
  function RegistersPerThread(k: Kernel): (r: Option<int>)
    ensures IsMemcpy(k.name) ==> r == Some(0)
    ensures !IsMemcpy(k.name) ==>
      (r.Some? <==> k.ncu.Some? && "Registers Per Thread" in k.ncu.value)
    ensures !IsMemcpy(k.name) && r.Some? ==> r.value == Trunc(k.ncu.value["Registers Per Thread"].value)
  {
    if IsMemcpy(k.name) then Some(0)
    else if k.ncu.Some? && "Registers Per Thread" in k.ncu.value then Some(Trunc(k.ncu.value["Registers Per Thread"].value))
    else None
  }

  /** The three per-kernel quantities as the evaluators sum them: a value,
      or `None` where computing it raises. */
  function GridMetric(k: Kernel): Option<real> { Some(GridSize(k) as real) }
  function BlockMetric(k: Kernel): Option<real> { Some(BlockSize(k) as real) }
  function RegisterMetric(k: Kernel): Option<real>
  {
    match RegistersPerThread(k)
    case None => None
    case Some(n) => Some(n as real)
  }

  /** The sum of `f` over `ks`, or `None` if `f` raises on some kernel. */
  function Sum(ks: seq<Kernel>, f: Kernel -> Option<real>): Option<real>
  {
    if ks == [] then Some(0.0)
    else match (Sum(ks[..|ks| - 1], f), f(ks[|ks| - 1]))
      case (Some(s), Some(v)) => Some(s + v)
      case _ => None
  }

  /** `get_op_metric_sum`: 0 for no prediction (`None`) or an empty
      sequence, otherwise the sum over the kernels. */
  function MetricSum(ks: Option<seq<Kernel>>, f: Kernel -> Option<real>): (r: Option<real>)
    ensures ks.None? ==> r == Some(0.0)
    ensures ks.Some? ==> r == Sum(ks.value, f)
  {
    if ks.None? || |ks.value| == 0 then Some(0.0) else Sum(ks.value, f)
  }

  /** The kernels that are not memory copies, in order. */
  function ComputeKernels(ks: seq<Kernel>): (r: seq<Kernel>)
    ensures forall k :: k in r <==> k in ks && !IsMemcpy(k.name)
  {
    if ks == [] then []
    else if IsMemcpy(ks[|ks| - 1].name) then ComputeKernels(ks[..|ks| - 1])
    else ComputeKernels(ks[..|ks| - 1]) + [ks[|ks| - 1]]
  }

  // -----------------------------------------------------------------------
  // Properties

  /** Launch sizes are products of the launch dimensions for a compute
      kernel and 0 for a memory copy; with non-negative dimensions they are
      non-negative. */
  lemma LaunchSizes(k: Kernel)
    ensures !IsMemcpy(k.name) ==> GridSize(k) == k.grid.x * k.grid.y * k.grid.z
    ensures !IsMemcpy(k.name) ==> BlockSize(k) == k.block.x * k.block.y * k.block.z
    ensures IsMemcpy(k.name) ==> GridSize(k) == 0 && BlockSize(k) == 0 && RegistersPerThread(k) == Some(0)
    ensures k.grid.x >= 0 && k.grid.y >= 0 && k.grid.z >= 0 ==> GridSize(k) >= 0
    ensures k.block.x >= 0 && k.block.y >= 0 && k.block.z >= 0 ==> BlockSize(k) >= 0
  {
    if !IsMemcpy(k.name) {
      if k.grid.x >= 0 && k.grid.y >= 0 && k.grid.z >= 0 {
        assert k.grid.x * k.grid.y >= 0;
      }
      if k.block.x >= 0 && k.block.y >= 0 && k.block.z >= 0 {
        assert k.block.x * k.block.y >= 0;
      }
    }
  }

  /** The sum of a sequence split in two is the sum of the sums. */
  lemma {:induction false} SumAppend(a: seq<Kernel>, b: seq<Kernel>, f: Kernel -> Option<real>)
    ensures Sum(a + b, f).Some? <==> Sum(a, f).Some? && Sum(b, f).Some?
    ensures Sum(a + b, f).Some? ==> Sum(a + b, f).value == Sum(a, f).value + Sum(b, f).value
    decreases |b|
  {
    if b == [] {
      assert a + b == a;
    } else {
      var b' := b[..|b| - 1];
      assert (a + b)[..|a + b| - 1] == a + b';
      assert (a + b)[|a + b| - 1] == b[|b| - 1];
      SumAppend(a, b', f);
    }
  }

  /** A sum of values that are never negative is never negative. */
  lemma {:induction false} SumNonNegative(ks: seq<Kernel>, f: Kernel -> Option<real>)
    requires forall k :: k in ks && f(k).Some? ==> f(k).value >= 0.0
    ensures Sum(ks, f).Some? ==> Sum(ks, f).value >= 0.0
  {
    if ks != [] {
      SumNonNegative(ks[..|ks| - 1], f);
    }
  }

  /** When `f` gives memory copies 0, a sequence's sum is the sum over its
      compute kernels alone (and is defined exactly when that one is). */
  lemma {:induction false} SumSkipsCopies(ks: seq<Kernel>, f: Kernel -> Option<real>)
    requires forall k :: k in ks && IsMemcpy(k.name) ==> f(k) == Some(0.0)
    ensures Sum(ks, f) == Sum(ComputeKernels(ks), f)
  {
    if ks != [] {
      var init, last := ks[..|ks| - 1], ks[|ks| - 1];
      assert forall k :: k in init ==> k in ks;
      SumSkipsCopies(init, f);
      var c := ComputeKernels(init);
      if IsMemcpy(last.name) {
        assert f(last) == Some(0.0);
        assert ComputeKernels(ks) == c;
        match Sum(init, f)
        case None =>
        case Some(s) => assert Sum(ks, f) == Some(s + 0.0);
      } else {
        assert ComputeKernels(ks) == c + [last];
        assert (c + [last])[..|c + [last]| - 1] == c;
        assert (c + [last])[|c + [last]| - 1] == last;
      }
    }
  }

  /** The grid, block and register sums of an operator's kernels ignore
      its memory copies; with non-negative launch dimensions the grid and
      block sums are non-negative. */
  lemma OperatorSums(ks: seq<Kernel>)
    ensures Sum(ks, GridMetric) == Sum(ComputeKernels(ks), GridMetric)
    ensures Sum(ks, BlockMetric) == Sum(ComputeKernels(ks), BlockMetric)
    ensures Sum(ks, RegisterMetric) == Sum(ComputeKernels(ks), RegisterMetric)
    ensures Sum(ks, GridMetric).Some? && Sum(ks, BlockMetric).Some?
    ensures (forall k :: k in ks ==> k.grid.x >= 0 && k.grid.y >= 0 && k.grid.z >= 0) ==>
      Sum(ks, GridMetric).value >= 0.0
    ensures (forall k :: k in ks ==> k.block.x >= 0 && k.block.y >= 0 && k.block.z >= 0) ==>
      Sum(ks, BlockMetric).value >= 0.0
  {
    SumSkipsCopies(ks, GridMetric);
    SumSkipsCopies(ks, BlockMetric);
    SumSkipsCopies(ks, RegisterMetric);
    GridBlockDefined(ks);
    if forall k :: k in ks ==> k.grid.x >= 0 && k.grid.y >= 0 && k.grid.z >= 0 {
      forall k | k in ks ensures GridMetric(k).value >= 0.0 { LaunchSizes(k); }
      SumNonNegative(ks, GridMetric);
    }
    if forall k :: k in ks ==> k.block.x >= 0 && k.block.y >= 0 && k.block.z >= 0 {
      forall k | k in ks ensures BlockMetric(k).value >= 0.0 { LaunchSizes(k); }
      SumNonNegative(ks, BlockMetric);
    }
  }

  /** Launch sizes never raise, so their sums are always defined. */
  lemma {:induction false} GridBlockDefined(ks: seq<Kernel>)
    ensures Sum(ks, GridMetric).Some? && Sum(ks, BlockMetric).Some?
  {
    if ks != [] {
      GridBlockDefined(ks[..|ks| - 1]);
    }
  }
}

=== FILE: perf_tester.dfy ===
/** Evaluating the kernel finder's performance predictions against a
    profiled trace: for every operator, three per-operator quantities of
    the predicted kernel sequence are compared with those of the recorded
    one by a ratio accuracy, and the accuracies are averaged over the
    operators. The launch variant compares grid, block and register sums;
    the execution variant compares compute and memory throughput averages
    and the sum of SM active cycles. */
module PerfTester {
  import opened Records
  import opened ShapeScore
  import opened KernelFinder
  import opened KernelFinderProperties
  import opened PerfCalculator

  // -----------------------------------------------------------------------
  // The ratio accuracy

  /** `cal_data_acc`: 1 for equal values, 0 when exactly one of them is 0,
      otherwise the smaller of the two ratios. */
  function DataAcc(p: real, r: real): (acc: real)
    ensures 0.0 <= p && 0.0 <= r ==> 0.0 <= acc <= 1.0
    ensures 0.0 <= p && 0.0 <= r ==> (acc == 1.0 <==> p == r)
    ensures 0.0 <= p && 0.0 <= r ==> (acc == 0.0 <==> p != r && (p == 0.0 || r == 0.0))
  {
    if p == r then 1.0
    else if p == 0.0 || r == 0.0 then 0.0
    else
      RatiosOfDistinct(p, r);
      Min(p / r, r / p)
  }

  lemma RatiosOfDistinct(p: real, r: real)
    requires p != r && p != 0.0 && r != 0.0
    ensures 0.0 < p && 0.0 < r ==> 0.0 < Min(p / r, r / p) < 1.0
  {
    if 0.0 < p < r {
      RatioBelowOne(p, r);
    } else if 0.0 < r < p {
      RatioBelowOne(r, p);
    }
  }

  lemma DataAccSymmetric(p: real, r: real)
    ensures DataAcc(p, r) == DataAcc(r, p)
  {
  }

  // -----------------------------------------------------------------------
  // Per-operator accuracies

  /** A per-operator quantity of a kernel sequence (`None`: no prediction);
      the result is `None` where computing it raises. */
  type OpMetric = Option<seq<Kernel>> -> Option<real>

  /** `get_op_metric_sum` with a fixed per-kernel quantity. */
  function SumMetric(f: Kernel -> Option<real>): OpMetric
  {
    ks => MetricSum(ks, f)
  }

  datatype Axes = Axes(first: real, second: real, third: real)

  function AddAxes(a: Axes, b: Axes): Axes
  {
    Axes(a.first + b.first, a.second + b.second, a.third + b.third)
  }

  /** Why an evaluation raised: a lookup failed, a quantity could not be
      computed (a missing metric), or no operator was counted (the final
      division by zero). */
  datatype PerfFault = LookupFailed(fault: Fault) | MetricRaised | NoOperators

  /** The accuracy of one quantity for one operator. */
  function AxisAcc(m: OpMetric, predicted: Option<seq<Kernel>>, recorded: seq<Kernel>): Option<real>
  {
    match (m(predicted), m(Some(recorded)))
    case (Some(p), Some(r)) => Some(DataAcc(p, r))
    case _ => None
  }

  datatype OperatorResult = CopySkipped | Scored(acc: Axes) | Raised(fault: PerfFault)

  /** A counted operator's scores, given what its lookup returned. */
  function ScoreOf(p: Pair, r: MatchResult, m1: OpMetric, m2: OpMetric, m3: OpMetric): OperatorResult
  {
    if r.Failed? then Raised(LookupFailed(r.fault))
    else
      var predicted := Prediction(r);
      match (AxisAcc(m1, predicted, p.kernels), AxisAcc(m2, predicted, p.kernels), AxisAcc(m3, predicted, p.kernels))
      case (Some(a), Some(b), Some(c)) => Scored(Axes(a, b, c))
      case _ => Raised(MetricRaised)
  }

  /** One operator of the loop: memory-copy operators are skipped; every
      other one is looked up and scored on the three quantities. */
  function OperatorScore(p: Pair, lib: Library, m1: OpMetric, m2: OpMetric, m3: OpMetric): OperatorResult
  {
    if IsMemcpy(p.node.opName) then CopySkipped
    else ScoreOf(p, Match(lib, QueryOf(p.node)), m1, m2, m3)
  }

  /** The operator count and accuracy sums after the operators `ps`. */
  datatype Accumulation = Accumulated(count: nat, sums: Axes) | Halted(fault: PerfFault)

  function Next(acc: Accumulation, o: OperatorResult): Accumulation
  {
    match acc
    case Halted(f) => Halted(f)
    case Accumulated(n, s) =>
      match o
      case CopySkipped => Accumulated(n, s)
      case Scored(a) => Accumulated(n + 1, AddAxes(s, a))
      case Raised(f) => Halted(f)
  }

  function AccumulationOf(ps: seq<Pair>, lib: Library, m1: OpMetric, m2: OpMetric, m3: OpMetric): Accumulation
  {
    if ps == [] then Accumulated(0, Axes(0.0, 0.0, 0.0))
    else Next(AccumulationOf(ps[..|ps| - 1], lib, m1, m2, m3), OperatorScore(ps[|ps| - 1], lib, m1, m2, m3))
  }

  lemma AccumulationStep(ps: seq<Pair>, i: nat, lib: Library, m1: OpMetric, m2: OpMetric, m3: OpMetric,
                         count: nat, sums: Axes, o: OperatorResult)
    requires i < |ps| && AccumulationOf(ps[..i], lib, m1, m2, m3) == Accumulated(count, sums)
    requires o == OperatorScore(ps[i], lib, m1, m2, m3)
    ensures AccumulationOf(ps[..i + 1], lib, m1, m2, m3) == Next(Accumulated(count, sums), o)
  {
    assert ps[..i + 1][..i] == ps[..i];
  }

  datatype PerfOutcome = Accuracies(means: Axes) | PerfFailed(fault: PerfFault)

  /** The three mean accuracies, or why the evaluation raised. */
  function Evaluation(ps: seq<Pair>, lib: Library, m1: OpMetric, m2: OpMetric, m3: OpMetric): PerfOutcome
  {
    Finish(AccumulationOf(ps, lib, m1, m2, m3))
  }

  /** The final division of the sums by the operator count. */
  function Finish(acc: Accumulation): PerfOutcome
  {
    match acc
    case Halted(f) => PerfFailed(f)
    case Accumulated(n, s) =>
      if n == 0 then PerfFailed(NoOperators)
      else Accuracies(Axes(s.first / n as real, s.second / n as real, s.third / n as real))
  }

  lemma {:induction false} HaltPersists(ps: seq<Pair>, n: nat, lib: Library, m1: OpMetric, m2: OpMetric, m3: OpMetric, f: PerfFault)
    requires n <= |ps| && AccumulationOf(ps[..n], lib, m1, m2, m3) == Halted(f)
    ensures AccumulationOf(ps, lib, m1, m2, m3) == Halted(f)
    decreases |ps|
  {
    if n < |ps| {
      var init := ps[..|ps| - 1];
      assert init[..n] == ps[..n];
      HaltPersists(init, n, lib, m1, m2, m3, f);
    } else {
      assert ps[..n] == ps;
    }
  }

  // -----------------------------------------------------------------------
  // The accumulation loops

  /** The accumulation loop shared by both evaluators: each lookup may
      rewrite the library it is given, and the next lookup sees the
      rewritten one; the result is nevertheless that of looking every
      operator up in the original library. */
  method Evaluate(pairs: seq<Pair>, lib: Library, m1: OpMetric, m2: OpMetric, m3: OpMetric) returns (r: PerfOutcome)
    ensures r == Evaluation(pairs, lib, m1, m2, m3)
  {
    var current := lib;
    var count: nat := 0;
    var sums := Axes(0.0, 0.0, 0.0);
    var i := 0;
    while i < |pairs|
      invariant 0 <= i <= |pairs|
      invariant Descends(current, lib)
      invariant AccumulationOf(pairs[..i], lib, m1, m2, m3) == Accumulated(count, sums)
    {
      var acc, next := AccumulateOperator(pairs, i, current, lib, m1, m2, m3, count, sums);
      if acc.Halted? {
        HaltPersists(pairs, i + 1, lib, m1, m2, m3, acc.fault);
        return PerfFailed(acc.fault);
      }
      count, sums, current := acc.count, acc.sums, next;
      i := i + 1;
    }
    assert pairs[..i] == pairs;
    if count == 0 {
      return PerfFailed(NoOperators);
    }
    r := Accuracies(Axes(sums.first / count as real, sums.second / count as real, sums.third / count as real));
  }

  /** One operator of the loop: a copy is skipped, any other operator is
      looked up in the current library and scored. The counters become
      those after `pairs[..i + 1]` against the original library. */
  method AccumulateOperator(pairs: seq<Pair>, i: nat, current: Library, lib: Library,
                            m1: OpMetric, m2: OpMetric, m3: OpMetric, count: nat, sums: Axes)
    returns (acc: Accumulation, next: Library)
    requires i < |pairs| && Descends(current, lib)
    requires AccumulationOf(pairs[..i], lib, m1, m2, m3) == Accumulated(count, sums)
    ensures acc == AccumulationOf(pairs[..i + 1], lib, m1, m2, m3)
    ensures Descends(next, lib)
  {
    var p := pairs[i];
    var o := CopySkipped;
    next := current;
    if !IsMemcpy(p.node.opName) {
      o, next := EvaluateOperator(current, lib, p, m1, m2, m3);
    }
    AccumulationStep(pairs, i, lib, m1, m2, m3, count, sums, o);
    match o {
      case Raised(f) => acc := Halted(f);
      case Scored(a) => acc := Accumulated(count + 1, AddAxes(sums, a));
      case CopySkipped => acc := Accumulated(count, sums);
    }
  }

  /** One counted operator of the loop: look it up in the current library
      and score it. The answer is the one the original library gives, and
      the rewritten library still descends from the original. */
  method EvaluateOperator(current: Library, lib: Library, p: Pair, m1: OpMetric, m2: OpMetric, m3: OpMetric)
    returns (o: OperatorResult, next: Library)
    requires Descends(current, lib) && !IsMemcpy(p.node.opName)
    ensures o == OperatorScore(p, lib, m1, m2, m3) && !o.CopySkipped?
    ensures Descends(next, lib)
  {
    var q := QueryOf(p.node);
    var found, q';
    found, q', next := FindBestMatchKernels(current, q);
    LookupStep(current, lib, q);
    o := ScoreOperator(p, found, m1, m2, m3);
  }

  /** The accuracies of one counted operator, quantity by quantity, once
      its lookup has returned. */
  method ScoreOperator(p: Pair, found: MatchResult, m1: OpMetric, m2: OpMetric, m3: OpMetric) returns (o: OperatorResult)
    ensures o == ScoreOf(p, found, m1, m2, m3)
    ensures !o.CopySkipped?
  {
    if found.Failed? {
      return Raised(LookupFailed(found.fault));
    }
    var predicted := Prediction(found);
    var a1 := AxisAcc(m1, predicted, p.kernels);
    var a2 := AxisAcc(m2, predicted, p.kernels);
    var a3 := AxisAcc(m3, predicted, p.kernels);
    if a1.None? || a2.None? || a3.None? {
      return Raised(MetricRaised);
    }
    o := Scored(Axes(a1.value, a2.value, a3.value));
  }

  // -----------------------------------------------------------------------
  // Properties

  /** With no prediction a summed quantity is 0, so the operator scores 1
      on it when the recorded total is also 0 and 0 when it is positive. */
  lemma NoPredictionAxis(f: Kernel -> Option<real>, recorded: seq<Kernel>)
    requires recorded != [] ==> Sum(recorded, f).Some?
    ensures recorded == [] || Sum(recorded, f) == Some(0.0) ==> AxisAcc(SumMetric(f), None, recorded) == Some(1.0)
    ensures recorded != [] && Sum(recorded, f).value > 0.0 ==> AxisAcc(SumMetric(f), None, recorded) == Some(0.0)
  {
  }

  /** Every operator that is not a memory copy is counted, whether or not
      anything was predicted for it. */
  function NonCopyCount(ps: seq<Pair>): nat
  {
    if ps == [] then 0
    else NonCopyCount(ps[..|ps| - 1]) + (if IsMemcpy(ps[|ps| - 1].node.opName) then 0 else 1)
  }

  predicate NonNegativeOn(m: OpMetric, ks: Option<seq<Kernel>>)
  {
    m(ks).Some? ==> m(ks).value >= 0.0
  }

  /** The three quantities are non-negative on the operator's prediction
      and on its recorded kernels. */
  predicate OperatorNonNegative(p: Pair, lib: Library, m1: OpMetric, m2: OpMetric, m3: OpMetric)
  {
    !IsMemcpy(p.node.opName) && !Match(lib, QueryOf(p.node)).Failed? ==>
      var predicted := Prediction(Match(lib, QueryOf(p.node)));
      NonNegativeOn(m1, predicted) && NonNegativeOn(m1, Some(p.kernels)) &&
      NonNegativeOn(m2, predicted) && NonNegativeOn(m2, Some(p.kernels)) &&
      NonNegativeOn(m3, predicted) && NonNegativeOn(m3, Some(p.kernels))
  }

  lemma OperatorScoreBounds(p: Pair, lib: Library, m1: OpMetric, m2: OpMetric, m3: OpMetric)
    requires OperatorNonNegative(p, lib, m1, m2, m3)
    ensures OperatorScore(p, lib, m1, m2, m3).CopySkipped? <==> IsMemcpy(p.node.opName)
    ensures OperatorScore(p, lib, m1, m2, m3).Scored? ==>
      var a := OperatorScore(p, lib, m1, m2, m3).acc;
      0.0 <= a.first <= 1.0 && 0.0 <= a.second <= 1.0 && 0.0 <= a.third <= 1.0
  {
  }

  /** A completed accumulation counts every non-copy operator, and each
      accuracy sum lies between 0 and the count. */
  lemma {:induction false} AccumulationBounds(ps: seq<Pair>, lib: Library, m1: OpMetric, m2: OpMetric, m3: OpMetric)
    requires forall i :: 0 <= i < |ps| ==> OperatorNonNegative(ps[i], lib, m1, m2, m3)
    ensures AccumulationOf(ps, lib, m1, m2, m3).Accumulated? ==>
      var acc := AccumulationOf(ps, lib, m1, m2, m3);
      acc.count == NonCopyCount(ps) &&
      0.0 <= acc.sums.first <= acc.count as real &&
      0.0 <= acc.sums.second <= acc.count as real &&
      0.0 <= acc.sums.third <= acc.count as real
  {
    if ps != [] {
      var init := ps[..|ps| - 1];
      assert forall i :: 0 <= i < |init| ==> init[i] == ps[i];
      AccumulationBounds(init, lib, m1, m2, m3);
      OperatorScoreBounds(ps[|ps| - 1], lib, m1, m2, m3);
    }
  }

  /** Each returned value is a mean of per-operator accuracies in [0, 1];
      the evaluation divides by zero exactly when it completes the loop
      without a non-copy operator. */
  lemma MeansInUnitInterval(ps: seq<Pair>, lib: Library, m1: OpMetric, m2: OpMetric, m3: OpMetric)
    requires forall i :: 0 <= i < |ps| ==> OperatorNonNegative(ps[i], lib, m1, m2, m3)
    ensures Evaluation(ps, lib, m1, m2, m3).Accuracies? ==>
      var a := Evaluation(ps, lib, m1, m2, m3).means;
      0.0 <= a.first <= 1.0 && 0.0 <= a.second <= 1.0 && 0.0 <= a.third <= 1.0
    ensures Evaluation(ps, lib, m1, m2, m3) == PerfFailed(NoOperators) <==>
      AccumulationOf(ps, lib, m1, m2, m3).Accumulated? && NonCopyCount(ps) == 0
  {
    AccumulationBounds(ps, lib, m1, m2, m3);
    var acc := AccumulationOf(ps, lib, m1, m2, m3);
    if acc.Accumulated? && acc.count > 0 {
      var n := acc.count as real;
      UnitMean(acc.sums.first, n);
      UnitMean(acc.sums.second, n);
      UnitMean(acc.sums.third, n);
    }
  }

  lemma UnitMean(s: real, n: real)
    requires 0.0 < n && 0.0 <= s <= n
    ensures 0.0 <= s / n <= 1.0
  {
  }

  /** The lookup predicts exactly the recorded kernels, and the three
      quantities can be computed on them. */
  predicate PredictsRecorded(lib: Library, p: Pair, m1: OpMetric, m2: OpMetric, m3: OpMetric)
  {
    Match(lib, QueryOf(p.node)) == Found(p.kernels) &&
    m1(Some(p.kernels)).Some? && m2(Some(p.kernels)).Some? && m3(Some(p.kernels)).Some?
  }

  /** A library that predicts every operator's recorded kernels scores 1 on
      every quantity it can compute. */
  lemma {:induction false} PerfectPredictionAccumulates(ps: seq<Pair>, lib: Library, m1: OpMetric, m2: OpMetric, m3: OpMetric)
    requires forall i :: 0 <= i < |ps| && !IsMemcpy(ps[i].node.opName) ==>
      PredictsRecorded(lib, ps[i], m1, m2, m3)
    ensures AccumulationOf(ps, lib, m1, m2, m3) ==
      Accumulated(NonCopyCount(ps), Axes(NonCopyCount(ps) as real, NonCopyCount(ps) as real, NonCopyCount(ps) as real))
  {
    if ps != [] {
      var init, last := ps[..|ps| - 1], ps[|ps| - 1];
      assert forall i :: 0 <= i < |init| ==> init[i] == ps[i];
      PerfectPredictionAccumulates(init, lib, m1, m2, m3);
      if !IsMemcpy(last.node.opName) {
        PerfectOperator(last, lib, m1, m2, m3);
      }
    }
  }

  lemma PerfectOperator(p: Pair, lib: Library, m1: OpMetric, m2: OpMetric, m3: OpMetric)
    requires !IsMemcpy(p.node.opName) && PredictsRecorded(lib, p, m1, m2, m3)
    ensures OperatorScore(p, lib, m1, m2, m3) == Scored(Axes(1.0, 1.0, 1.0))
  {
  }

  lemma PerfectPredictionScoresOne(ps: seq<Pair>, lib: Library, m1: OpMetric, m2: OpMetric, m3: OpMetric)
    requires forall i :: 0 <= i < |ps| && !IsMemcpy(ps[i].node.opName) ==>
      PredictsRecorded(lib, ps[i], m1, m2, m3)
    requires NonCopyCount(ps) > 0
    ensures Evaluation(ps, lib, m1, m2, m3) == Accuracies(Axes(1.0, 1.0, 1.0))
  {
    PerfectPredictionAccumulates(ps, lib, m1, m2, m3);
    OneOverOne(NonCopyCount(ps));
  }

  lemma OneOverOne(c: nat)
    requires c > 0
    ensures Finish(Accumulated(c, Axes(c as real, c as real, c as real))) == Accuracies(Axes(1.0, 1.0, 1.0))
  {
  }

  // -----------------------------------------------------------------------
  // The two evaluators' accuracies lie in [0, 1]

  /** Launch dimensions and the register metric of a kernel are never
      negative. */
  predicate LaunchNonNegative(k: Kernel)
  {
    k.grid.x >= 0 && k.grid.y >= 0 && k.grid.z >= 0 &&
    k.block.x >= 0 && k.block.y >= 0 && k.block.z >= 0 &&
    (k.ncu.Some? && "Registers Per Thread" in k.ncu.value ==> k.ncu.value["Registers Per Thread"].value >= 0.0)
  }

  lemma LaunchSumsNonNegative(ks: seq<Kernel>)
    requires forall k :: k in ks ==> LaunchNonNegative(k)
    ensures NonNegativeOn(SumMetric(GridMetric), Some(ks))
    ensures NonNegativeOn(SumMetric(BlockMetric), Some(ks))
    ensures NonNegativeOn(SumMetric(RegisterMetric), Some(ks))
  {
    forall k | k in ks
      ensures GridMetric(k).value >= 0.0 && BlockMetric(k).value >= 0.0
      ensures RegisterMetric(k).Some? ==> RegisterMetric(k).value >= 0.0
    {
      LaunchSizes(k);
    }
    SumNonNegative(ks, GridMetric);
    SumNonNegative(ks, BlockMetric);
    SumNonNegative(ks, RegisterMetric);
  }

  /** When every recorded kernel and every kernel stored in the library has
      non-negative launch dimensions and register counts, the launch
      evaluator's accuracies lie in [0, 1]. */
  lemma GpuAccuraciesBounded(ps: seq<Pair>, lib: Library)
    requires forall i, k :: 0 <= i < |ps| && k in ps[i].kernels ==> LaunchNonNegative(k)
    requires forall op, e, k :: op in lib && e in lib[op] && k in e.kernels ==> LaunchNonNegative(k)
    ensures Evaluation(ps, lib, SumMetric(GridMetric), SumMetric(BlockMetric), SumMetric(RegisterMetric)).Accuracies? ==>
      var a := Evaluation(ps, lib, SumMetric(GridMetric), SumMetric(BlockMetric), SumMetric(RegisterMetric)).means;
      0.0 <= a.first <= 1.0 && 0.0 <= a.second <= 1.0 && 0.0 <= a.third <= 1.0
  {
    var m1, m2, m3 := SumMetric(GridMetric), SumMetric(BlockMetric), SumMetric(RegisterMetric);
    forall i | 0 <= i < |ps|
      ensures OperatorNonNegative(ps[i], lib, m1, m2, m3)
    {
      var p := ps[i];
      var r := Match(lib, QueryOf(p.node));
      if !IsMemcpy(p.node.opName) && !r.Failed? {
        LaunchSumsNonNegative(p.kernels);
        if r.Found? {
          FoundComesFromLibrary(lib, QueryOf(p.node));
          if r.kernels != [] {
            var j :| 0 <= j < |lib[p.node.opName]| && lib[p.node.opName][j].kernels == r.kernels;
            assert lib[p.node.opName][j] in lib[p.node.opName];
          }
          LaunchSumsNonNegative(r.kernels);
        }
      }
    }
    MeansInUnitInterval(ps, lib, m1, m2, m3);
  }

  /** When the throughput averages and the cycle counts are never
      negative, the execution evaluator's accuracies lie in [0, 1]. */
  lemma ExecuteAccuraciesBounded(ps: seq<Pair>, lib: Library,
                                 computeAverage: OpMetric, memoryAverage: OpMetric,
                                 smActiveCycles: Kernel -> Option<real>)
    requires forall ks :: NonNegativeOn(computeAverage, ks)
    requires forall ks :: NonNegativeOn(memoryAverage, ks)
    requires forall k :: smActiveCycles(k).Some? ==> smActiveCycles(k).value >= 0.0
    ensures Evaluation(ps, lib, computeAverage, memoryAverage, SumMetric(smActiveCycles)).Accuracies? ==>
      var a := Evaluation(ps, lib, computeAverage, memoryAverage, SumMetric(smActiveCycles)).means;
      0.0 <= a.first <= 1.0 && 0.0 <= a.second <= 1.0 && 0.0 <= a.third <= 1.0
  {
    forall ks: seq<Kernel>
      ensures NonNegativeOn(SumMetric(smActiveCycles), Some(ks))
    {
      SumNonNegative(ks, smActiveCycles);
    }
    MeansInUnitInterval(ps, lib, computeAverage, memoryAverage, SumMetric(smActiveCycles));
  }
}

=== FILE: perf_tester_runs.dfy ===
/** The two performance testers end to end: pair the trace, join the
    profiler's metric table onto the pairs, and run the accuracy loop over
    the joined pairs. */
module PerfTesterRuns {
  import opened Records
  import opened KernelFinder
  import opened PerfCalculator
  import opened TraceParser
  import opened NcuIntegrator
  import opened PerfTester

  /** What a tester run ends with: the profiler join stopped it (a kernel
      without table rows, or the count mismatch; the source exits), or the
      evaluation's result. */
  datatype TesterResult = NcuExit(failure: JoinResult) | Ran(outcome: PerfOutcome)

  /** The opening of both testers: pair the trace, join the profiler table
      onto the pairs, then run the accumulation loop over the joined pairs
      with the three given quantities. */
  method RunTester(events: seq<Event>, table: seq<MetricRow>, lib: Library, m1: OpMetric, m2: OpMetric, m3: OpMetric)
    returns (r: TesterResult)
    ensures !Join(Pairing(events, 0, 0), table).Joined? ==> r == NcuExit(Join(Pairing(events, 0, 0), table))
    ensures Join(Pairing(events, 0, 0), table).Joined? ==>
      r == Ran(Evaluation(Join(Pairing(events, 0, 0), table).pairs, lib, m1, m2, m3))
  {
    var pairs := GetPairsFromTraceFile(events);
    var joined := FillPairsWithNcu(pairs, table);
    if !joined.Joined? {
      return NcuExit(joined);
    }
    var outcome := Evaluate(joined.pairs, lib, m1, m2, m3);
    r := Ran(outcome);
  }

  /** `GPU_performance_teste` (GPU_performance_tester.py): grid-size,
      block-size and registers-per-thread accuracies over the profiled
      trace, unless the profiler join stops the run first. */
  method GpuPerformanceTest(events: seq<Event>, table: seq<MetricRow>, lib: Library) returns (r: TesterResult)
    ensures !Join(Pairing(events, 0, 0), table).Joined? ==> r == NcuExit(Join(Pairing(events, 0, 0), table))
    ensures Join(Pairing(events, 0, 0), table).Joined? ==>
      r == Ran(Evaluation(Join(Pairing(events, 0, 0), table).pairs, lib,
                          SumMetric(GridMetric), SumMetric(BlockMetric), SumMetric(RegisterMetric)))
  {
    r := RunTester(events, table, lib, SumMetric(GridMetric), SumMetric(BlockMetric), SumMetric(RegisterMetric));
  }

  /** `GPU_performance_teste` (kernel_execute_metric_tester.py): compute
      and memory throughput averages and the SM active cycles sum. The
      per-operator averages and the per-kernel cycle count are parameters:
      the calculator module does not define them. */
  method KernelExecuteMetricTest(events: seq<Event>, table: seq<MetricRow>, lib: Library,
                                 computeAverage: OpMetric, memoryAverage: OpMetric,
                                 smActiveCycles: Kernel -> Option<real>)
    returns (r: TesterResult)
    ensures !Join(Pairing(events, 0, 0), table).Joined? ==> r == NcuExit(Join(Pairing(events, 0, 0), table))
    ensures Join(Pairing(events, 0, 0), table).Joined? ==>
      r == Ran(Evaluation(Join(Pairing(events, 0, 0), table).pairs, lib,
                          computeAverage, memoryAverage, SumMetric(smActiveCycles)))
  {
    r := RunTester(events, table, lib, computeAverage, memoryAverage, SumMetric(smActiveCycles));
  }

  /** A trace whose last kernel is a memory copy never reaches the
      accuracy loop: the join's count check stops the run. */
  lemma TrailingCopyStopsTester(events: seq<Event>, table: seq<MetricRow>)
    requires LastIndex(Flatten(Pairing(events, 0, 0))) < 0
    requires forall row :: row in table ==> row.id >= 0
    ensures !Join(Pairing(events, 0, 0), table).Joined?
  {
  }
}

=== FILE: records.dfy ===
/** Records shared by trace pairing, metric integration, the rule library,
    the shape matcher and the evaluators: one operator instance (a `Node`),
    the GPU kernels it launched, and the pair of the two. */
module Records {

  datatype Option<+T> = None | Some(value: T)

  /** A tensor shape, outermost dimension first. */
  type Shape = seq<int>

  /** A three-dimensional launch configuration (grid or block). */
  datatype Dim3 = Dim3(x: int, y: int, z: int)

  /** One profiler metric attached to a kernel: its value and its unit. */
  datatype Measurement = Measurement(value: real, unit: string)

  /** A GPU kernel launch as recorded in an execution trace. `index` is the
      sequence number assigned by trace pairing (-1 for memory copies);
      `ncu` is the metric map attached by the metric integrator, if any,
      keyed by metric name. */
  datatype Kernel = Kernel(
    name: string,
    dur: int,
    grid: Dim3,
    block: Dim3,
    index: int,
    ncu: Option<map<string, Measurement>>)

  /** One element of an operator's `input_type_shape` or
      `output_type_shape` list: an element type and the tensor's shape. */
  datatype TypedShape = TypedShape(elemType: string, shape: Shape)

  /** A graph-operator instance (an event of category "Node"). */
  datatype Node = Node(
    name: string,
    opName: string,
    provider: string,
    inputs: seq<TypedShape>,
    outputs: seq<TypedShape>,
    outputSize: int,
    parameterSize: int,
    index: int)

  /** An operator together with the kernels launched on its behalf. */
  datatype Pair = Pair(node: Node, kernels: seq<Kernel>)

  /** Substring test, as Python's `sub in s`. */
  predicate Contains(s: string, sub: string)
    decreases |s|
  {
    |sub| <= |s| && (s[..|sub|] == sub || Contains(s[1..], sub))
  }

  /** Every component treats a kernel or operator whose name contains
      "Memcpy" as a memory copy. */
  predicate IsMemcpy(name: string)
  {
    Contains(name, "Memcpy")
  }

  /** The shapes of a list of typed shapes, position by position (what
      `list(x.values())[0]` extracts from each element). */
  function Shapes(ts: seq<TypedShape>): (r: seq<Shape>)
    ensures |r| == |ts|
    ensures forall i :: 0 <= i < |ts| ==> r[i] == ts[i].shape
  {
    seq(|ts|, i requires 0 <= i < |ts| => ts[i].shape)
  }
}

=== FILE: relation_finder.dfy ===
/** Grouping operator instances by their operator-to-kernel mapping: the
    operator type, the execution provider and the ordered kernel names form
    a relation key; every pair lands in the bucket of its key, which counts
    its instances and keeps them in input order. From one bucket's
    instances the launch arguments of one kernel position are extracted. */
module RelationFinder {
  import opened Records
  import opened PerfCalculator

  /** `(op_name, provider, tuple(kernel names))`. */
  datatype RelationKey = RelationKey(opName: string, provider: string, kernelNames: seq<string>)

  /** `{'count': ..., 'instances': [...]}`. */
  datatype Bucket = Bucket(count: nat, instances: seq<Pair>)

  type Relations = map<RelationKey, Bucket>

  function Names(ks: seq<Kernel>): (r: seq<string>)
    ensures |r| == |ks| && forall i :: 0 <= i < |ks| ==> r[i] == ks[i].name
  {
    seq(|ks|, i requires 0 <= i < |ks| => ks[i].name)
  }

  function KeyOf(p: Pair): RelationKey
  {
    RelationKey(p.node.opName, p.node.provider, Names(p.kernels))
  }

  /** The pairs with key `key`, in input order. */
  function WithKey(ps: seq<Pair>, key: RelationKey): (r: seq<Pair>)
    ensures forall p :: p in r ==> p in ps && KeyOf(p) == key
  {
    if ps == [] then []
    else WithKey(ps[..|ps| - 1], key) + (if KeyOf(ps[|ps| - 1]) == key then [ps[|ps| - 1]] else [])
  }

  /** The sum of the bucket counts over `keys`. */
  ghost function CountOver(m: Relations, keys: set<RelationKey>): nat
    requires keys <= m.Keys
    decreases keys
  {
    if keys == {} then 0
    else
      var k :| k in keys;
      m[k].count + CountOver(m, keys - {k})
  }

  /** The sum of all bucket counts. */
  ghost function TotalCount(m: Relations): nat
  {
    CountOver(m, m.Keys)
  }

  // -----------------------------------------------------------------------
  // Sums over buckets

  lemma {:induction false} CountOverRemove(m: Relations, keys: set<RelationKey>, k: RelationKey)
    requires keys <= m.Keys && k in keys
    ensures CountOver(m, keys) == m[k].count + CountOver(m, keys - {k})
    decreases keys
  {
    var j :| j in keys && CountOver(m, keys) == m[j].count + CountOver(m, keys - {j});
    if j != k {
      CountOverRemove(m, keys - {j}, k);
      CountOverRemove(m, keys - {k}, j);
      assert keys - {j} - {k} == keys - {k} - {j};
    }
  }

  lemma {:induction false} CountOverAgree(m: Relations, m': Relations, keys: set<RelationKey>)
    requires keys <= m.Keys && keys <= m'.Keys
    requires forall k :: k in keys ==> m[k].count == m'[k].count
    ensures CountOver(m, keys) == CountOver(m', keys)
    decreases keys
  {
    if keys != {} {
      var k :| k in keys && CountOver(m, keys) == m[k].count + CountOver(m, keys - {k});
      CountOverRemove(m', keys, k);
      CountOverAgree(m, m', keys - {k});
    }
  }

  /** Adding one instance to the bucket of `key` (creating it empty first
      if needed) raises the total count by one. */
  lemma TotalAfterAppend(m: Relations, key: RelationKey, b: Bucket)
    requires key in m ==> b.count == m[key].count + 1
    requires key !in m ==> b.count == 1
    ensures TotalCount(m[key := b]) == TotalCount(m) + 1
  {
    var m' := m[key := b];
    CountOverRemove(m', m'.Keys, key);
    assert m'.Keys - {key} == m.Keys - {key};
    CountOverAgree(m, m', m.Keys - {key});
    if key in m {
      CountOverRemove(m, m.Keys, key);
    } else {
      assert m.Keys - {key} == m.Keys;
    }
  }

  /** Inserting an empty bucket for a new key leaves the total unchanged. */
  lemma TotalAfterEmptyInsert(m: Relations, key: RelationKey)
    requires key !in m
    ensures TotalCount(m[key := Bucket(0, [])]) == TotalCount(m)
  {
    var m' := m[key := Bucket(0, [])];
    CountOverRemove(m', m'.Keys, key);
    assert m'.Keys - {key} == m.Keys;
    CountOverAgree(m, m', m.Keys);
  }

  // -----------------------------------------------------------------------
  // Building the buckets

  predicate Occurs(ps: seq<Pair>, key: RelationKey)
  {
    exists i :: 0 <= i < |ps| && KeyOf(ps[i]) == key
  }

  /** The buckets describe `ps`: one per key that occurs, holding the pairs
      with that key in order, and counting them. */
  ghost predicate Describes(m: Relations, ps: seq<Pair>)
  {
    (forall key :: key in m <==> Occurs(ps, key)) &&
    (forall key :: key in m ==> m[key] == Bucket(|WithKey(ps, key)|, WithKey(ps, key)))
  }

  /** `get_relationship_dict`: `None` for no pairs; otherwise the bucket
      of every key occurring in the pairs, whose counts sum to the number of
      pairs. */
  method GetRelationshipDict(pairs: Option<seq<Pair>>) returns (r: Option<Relations>)
    ensures r.None? <==> pairs.None?
    ensures r.Some? ==> Describes(r.value, pairs.value) && TotalCount(r.value) == |pairs.value|
  {
    if pairs.None? {
      return None;
    }
    var ps := pairs.value;
    var m: Relations := map[];
    var i := 0;
    while i < |ps|
      invariant 0 <= i <= |ps|
      invariant Describes(m, ps[..i])
      invariant TotalCount(m) == i
    {
      var p := ps[i];
      var key := KeyOf(p);
      var b := if key in m then m[key] else Bucket(0, []);
      var b' := Bucket(b.count + 1, b.instances + [p]);
      TotalAfterAppend(m, key, b');
      DescribesStep(m, ps, i);
      m := m[key := b'];
      i := i + 1;
    }
    assert ps[..i] == ps;
    return Some(m);
  }

  lemma {:induction false} WithKeyAbsent(ps: seq<Pair>, key: RelationKey)
    requires forall i :: 0 <= i < |ps| ==> KeyOf(ps[i]) != key
    ensures WithKey(ps, key) == []
  {
    if ps != [] {
      WithKeyAbsent(ps[..|ps| - 1], key);
    }
  }

  lemma OccursStep(ps: seq<Pair>, i: nat, key: RelationKey)
    requires i < |ps|
    ensures Occurs(ps[..i + 1], key) <==> Occurs(ps[..i], key) || KeyOf(ps[i]) == key
  {
    var pre, post := ps[..i], ps[..i + 1];
    if Occurs(post, key) {
      var j :| 0 <= j < |post| && KeyOf(post[j]) == key;
      if j < i {
        assert pre[j] == post[j];
      }
    }
    if Occurs(pre, key) {
      var j :| 0 <= j < |pre| && KeyOf(pre[j]) == key;
      assert post[j] == pre[j];
    }
    if KeyOf(ps[i]) == key {
      assert post[i] == ps[i];
    }
  }

  lemma WithKeyStep(ps: seq<Pair>, i: nat, key: RelationKey)
    requires i < |ps|
    ensures WithKey(ps[..i + 1], key) == WithKey(ps[..i], key) + (if KeyOf(ps[i]) == key then [ps[i]] else [])
  {
    assert ps[..i + 1][..i] == ps[..i];
  }

  lemma DescribesStep(m: Relations, ps: seq<Pair>, i: nat)
    requires i < |ps| && Describes(m, ps[..i])
    ensures var key := KeyOf(ps[i]);
      var b := if key in m then m[key] else Bucket(0, []);
      Describes(m[key := Bucket(b.count + 1, b.instances + [ps[i]])], ps[..i + 1])
  {
    var key := KeyOf(ps[i]);
    var b := if key in m then m[key] else Bucket(0, []);
    var m' := m[key := Bucket(b.count + 1, b.instances + [ps[i]])];
    if key !in m {
      WithKeyAbsent(ps[..i], key);
    }
    forall k
      ensures k in m' <==> Occurs(ps[..i + 1], k)
    {
      OccursStep(ps, i, k);
    }
    forall k | k in m'
      ensures m'[k] == Bucket(|WithKey(ps[..i + 1], k)|, WithKey(ps[..i + 1], k))
    {
      WithKeyStep(ps, i, k);
    }
  }

  /** Every pair is in the bucket of its own key, and a bucket holds only
      pairs of its key; two pairs share a bucket exactly when their
      operator types, providers and ordered kernel names agree. */
  lemma BucketsPartition(m: Relations, ps: seq<Pair>)
    requires Describes(m, ps)
    ensures forall i :: 0 <= i < |ps| ==> KeyOf(ps[i]) in m && ps[i] in m[KeyOf(ps[i])].instances
    ensures forall key, p :: key in m && p in m[key].instances ==> KeyOf(p) == key
    ensures forall key :: key in m ==> m[key].count > 0
  {
    forall i | 0 <= i < |ps|
      ensures KeyOf(ps[i]) in m && ps[i] in m[KeyOf(ps[i])].instances
    {
      assert Occurs(ps, KeyOf(ps[i]));
      WithKeyComplete(ps, i);
    }
    forall key | key in m
      ensures m[key].count > 0
    {
      var i :| 0 <= i < |ps| && KeyOf(ps[i]) == key;
      WithKeyComplete(ps, i);
    }
  }

  lemma SameBucket(p: Pair, q: Pair)
    ensures KeyOf(p) == KeyOf(q) <==>
      p.node.opName == q.node.opName && p.node.provider == q.node.provider &&
      |p.kernels| == |q.kernels| && forall i :: 0 <= i < |p.kernels| ==> p.kernels[i].name == q.kernels[i].name
  {
    if p.node.opName == q.node.opName && p.node.provider == q.node.provider &&
       |p.kernels| == |q.kernels| && forall i :: 0 <= i < |p.kernels| ==> p.kernels[i].name == q.kernels[i].name {
      assert Names(p.kernels) == Names(q.kernels);
    }
  }

  lemma {:induction false} WithKeyComplete(ps: seq<Pair>, i: nat)
    requires i < |ps|
    ensures ps[i] in WithKey(ps, KeyOf(ps[i]))
  {
    var init := ps[..|ps| - 1];
    if i < |ps| - 1 {
      WithKeyComplete(init, i);
      assert init[i] == ps[i];
    }
  }

  // -----------------------------------------------------------------------
  // One bucket's instances

  /** `get_pairs_from_single_relation_dict`: the instances of `key`, or
      `None` for no buckets or a key without instances. Indexing the
      bucket map inserts an empty bucket for a missing key, which is
      returned as the new map. */
  method GetPairsFromSingleRelationDict(d: Option<Relations>, key: RelationKey)
    returns (r: Option<seq<Pair>>, d': Option<Relations>)
    ensures d.None? ==> r.None? && d'.None?
    ensures d.Some? ==> d' == Some(if key in d.value then d.value else d.value[key := Bucket(0, [])])
    ensures r.Some? <==> d.Some? && key in d.value && d.value[key].instances != []
    ensures r.Some? ==> r.value == d.value[key].instances
    ensures d.Some? ==> TotalCount(d'.value) == TotalCount(d.value)
  {
    if d.None? {
      return None, None;
    }
    var m := d.value;
    if key !in m {
      TotalAfterEmptyInsert(m, key);
      m := m[key := Bucket(0, [])];
    }
    d' := Some(m);
    var instances := m[key].instances;
    if |instances| == 0 {
      return None, d';
    }
    r := Some(instances);
  }

  /** On the buckets of `ps`, the instances found for `key` are the pairs
      with that key, in order, and there are some exactly when the key
      occurs. */
  lemma InstancesOfKey(m: Relations, ps: seq<Pair>, key: RelationKey)
    requires Describes(m, ps)
    ensures key in m && m[key].instances != [] <==> Occurs(ps, key)
    ensures key in m ==> m[key].instances == WithKey(ps, key)
  {
    if Occurs(ps, key) {
      var i :| 0 <= i < |ps| && KeyOf(ps[i]) == key;
      WithKeyComplete(ps, i);
    }
  }

  // -----------------------------------------------------------------------
  // Launch arguments

  /** Python's `xs[idx]` on a list of length `n`: negative indices count
      from the end; `None` is an IndexError. */
  function PyIndex(n: nat, idx: int): (r: Option<nat>)
    ensures r.Some? <==> -(n as int) <= idx < n
    ensures r.Some? ==> r.value < n && (r.value as int == idx || r.value as int == n + idx)
  {
    if 0 <= idx < n then Some(idx)
    else if -(n as int) <= idx < 0 then Some(n + idx)
    else None
  }

  datatype OpArgs = OpArgs(outputSize: int, parameterSize: int, inputShapes: seq<Shape>, outputShapes: seq<Shape>)

  datatype KernelArgs = KernelArgs(grid: Dim3, block: Dim3, duration: int, gridSize: int, blockSize: int, threadSize: int)

  /** One `{"op_args": ..., "kernel_args": ...}` record. */
  datatype ArgsPair = ArgsPair(op: OpArgs, kernel: KernelArgs)

  function ArgsOf(p: Pair, k: Kernel): ArgsPair
  {
    var gridSize := k.grid.x * k.grid.y * k.grid.z;
    var blockSize := k.block.x * k.block.y * k.block.z;
    ArgsPair(
      OpArgs(p.node.outputSize, p.node.parameterSize, Shapes(p.node.inputs), Shapes(p.node.outputs)),
      KernelArgs(k.grid, k.block, k.dur, gridSize, blockSize, gridSize * blockSize))
  }

  /** `get_args_from_pairs`: one record per instance, in order, for the
      kernel at position `kernelIdx` of each; `None` when some instance
      has no such position (IndexError). */
  method GetArgsFromPairs(instances: seq<Pair>, kernelIdx: int) returns (r: Option<seq<ArgsPair>>)
    ensures r.Some? <==> forall i :: 0 <= i < |instances| ==> -|instances[i].kernels| <= kernelIdx < |instances[i].kernels|
    ensures r.Some? ==> |r.value| == |instances|
    ensures r.Some? ==> forall i :: 0 <= i < |instances| ==>
      r.value[i] == ArgsOf(instances[i], instances[i].kernels[PyIndex(|instances[i].kernels|, kernelIdx).value])
  {
    var args: seq<ArgsPair> := [];
    for i := 0 to |instances|
      invariant |args| == i
      invariant forall j :: 0 <= j < i ==> -|instances[j].kernels| <= kernelIdx < |instances[j].kernels|
      invariant forall j :: 0 <= j < i ==>
        args[j] == ArgsOf(instances[j], instances[j].kernels[PyIndex(|instances[j].kernels|, kernelIdx).value])
    {
      var ks := instances[i].kernels;
      var at := PyIndex(|ks|, kernelIdx);
      if at.None? {
        return None;
      }
      args := args + [ArgsOf(instances[i], ks[at.value])];
    }
    r := Some(args);
  }

  /** The extracted sizes: the grid and block sizes are the products of
      their dimensions and the thread size is their product; for a compute
      kernel they agree with the calculator's, while a memory copy keeps
      its launch products here where the calculator counts 0. The shapes
      follow the operator's input and output positions. */
  lemma ArgsSizes(p: Pair, k: Kernel)
    ensures ArgsOf(p, k).kernel.gridSize == k.grid.x * k.grid.y * k.grid.z
    ensures ArgsOf(p, k).kernel.blockSize == k.block.x * k.block.y * k.block.z
    ensures ArgsOf(p, k).kernel.threadSize == ArgsOf(p, k).kernel.gridSize * ArgsOf(p, k).kernel.blockSize
    ensures !IsMemcpy(k.name) ==> ArgsOf(p, k).kernel.threadSize == GridSize(k) * BlockSize(k)
    ensures |ArgsOf(p, k).op.inputShapes| == |p.node.inputs| && |ArgsOf(p, k).op.outputShapes| == |p.node.outputs|
    ensures forall i :: 0 <= i < |p.node.inputs| ==> ArgsOf(p, k).op.inputShapes[i] == p.node.inputs[i].shape
    ensures forall i :: 0 <= i < |p.node.outputs| ==> ArgsOf(p, k).op.outputShapes[i] == p.node.outputs[i].shape
  {
  }
}

=== FILE: sequence_tester.dfy ===
/** Evaluating the kernel finder against a trace: every operator of the
    trace is looked up in the rule library and the predicted kernel
    sequence is classified against the one the trace recorded, as an exact
    match (same names, same launch configurations), a sequence match (same
    names only) or no match. */
module SequenceTester {
  import opened Records
  import opened KernelFinder
  import opened KernelFinderProperties

  datatype Verdict = NoMatch | Exact | SequenceMatch

  /** Same length and the same kernel name at every position. */
  predicate NamesAgree(predicted: seq<Kernel>, recorded: seq<Kernel>)
  {
    |predicted| == |recorded| && forall i :: 0 <= i < |predicted| ==> predicted[i].name == recorded[i].name
  }

  /** Grid and block agree at every position whose predicted kernel is not
      a memory copy. */
  predicate LaunchAgrees(predicted: seq<Kernel>, recorded: seq<Kernel>)
    requires |predicted| == |recorded|
  {
    forall i :: 0 <= i < |predicted| && !IsMemcpy(predicted[i].name) ==>
      predicted[i].grid == recorded[i].grid && predicted[i].block == recorded[i].block
  }

  /** The classification of a prediction (`None`: nothing predicted). */
  function Judge(predicted: Option<seq<Kernel>>, recorded: seq<Kernel>): Verdict
  {
    if predicted.None? || !NamesAgree(predicted.value, recorded) then NoMatch
    else if LaunchAgrees(predicted.value, recorded) then Exact
    else SequenceMatch
  }

  /** `judge_kernel_match_verbose`: a name pass that clears the sequence
      flag, then a launch pass over the non-copy positions that clears the
      exact flag. */
  method JudgeKernelMatchVerbose(predicted: Option<seq<Kernel>>, recorded: seq<Kernel>) returns (v: Verdict)
    ensures v == Judge(predicted, recorded)
  {
    if predicted.None? {
      return NoMatch;
    }
    var ks := predicted.value;
    if |ks| != |recorded| {
      return NoMatch;
    }
    var sequenceMatch := true;
    for i := 0 to |ks|
      invariant sequenceMatch <==> forall j :: 0 <= j < i ==> ks[j].name == recorded[j].name
    {
      if ks[i].name != recorded[i].name {
        sequenceMatch := false;
      }
    }
    if !sequenceMatch {
      return NoMatch;
    }
    var exactMatch := true;
    for i := 0 to |ks|
      invariant exactMatch <==> forall j :: 0 <= j < i && !IsMemcpy(ks[j].name) ==>
        ks[j].grid == recorded[j].grid && ks[j].block == recorded[j].block
    {
      if !IsMemcpy(ks[i].name) {
        if ks[i].grid != recorded[i].grid {
          exactMatch := false;
        }
        if ks[i].block != recorded[i].block {
          exactMatch := false;
        }
      }
    }
    v := if exactMatch then Exact else SequenceMatch;
  }

  /** A recorded sequence judged against itself is an exact match; the
      empty prediction matches an operator without kernels exactly, while no
      prediction never matches. */
  lemma JudgeCases(ks: seq<Kernel>)
    ensures Judge(Some(ks), ks) == Exact
    ensures Judge(Some([]), []) == Exact
    ensures Judge(None, ks) == NoMatch
  {
  }

  /** A name difference at any position, or a length difference, is no
      match; with all names equal, a launch difference at a non-copy
      position demotes the verdict to a sequence match. */
  lemma JudgeTruthTable(ks: seq<Kernel>, recorded: seq<Kernel>)
    ensures |ks| != |recorded| ==> Judge(Some(ks), recorded) == NoMatch
    ensures |ks| == |recorded| && (exists i :: 0 <= i < |ks| && ks[i].name != recorded[i].name) ==>
      Judge(Some(ks), recorded) == NoMatch
    ensures NamesAgree(ks, recorded) && !LaunchAgrees(ks, recorded) ==> Judge(Some(ks), recorded) == SequenceMatch
    ensures NamesAgree(ks, recorded) && LaunchAgrees(ks, recorded) ==> Judge(Some(ks), recorded) == Exact
  {
  }

  /** Memory-copy positions never matter: two predictions with the same
      names and the same launch configurations at every non-copy position
      get the same verdict. */
  lemma CopiesNeverMatter(a: seq<Kernel>, b: seq<Kernel>, recorded: seq<Kernel>)
    requires |a| == |b|
    requires forall i :: 0 <= i < |a| ==> a[i].name == b[i].name
    requires forall i :: 0 <= i < |a| && !IsMemcpy(a[i].name) ==> a[i].grid == b[i].grid && a[i].block == b[i].block
    ensures Judge(Some(a), recorded) == Judge(Some(b), recorded)
  {
  }

  // -----------------------------------------------------------------------
  // The counting loop

  /** Operators counted: not memory copies, and in the operator list when
      one is given. */
  predicate Eligible(p: Pair, opList: Option<seq<string>>)
  {
    !IsMemcpy(p.node.opName) && (opList.None? || p.node.opName in opList.value)
  }

  function EligibleCount(ps: seq<Pair>, opList: Option<seq<string>>): nat
  {
    if ps == [] then 0
    else EligibleCount(ps[..|ps| - 1], opList) + (if Eligible(ps[|ps| - 1], opList) then 1 else 0)
  }

  /** Operators counted, sequence matches (exact ones included) and exact
      matches. */
  datatype Tally = Tally(total: nat, sequence: nat, exact: nat)

  /** The counters, or the failure a lookup raised. */
  datatype TestOutcome = Completed(tally: Tally) | Crashed(fault: Fault)

  /** One operator's effect on the counters. */
  function Count(t: Tally, v: Verdict): Tally
  {
    match v
    case Exact => Tally(t.total + 1, t.sequence + 1, t.exact + 1)
    case SequenceMatch => Tally(t.total + 1, t.sequence + 1, t.exact)
    case NoMatch => Tally(t.total + 1, t.sequence, t.exact)
  }

  function TestStep(t: Tally, p: Pair, lib: Library, opList: Option<seq<string>>): TestOutcome
  {
    if !Eligible(p, opList) then Completed(t)
    else
      var r := Match(lib, QueryOf(p.node));
      if r.Failed? then Crashed(r.fault)
      else Completed(Count(t, Judge(Prediction(r), p.kernels)))
  }

  /** The counters after the operators `ps`, each looked up in `lib`. */
  function TallyOf(ps: seq<Pair>, lib: Library, opList: Option<seq<string>>): TestOutcome
  {
    if ps == [] then Completed(Tally(0, 0, 0))
    else match TallyOf(ps[..|ps| - 1], lib, opList)
      case Crashed(f) => Crashed(f)
      case Completed(t) => TestStep(t, ps[|ps| - 1], lib, opList)
  }

  lemma {:induction false} CrashPersists(ps: seq<Pair>, n: nat, lib: Library, opList: Option<seq<string>>, f: Fault)
    requires n <= |ps| && TallyOf(ps[..n], lib, opList) == Crashed(f)
    ensures TallyOf(ps, lib, opList) == Crashed(f)
    decreases |ps|
  {
    if n < |ps| {
      var init := ps[..|ps| - 1];
      assert init[..n] == ps[..n];
      CrashPersists(init, n, lib, opList, f);
    } else {
      assert ps[..n] == ps;
    }
  }

  lemma TallyStep(ps: seq<Pair>, i: nat, lib: Library, opList: Option<seq<string>>, t: Tally)
    requires i < |ps| && TallyOf(ps[..i], lib, opList) == Completed(t)
    ensures TallyOf(ps[..i + 1], lib, opList) == TestStep(t, ps[i], lib, opList)
    ensures !Eligible(ps[i], opList) ==> TallyOf(ps[..i + 1], lib, opList) == Completed(t)
  {
    assert ps[..i + 1][..i] == ps[..i];
  }

  /** The counting loop of `trace_file_based_test` over already-paired
      operators: each lookup may rewrite the library it is given, and the
      next lookup sees the rewritten one; the counters are nevertheless
      those of looking every operator up in the original library. */
  method TraceFileBasedTest(pairs: seq<Pair>, lib: Library, opList: Option<seq<string>>) returns (r: TestOutcome)
    ensures r == TallyOf(pairs, lib, opList)
  {
    var current := lib;
    var t := Tally(0, 0, 0);
    var i := 0;
    while i < |pairs|
      invariant 0 <= i <= |pairs|
      invariant Descends(current, lib)
      invariant TallyOf(pairs[..i], lib, opList) == Completed(t)
    {
      var p := pairs[i];
      TallyStep(pairs, i, lib, opList, t);
      if Eligible(p, opList) {
        var step, next := TestOperator(current, lib, p, t, opList);
        if step.Crashed? {
          CrashPersists(pairs, i + 1, lib, opList, step.fault);
          return step;
        }
        t := step.tally;
        current := next;
      }
      i := i + 1;
    }
    assert pairs[..i] == pairs;
    return Completed(t);
  }

  /** One counted operator of the loop: look it up in the current library,
      judge the prediction and count the verdict. The result is that of the
      original library, and the rewritten library still descends from it. */
  method TestOperator(current: Library, lib: Library, p: Pair, t: Tally, opList: Option<seq<string>>)
    returns (r: TestOutcome, next: Library)
    requires Descends(current, lib) && Eligible(p, opList)
    ensures r == TestStep(t, p, lib, opList)
    ensures Descends(next, lib)
  {
    var q := QueryOf(p.node);
    var found, q';
    found, q', next := FindBestMatchKernels(current, q);
    LookupStep(current, lib, q);
    if found.Failed? {
      return Crashed(found.fault), next;
    }
    var v := JudgeKernelMatchVerbose(Prediction(found), p.kernels);
    r := Completed(Count(t, v));
  }

  // -----------------------------------------------------------------------
  // Properties of the counters

  /** The lookup of the operator raises. */
  predicate LookupFails(lib: Library, p: Pair)
  {
    Match(lib, QueryOf(p.node)).Failed?
  }

  lemma CompletesStep(ps: seq<Pair>, lib: Library, opList: Option<seq<string>>)
    requires ps != []
    ensures TallyOf(ps, lib, opList).Completed? <==>
      TallyOf(ps[..|ps| - 1], lib, opList).Completed? && (Eligible(ps[|ps| - 1], opList) ==> !LookupFails(lib, ps[|ps| - 1]))
  {
  }

  /** The test completes exactly when no counted operator's lookup
      raises. */
  lemma {:induction false} TallyCompletes(ps: seq<Pair>, lib: Library, opList: Option<seq<string>>)
    ensures TallyOf(ps, lib, opList).Completed? <==>
      forall i :: 0 <= i < |ps| && Eligible(ps[i], opList) ==> !LookupFails(lib, ps[i])
  {
    if ps != [] {
      var init := ps[..|ps| - 1];
      TallyCompletes(init, lib, opList);
      CompletesStep(ps, lib, opList);
      assert forall i :: 0 <= i < |init| ==> init[i] == ps[i];
    }
  }

  /** A completed test counts every eligible operator, and
      exact <= sequence <= total. */
  lemma {:induction false} TallyBounds(ps: seq<Pair>, lib: Library, opList: Option<seq<string>>)
    requires TallyOf(ps, lib, opList).Completed?
    ensures TallyOf(ps, lib, opList).tally.exact <= TallyOf(ps, lib, opList).tally.sequence
    ensures TallyOf(ps, lib, opList).tally.sequence <= TallyOf(ps, lib, opList).tally.total
    ensures TallyOf(ps, lib, opList).tally.total == EligibleCount(ps, opList)
  {
    if ps != [] {
      TallyBounds(ps[..|ps| - 1], lib, opList);
    }
  }

  /** A library that predicts every counted operator's recorded kernels
      makes every counted operator an exact match. */
  lemma {:induction false} PerfectLibraryAllExact(ps: seq<Pair>, lib: Library, opList: Option<seq<string>>)
    requires forall i :: 0 <= i < |ps| && Eligible(ps[i], opList) ==> Match(lib, QueryOf(ps[i].node)) == Found(ps[i].kernels)
    ensures TallyOf(ps, lib, opList) == Completed(Tally(EligibleCount(ps, opList), EligibleCount(ps, opList), EligibleCount(ps, opList)))
  {
    if ps != [] {
      var init := ps[..|ps| - 1];
      assert forall i :: 0 <= i < |init| ==> init[i] == ps[i];
      PerfectLibraryAllExact(init, lib, opList);
      JudgeCases(ps[|ps| - 1].kernels);
    }
  }
}

=== FILE: shape_score.dfy ===
/** The similarity score between two tensor shapes used by every matching
    strategy: one point per identical dimension, a punished ratio per
    differing dimension, and a weighted ratio of the total sizes. Shapes of
    different rank get only the total-size term. */
module ShapeScore {
  import opened Records

  /** The weights every strategy passes. */
  const DifferencePunishWeight: real := 1.0
  const TotalSizeWeight: real := 2.0

  /** `math.prod`: the product of all dimensions, 1 for the empty shape. */
  function Prod(s: Shape): int
  {
    if s == [] then 1 else s[0] * Prod(s[1..])
  }

  function Min(a: real, b: real): real
  {
    if a <= b then a else b
  }

  /** `min(a / b, b / a)` when both are non-zero, else 0. */
  function Ratio(a: int, b: int): real
  {
    if a != 0 && b != 0 then Min(a as real / b as real, b as real / a as real) else 0.0
  }

  /** The per-dimension part of the score of two equal-rank shapes. */
  function DimScore(t: Shape, g: Shape, w: real): real
    requires |t| == |g|
  {
    if t == [] then 0.0
    else DimPoints(t[0], g[0], w) + DimScore(t[1..], g[1..], w)
  }

  /** One dimension's points: 1 when equal, else the punished ratio. */
  function DimPoints(a: int, b: int, w: real): real
  {
    if a == b then 1.0 else w * Ratio(a, b)
  }

  /** `_calculate_shape_match_score(t, g, w, sw)`. */
  function MatchScore(t: Shape, g: Shape, w: real, sw: real): real
  {
    if |t| != |g| then SizeScore(t, g, sw)
    else DimScore(t, g, w) + SizeScore(t, g, sw)
  }

  /** The total-size part of the score. */
  function SizeScore(t: Shape, g: Shape, sw: real): real
  {
    sw * Ratio(Prod(t), Prod(g))
  }

  /** `_shape_full_score(len, sw)`: the score of an exact match of a shape of
      rank `len`. */
  function FullScore(len: int, sw: real): (r: real)
    ensures r - sw == len as real
  {
    len as real + sw
  }

  /** The score with the weights every strategy passes. */
  function Score(t: Shape, g: Shape): real
  {
    MatchScore(t, g, DifferencePunishWeight, TotalSizeWeight)
  }

  predicate AllPositive(s: Shape)
  {
    forall i :: 0 <= i < |s| ==> s[i] > 0
  }

  // ---------------------------------------------------------------------
  // Ratio

  lemma RatioSymmetric(a: int, b: int)
    ensures Ratio(a, b) == Ratio(b, a)
  {
  }

  /** For 0 < x < y, x / y lies strictly between 0 and 1 and y / x exceeds 1. */
  lemma RatioBelowOne(x: real, y: real)
    requires 0.0 < x < y
    ensures 0.0 < x / y < 1.0 < y / x
  {
    var a, b := x / y, y / x;
    assert a * y == x && b * x == y;
    if a >= 1.0 {
      assert false;
    }
    if b <= 1.0 {
      assert false;
    }
  }

  lemma RatioOfPositives(a: int, b: int)
    requires a > 0 && b > 0
    ensures 0.0 < Ratio(a, b) <= 1.0
    ensures Ratio(a, b) == 1.0 <==> a == b
  {
    var x, y := a as real, b as real;
    if a < b {
      RatioBelowOne(x, y);
    } else if a > b {
      RatioBelowOne(y, x);
    } else {
      RatioSelf(a);
    }
  }

  lemma RatioSelf(a: int)
    ensures Ratio(a, a) == if a != 0 then 1.0 else 0.0
  {
    if a != 0 {
      var x := a as real;
      assert x != 0.0;
      assert x / x == 1.0;
    }
  }

  // ---------------------------------------------------------------------
  // Products

  lemma {:induction false} ProdNonZero(s: Shape)
    ensures Prod(s) != 0 <==> forall i :: 0 <= i < |s| ==> s[i] != 0
  {
    if s != [] {
      ProdNonZero(s[1..]);
      assert forall i :: 1 <= i < |s| ==> s[i] == s[1..][i - 1];
    }
  }

  lemma {:induction false} ProdPositive(s: Shape)
    requires AllPositive(s)
    ensures Prod(s) > 0
  {
    if s != [] {
      assert AllPositive(s[1..]) by {
        assert forall i :: 0 <= i < |s| - 1 ==> s[1..][i] == s[i + 1];
      }
      ProdPositive(s[1..]);
    }
  }

  lemma {:induction false} ProdEqual(t: Shape, g: Shape)
    requires t == g
    ensures Prod(t) == Prod(g)
  {
  }

  // ---------------------------------------------------------------------
  // The per-dimension part

  lemma {:induction false} DimScoreSelf(s: Shape, w: real)
    ensures DimScore(s, s, w) == |s| as real
  {
    if s != [] {
      DimScoreSelf(s[1..], w);
    }
  }

  lemma {:induction false} DimScoreSymmetric(t: Shape, g: Shape, w: real)
    requires |t| == |g|
    ensures DimScore(t, g, w) == DimScore(g, t, w)
  {
    if t != [] {
      RatioSymmetric(t[0], g[0]);
      DimScoreSymmetric(t[1..], g[1..], w);
    }
  }

  lemma HeadScore(a: int, b: int, w: real)
    requires a > 0 && b > 0 && 0.0 < w <= 1.0
    ensures 0.0 < DimPoints(a, b, w) <= 1.0 && (DimPoints(a, b, w) == 1.0 <==> a == b)
  {
    RatioOfPositives(a, b);
    if a != b {
      var rho := Ratio(a, b);
      assert 0.0 < rho < 1.0;
      assert w * rho <= rho;
    }
  }

  /** With positive dimensions and a punish weight in (0, 1], each dimension
      contributes at most one point, and exactly one only when it is equal. */
  lemma {:induction false} DimScoreBounds(t: Shape, g: Shape, w: real)
    requires |t| == |g| && AllPositive(t) && AllPositive(g)
    requires 0.0 < w <= 1.0
    ensures 0.0 <= DimScore(t, g, w) <= |t| as real
    ensures DimScore(t, g, w) == |t| as real <==> t == g
  {
    if t != [] {
      var t', g' := t[1..], g[1..];
      assert AllPositive(t') && AllPositive(g') by {
        assert forall i :: 0 <= i < |t| - 1 ==> t'[i] == t[i + 1] && g'[i] == g[i + 1];
      }
      DimScoreBounds(t', g', w);
      HeadScore(t[0], g[0], w);
      assert t == [t[0]] + t' && g == [g[0]] + g';
      assert t == g <==> t[0] == g[0] && t' == g';
    }
  }

  // ---------------------------------------------------------------------
  // Properties of the score

  /** Two identical shapes score their rank, plus the total-size weight
      unless some dimension is 0 (then the total-size term is 0). */
  lemma ScoreOfIdenticalShapes(s: Shape, w: real, sw: real)
    ensures (forall i :: 0 <= i < |s| ==> s[i] != 0) ==> MatchScore(s, s, w, sw) == FullScore(|s|, sw)
    ensures (exists i :: 0 <= i < |s| && s[i] == 0) ==> MatchScore(s, s, w, sw) == |s| as real
  {
    DimScoreSelf(s, w);
    ProdNonZero(s);
    RatioSelf(Prod(s));
    assert SizeScore(s, s, sw) == sw * Ratio(Prod(s), Prod(s));
  }

  /** The score does not depend on which shape is the query. */
  lemma ScoreSymmetric(t: Shape, g: Shape, w: real, sw: real)
    ensures MatchScore(t, g, w, sw) == MatchScore(g, t, w, sw)
  {
    RatioSymmetric(Prod(t), Prod(g));
    assert SizeScore(t, g, sw) == SizeScore(g, t, sw);
    if |t| == |g| {
      DimScoreSymmetric(t, g, w);
    }
  }

  /** For positive dimensions, a punish weight in (0, 1] and a positive
      total-size weight, an equal-rank score lies in (0, rank + sw] and
      reaches the full score exactly for identical shapes; a score across
      ranks lies in (0, sw]. */
  lemma ScoreBounds(t: Shape, g: Shape, w: real, sw: real)
    requires AllPositive(t) && AllPositive(g)
    requires 0.0 < w <= 1.0 && 0.0 < sw
    ensures 0.0 < MatchScore(t, g, w, sw)
    ensures |t| == |g| ==> MatchScore(t, g, w, sw) <= FullScore(|t|, sw)
    ensures |t| == |g| ==> (MatchScore(t, g, w, sw) == FullScore(|t|, sw) <==> t == g)
    ensures |t| != |g| ==> MatchScore(t, g, w, sw) <= sw
  {
    SizeScoreBounds(t, g, sw);
    var size := SizeScore(t, g, sw);
    if |t| == |g| {
      DimScoreBounds(t, g, w);
      if t == g {
        SizeScoreOfEqual(t, sw);
      }
    }
  }

  /** The total-size term of two positive shapes lies in (0, sw]. */
  lemma SizeScoreBounds(t: Shape, g: Shape, sw: real)
    requires AllPositive(t) && AllPositive(g) && 0.0 < sw
    ensures 0.0 < SizeScore(t, g, sw) <= sw
  {
    ProdPositive(t);
    ProdPositive(g);
    var rho := Ratio(Prod(t), Prod(g));
    RatioOfPositives(Prod(t), Prod(g));
    ScaledFraction(sw, rho);
    assert SizeScore(t, g, sw) == sw * rho;
  }

  lemma SizeScoreOfEqual(t: Shape, sw: real)
    ensures SizeScore(t, t, sw) == if Prod(t) != 0 then sw else 0.0
    ensures AllPositive(t) ==> SizeScore(t, t, sw) == sw
  {
    RatioSelf(Prod(t));
    if AllPositive(t) {
      ProdPositive(t);
    }
  }

  lemma ScaledFraction(sw: real, rho: real)
    requires 0.0 < sw && 0.0 < rho <= 1.0
    ensures 0.0 < sw * rho <= sw
  {
  }

  /** With the weights the strategies pass, the full score of the query's
      rank bounds the score of every candidate with positive dimensions,
      whatever its rank. Only an identical shape reaches it, except for a
      scalar query: the product of [] is 1, so any candidate whose
      dimensions multiply to 1 reaches the full score 2 as well. */
  lemma ScoreAtMostFull(t: Shape, g: Shape)
    requires AllPositive(t) && AllPositive(g)
    ensures 0.0 < Score(t, g) <= FullScore(|t|, TotalSizeWeight)
    ensures |t| > 0 || g == [] ==> (Score(t, g) == FullScore(|t|, TotalSizeWeight) <==> t == g)
    ensures t == [] && g != [] ==> (Score(t, g) == FullScore(|t|, TotalSizeWeight) <==> Prod(g) == 1)
  {
    ScoreBounds(t, g, DifferencePunishWeight, TotalSizeWeight);
    if t == [] && g != [] {
      ProdPositive(g);
      RatioOfPositives(Prod(t), Prod(g));
      assert Prod(t) == 1;
      assert Score(t, g) == TotalSizeWeight * Ratio(1, Prod(g));
    }
  }
}

=== FILE: trace_parser.dfy ===
/** Execution-trace parsing: pairing every operator event with the kernel
    events that follow it, numbering operators and (non-copy) kernels, and
    indexing the pairs by operator name and by operator type. */
module TraceParser {
  import opened Records

  /** One event of an execution trace, by its category: an operator
      ("Node"), a kernel launch ("Kernel"), or any other category. */
  datatype Event = NodeEvent(node: Node) | KernelEvent(kernel: Kernel) | OtherEvent(cat: string)

  // -----------------------------------------------------------------------
  // The specification of pairing

  /** How many kernels receive a sequence number (every non-copy). */
  function Counted(ks: seq<Kernel>): nat
  {
    if ks == [] then 0 else (if IsMemcpy(ks[0].name) then 0 else 1) + Counted(ks[1..])
  }

  /** Kernels numbered consecutively from `k` in order; memory copies get -1
      and do not consume a number. */
  function Number(ks: seq<Kernel>, k: int): (r: seq<Kernel>)
    ensures |r| == |ks|
  {
    if ks == [] then []
    else
      var copy := IsMemcpy(ks[0].name);
      [ks[0].(index := if copy then -1 else k)] + Number(ks[1..], if copy then k else k + 1)
  }

  /** The kernel events before the first operator event. */
  function LeadingKernels(es: seq<Event>): seq<Kernel>
  {
    if es == [] || es[0].NodeEvent? then []
    else if es[0].KernelEvent? then [es[0].kernel] + LeadingKernels(es[1..])
    else LeadingKernels(es[1..])
  }

  /** All kernel events, in order. */
  function KernelEvents(es: seq<Event>): seq<Kernel>
  {
    if es == [] then []
    else if es[0].KernelEvent? then [es[0].kernel] + KernelEvents(es[1..])
    else KernelEvents(es[1..])
  }

  /** All operator events, in order. */
  function NodeEvents(es: seq<Event>): seq<Node>
  {
    if es == [] then []
    else if es[0].NodeEvent? then [es[0].node] + NodeEvents(es[1..])
    else NodeEvents(es[1..])
  }

  /** The events after the first operator event (none if there is none). */
  function AfterFirstNode(es: seq<Event>): seq<Event>
  {
    if es == [] then [] else if es[0].NodeEvent? then es[1..] else AfterFirstNode(es[1..])
  }

  /** The pairs of a trace: each operator event, numbered from `n`, with the
      kernel events up to the next operator event, numbered from `k`.
      Kernels before the first operator belong to no pair. */
  function Pairing(es: seq<Event>, n: int, k: int): seq<Pair>
  {
    if es == [] then []
    else if es[0].NodeEvent? then
      var ks := LeadingKernels(es[1..]);
      [Pair(es[0].node.(index := n), Number(ks, k))] + Pairing(es[1..], n + 1, k + Counted(ks))
    else Pairing(es[1..], n, k)
  }

  /** The kernels of all pairs, in order. */
  function Flatten(ps: seq<Pair>): seq<Kernel>
  {
    if ps == [] then [] else ps[0].kernels + Flatten(ps[1..])
  }

  // -----------------------------------------------------------------------
  // `get_pairs_from_trace_file`

  /** What pairing the remaining events `es` must still yield, given the
      finished pairs, the open operator (if any) and its kernels so far. */
  ghost function Expected(pairs: seq<Pair>, current: Option<Node>, kernels: seq<Kernel>,
                          es: seq<Event>, n: int, k: int): seq<Pair>
  {
    if current.None? then Pairing(es, n, k)
    else
      var ks := LeadingKernels(es);
      pairs + [Pair(current.value, kernels + Number(ks, k))] + Pairing(es, n, k + Counted(ks))
  }

  /** `get_pairs_from_trace_file` on an already decoded event list. */
  method GetPairsFromTraceFile(events: seq<Event>) returns (pairs: seq<Pair>)
    ensures pairs == Pairing(events, 0, 0)
  {
    pairs := [];
    var current: Option<Node> := None;
    var kernels: seq<Kernel> := [];
    var nodeIdx, kernelIdx := 0, 0;
    var i := 0;
    while i < |events|
      invariant 0 <= i <= |events|
      invariant current.None? ==> pairs == [] && nodeIdx == 0 && kernelIdx == 0
      invariant Pairing(events, 0, 0) == Expected(pairs, current, kernels, events[i..], nodeIdx, kernelIdx)
    {
      var e := events[i];
      assert events[i..] == [e] + events[i + 1..];
      ghost var rest := events[i + 1..];
      if e.NodeEvent? {
        NodeStep(pairs, current, kernels, e.node, rest, nodeIdx, kernelIdx);
        if current.Some? {
          pairs := pairs + [Pair(current.value, kernels)];
        }
        current := Some(e.node.(index := nodeIdx));
        nodeIdx := nodeIdx + 1;
        kernels := [];
      } else if e.KernelEvent? && current.Some? {
        KernelStep(pairs, current, kernels, e.kernel, rest, nodeIdx, kernelIdx);
        if IsMemcpy(e.kernel.name) {
          kernels := kernels + [e.kernel.(index := -1)];
        } else {
          kernels := kernels + [e.kernel.(index := kernelIdx)];
          kernelIdx := kernelIdx + 1;
        }
      } else {
        SkipStep(pairs, current, kernels, e, rest, nodeIdx, kernelIdx);
      }
      i := i + 1;
    }
    assert events[i..] == [];
    if current.Some? {
      assert kernels + Number([], kernelIdx) == kernels;
      pairs := pairs + [Pair(current.value, kernels)];
      assert pairs + [] == pairs;
    }
  }

  lemma NumberCons(x: Kernel, ks: seq<Kernel>, k: int)
    ensures Number([x] + ks, k) ==
      [x.(index := if IsMemcpy(x.name) then -1 else k)] + Number(ks, if IsMemcpy(x.name) then k else k + 1)
    ensures Counted([x] + ks) == (if IsMemcpy(x.name) then 0 else 1) + Counted(ks)
  {
    assert ([x] + ks)[1..] == ks;
  }

  /** One step of the pairing specification. */
  lemma PairingCons(e: Event, rest: seq<Event>, n: int, k: int)
    ensures LeadingKernels([e] + rest) ==
      if e.NodeEvent? then [] else if e.KernelEvent? then [e.kernel] + LeadingKernels(rest) else LeadingKernels(rest)
    ensures Pairing([e] + rest, n, k) ==
      if e.NodeEvent? then
        [Pair(e.node.(index := n), Number(LeadingKernels(rest), k))] + Pairing(rest, n + 1, k + Counted(LeadingKernels(rest)))
      else Pairing(rest, n, k)
  {
    assert ([e] + rest)[1..] == rest;
  }

  /** The pairing of an operator event followed by `rest`. */
  lemma NodeHead(node: Node, rest: seq<Event>, n: int, k: int)
    ensures LeadingKernels([NodeEvent(node)] + rest) == []
    ensures Pairing([NodeEvent(node)] + rest, n, k) ==
      [Pair(node.(index := n), [] + Number(LeadingKernels(rest), k))] +
      Pairing(rest, n + 1, k + Counted(LeadingKernels(rest)))
  {
    PairingCons(NodeEvent(node), rest, n, k);
    assert [] + Number(LeadingKernels(rest), k) == Number(LeadingKernels(rest), k);
  }

  /** An operator event closes the open pair and opens its own. */
  lemma NodeStep(pairs: seq<Pair>, current: Option<Node>, kernels: seq<Kernel>, node: Node,
                 rest: seq<Event>, n: int, k: int)
    requires current.None? ==> pairs == []
    ensures Expected(pairs, current, kernels, [NodeEvent(node)] + rest, n, k) ==
      Expected(if current.Some? then pairs + [Pair(current.value, kernels)] else pairs,
               Some(node.(index := n)), [], rest, n + 1, k)
  {
    NodeHead(node, rest, n, k);
    if current.Some? {
      assert Counted([]) == 0;
      assert kernels + Number([], k) == kernels;
    }
  }

  /** A kernel event joins the open pair, numbered. */
  lemma KernelStep(pairs: seq<Pair>, current: Option<Node>, kernels: seq<Kernel>, x: Kernel,
                   rest: seq<Event>, n: int, k: int)
    requires current.Some?
    ensures Expected(pairs, current, kernels, [KernelEvent(x)] + rest, n, k) ==
      Expected(pairs, current, kernels + [x.(index := if IsMemcpy(x.name) then -1 else k)],
               rest, n, if IsMemcpy(x.name) then k else k + 1)
  {
    PairingCons(KernelEvent(x), rest, n, k);
    var ks := LeadingKernels(rest);
    NumberCons(x, ks, k);
    var x' := x.(index := if IsMemcpy(x.name) then -1 else k);
    var k' := if IsMemcpy(x.name) then k else k + 1;
    assert kernels + Number([x] + ks, k) == (kernels + [x']) + Number(ks, k');
    assert k + Counted([x] + ks) == k' + Counted(ks);
  }

  /** Any other event, and a kernel event before the first operator, changes
      nothing. */
  lemma SkipStep(pairs: seq<Pair>, current: Option<Node>, kernels: seq<Kernel>, e: Event,
                 rest: seq<Event>, n: int, k: int)
    requires !e.NodeEvent? && (e.KernelEvent? ==> current.None?)
    ensures Expected(pairs, current, kernels, [e] + rest, n, k) == Expected(pairs, current, kernels, rest, n, k)
  {
    PairingCons(e, rest, n, k);
  }

  // -----------------------------------------------------------------------
  // Properties of pairing

  /** One pair per operator event, in order, numbered consecutively. */
  lemma {:induction false} PairingNodes(es: seq<Event>, n: int, k: int)
    ensures |Pairing(es, n, k)| == |NodeEvents(es)|
    ensures forall j :: 0 <= j < |NodeEvents(es)| ==>
      Pairing(es, n, k)[j].node == NodeEvents(es)[j].(index := n + j)
    decreases |es|
  {
    if es != [] {
      if es[0].NodeEvent? {
        PairingNodes(es[1..], n + 1, k + Counted(LeadingKernels(es[1..])));
      } else {
        PairingNodes(es[1..], n, k);
      }
    }
  }

  lemma {:induction false} NumberAppend(a: seq<Kernel>, b: seq<Kernel>, k: int)
    ensures Number(a + b, k) == Number(a, k) + Number(b, k + Counted(a))
    ensures Counted(a + b) == Counted(a) + Counted(b)
    decreases |a|
  {
    if a != [] {
      assert (a + b)[1..] == a[1..] + b;
      NumberAppend(a[1..], b, if IsMemcpy(a[0].name) then k else k + 1);
    } else {
      assert a + b == b;
    }
  }

  lemma {:induction false} SplitKernels(es: seq<Event>)
    ensures KernelEvents(es) == LeadingKernels(es) + KernelEvents(AfterFirstNode(es))
    decreases |es|
  {
    if es == [] {
    } else if es[0].NodeEvent? {
      assert LeadingKernels(es) == [];
      assert KernelEvents(es) == KernelEvents(es[1..]);
      assert AfterFirstNode(es) == es[1..];
      assert [] + KernelEvents(es[1..]) == KernelEvents(es[1..]);
    } else {
      var rest := es[1..];
      SplitKernels(rest);
      assert AfterFirstNode(es) == AfterFirstNode(rest);
      if es[0].KernelEvent? {
        var x := es[0].kernel;
        assert LeadingKernels(es) == [x] + LeadingKernels(rest);
        assert KernelEvents(es) == [x] + KernelEvents(rest);
        assert [x] + (LeadingKernels(rest) + KernelEvents(AfterFirstNode(rest))) ==
               ([x] + LeadingKernels(rest)) + KernelEvents(AfterFirstNode(rest));
      } else {
        assert LeadingKernels(es) == LeadingKernels(rest);
        assert KernelEvents(es) == KernelEvents(rest);
      }
    }
  }

  /** The kernels of all pairs are the kernel events after the first
      operator event, in order, numbered consecutively from `k`. */
  lemma {:induction false} FlattenPairing(es: seq<Event>, n: int, k: int)
    ensures Flatten(Pairing(es, n, k)) == Number(KernelEvents(AfterFirstNode(es)), k)
    decreases |es|
  {
    if es != [] {
      if es[0].NodeEvent? {
        var ks := LeadingKernels(es[1..]);
        var rest := Pairing(es[1..], n + 1, k + Counted(ks));
        var ps := Pairing(es, n, k);
        assert ps[1..] == rest;
        FlattenPairing(es[1..], n + 1, k + Counted(ks));
        SplitKernels(es[1..]);
        NumberAppend(ks, KernelEvents(AfterFirstNode(es[1..])), k);
      } else {
        FlattenPairing(es[1..], n, k);
      }
    }
  }

  /** Position `j` of a numbered list is the `j`-th kernel with its number:
      -1 for a copy, otherwise `k` plus the non-copies before it. */
  lemma {:induction false} NumberAt(ks: seq<Kernel>, k: int, j: nat)
    requires j < |ks|
    ensures Number(ks, k)[j] == ks[j].(index := if IsMemcpy(ks[j].name) then -1 else k + Counted(ks[..j]))
    decreases j
  {
    if j > 0 {
      NumberAt(ks[1..], if IsMemcpy(ks[0].name) then k else k + 1, j - 1);
      assert ks[..j] == [ks[0]] + ks[1..][..j - 1];
      NumberAppend([ks[0]], ks[1..][..j - 1], k);
    }
  }

  /** What pairing a trace yields: the `j`-th pair holds the `j`-th operator
      event with index `j`; and across all pairs the kernels are the kernel
      events after the first operator, each non-copy numbered by how many
      non-copies precede it (0, 1, 2, ...), each copy numbered -1. A trace
      without operator events yields no pairs. */
  lemma PairingNumbering(es: seq<Event>)
    ensures |Pairing(es, 0, 0)| == |NodeEvents(es)|
    ensures forall j :: 0 <= j < |NodeEvents(es)| ==> Pairing(es, 0, 0)[j].node == NodeEvents(es)[j].(index := j)
    ensures |Flatten(Pairing(es, 0, 0))| == |KernelEvents(AfterFirstNode(es))|
    ensures forall j :: 0 <= j < |KernelEvents(AfterFirstNode(es))| ==>
      Flatten(Pairing(es, 0, 0))[j] ==
        KernelEvents(AfterFirstNode(es))[j].(index :=
          if IsMemcpy(KernelEvents(AfterFirstNode(es))[j].name) then -1
          else Counted(KernelEvents(AfterFirstNode(es))[..j]))
  {
    PairingNodes(es, 0, 0);
    FlattenPairing(es, 0, 0);
    var ks := KernelEvents(AfterFirstNode(es));
    forall j | 0 <= j < |ks|
      ensures Number(ks, 0)[j] == ks[j].(index := if IsMemcpy(ks[j].name) then -1 else Counted(ks[..j]))
    {
      NumberAt(ks, 0, j);
    }
  }

  // -----------------------------------------------------------------------
  // `get_node_kernel_mapping`

  /** Pairs by operator name; a later pair replaces an earlier one of the
      same name. */
  function Mapping(ps: seq<Pair>): map<string, Pair>
  {
    if ps == [] then map[] else Mapping(ps[..|ps| - 1])[ps[|ps| - 1].node.name := ps[|ps| - 1]]
  }

  method GetNodeKernelMapping(ps: seq<Pair>) returns (m: map<string, Pair>)
    ensures m == Mapping(ps)
  {
    m := map[];
    var i := 0;
    while i < |ps|
      invariant 0 <= i <= |ps|
      invariant m == Mapping(ps[..i])
    {
      assert ps[..i + 1][..i] == ps[..i];
      m := m[ps[i].node.name := ps[i]];
      i := i + 1;
    }
    assert ps[..i] == ps;
  }

  /** A name is mapped exactly when some pair has it, and it maps to the
      last such pair. */
  lemma {:induction false} MappingLastWins(ps: seq<Pair>, name: string)
    ensures name in Mapping(ps) <==> exists j :: 0 <= j < |ps| && ps[j].node.name == name
    ensures name in Mapping(ps) ==>
      exists j :: 0 <= j < |ps| && Mapping(ps)[name] == ps[j] &&
        forall l :: j < l < |ps| ==> ps[l].node.name != name
    decreases |ps|
  {
    if ps != [] {
      var init, x := ps[..|ps| - 1], ps[|ps| - 1];
      MappingLastWins(init, name);
      assert Mapping(ps) == Mapping(init)[x.node.name := x];
      if x.node.name == name {
        assert Mapping(ps)[name] == ps[|ps| - 1];
      } else {
        assert forall j :: 0 <= j < |init| ==> init[j] == ps[j];
        assert name in Mapping(ps) <==> name in Mapping(init);
        if name in Mapping(init) {
          var j :| 0 <= j < |init| && Mapping(init)[name] == init[j] &&
            forall l :: j < l < |init| ==> init[l].node.name != name;
          assert Mapping(ps)[name] == ps[j];
        }
      }
    }
  }

  // -----------------------------------------------------------------------
  // `divide_pairs_by_op_name`

  /** The pairs of operator type `op`, in order. */
  function Filter(ps: seq<Pair>, op: string): (r: seq<Pair>)
    ensures forall x :: x in r ==> x in ps && x.node.opName == op
  {
    if ps == [] then []
    else Filter(ps[..|ps| - 1], op) + (if ps[|ps| - 1].node.opName == op then [ps[|ps| - 1]] else [])
  }

  /** Every pair of type `op` is in `op`'s group. */
  lemma {:induction false} FilterComplete(ps: seq<Pair>, op: string, j: nat)
    requires j < |ps| && ps[j].node.opName == op
    ensures ps[j] in Filter(ps, op)
    decreases |ps|
  {
    if j < |ps| - 1 {
      FilterComplete(ps[..|ps| - 1], op, j);
    }
  }

  lemma FilterSnoc(ps: seq<Pair>, i: nat, op: string)
    requires i < |ps|
    ensures Filter(ps[..i + 1], op) == Filter(ps[..i], op) + (if ps[i].node.opName == op then [ps[i]] else [])
  {
    assert ps[..i + 1][..i] == ps[..i];
  }

  lemma FilterNone(ps: seq<Pair>, op: string)
    requires forall j :: 0 <= j < |ps| ==> ps[j].node.opName != op
    ensures Filter(ps, op) == []
  {
  }

  /** Some pair of `ps` has operator type `op`. */
  predicate OpOccurs(ps: seq<Pair>, op: string)
  {
    exists j :: 0 <= j < |ps| && ps[j].node.opName == op
  }

  /** `groups` has a group exactly for the types of `ps`, each holding that
      type's pairs in order. */
  ghost predicate Grouped(groups: map<string, seq<Pair>>, ps: seq<Pair>)
  {
    forall op :: (op in groups <==> OpOccurs(ps, op)) && (op in groups ==> groups[op] == Filter(ps, op))
  }

  lemma OpOccursStep(ps: seq<Pair>, i: nat, op: string)
    requires i < |ps|
    ensures OpOccurs(ps[..i + 1], op) <==> OpOccurs(ps[..i], op) || ps[i].node.opName == op
  {
    if OpOccurs(ps[..i + 1], op) && ps[i].node.opName != op {
      var j :| 0 <= j < i + 1 && ps[..i + 1][j].node.opName == op;
      assert ps[..i][j] == ps[j];
    }
    if OpOccurs(ps[..i], op) {
      var j :| 0 <= j < i && ps[..i][j].node.opName == op;
      assert ps[..i + 1][j] == ps[j];
    }
    if ps[i].node.opName == op {
      assert ps[..i + 1][i] == ps[i];
    }
  }

  /** Adding the next pair to its type's group keeps the grouping exact. */
  lemma GroupStep(groups: map<string, seq<Pair>>, ps: seq<Pair>, i: nat)
    requires i < |ps| && Grouped(groups, ps[..i])
    ensures var op := ps[i].node.opName;
      Grouped(groups[op := (if op in groups then groups[op] else []) + [ps[i]]], ps[..i + 1])
  {
    var op := ps[i].node.opName;
    var g := groups[op := (if op in groups then groups[op] else []) + [ps[i]]];
    forall o
      ensures (o in g <==> OpOccurs(ps[..i + 1], o)) && (o in g ==> g[o] == Filter(ps[..i + 1], o))
    {
      FilterSnoc(ps, i, o);
      OpOccursStep(ps, i, o);
      if o == op && op !in groups {
        FilterNone(ps[..i], op);
      }
    }
  }

  /** `divide_pairs_by_op_name`: a group per operator type that occurs,
      holding that type's pairs in trace order. */
  method DividePairsByOpName(ps: seq<Pair>) returns (groups: map<string, seq<Pair>>)
    ensures forall op :: op in groups <==> exists j :: 0 <= j < |ps| && ps[j].node.opName == op
    ensures forall op :: op in groups ==> groups[op] == Filter(ps, op)
    ensures |groups| == 0 <==> ps == []
    ensures Grouped(groups, ps)
  {
    groups := map[];
    var i := 0;
    while i < |ps|
      invariant 0 <= i <= |ps|
      invariant Grouped(groups, ps[..i])
    {
      var op := ps[i].node.opName;
      GroupStep(groups, ps, i);
      if op in groups {
        groups := groups[op := groups[op] + [ps[i]]];
      } else {
        groups := groups[op := [ps[i]]];
      }
      i := i + 1;
    }
    assert ps[..i] == ps;
    assert forall op :: op in groups <==> OpOccurs(ps, op);
    if ps != [] {
      assert OpOccurs(ps, ps[0].node.opName);
      assert ps[0].node.opName in groups.Keys;
    }
  }

  // -----------------------------------------------------------------------
  // The groups partition the pairs

  /** No operator type is listed twice. */
  predicate Distinct(ops: seq<string>)
  {
    forall i, j :: 0 <= i < j < |ops| ==> ops[i] != ops[j]
  }

  /** The total size of the groups of the types `ops`. */
  function SizesOf(groups: map<string, seq<Pair>>, ops: seq<string>): nat
    requires forall op :: op in ops ==> op in groups
  {
    if ops == [] then 0 else SizesOf(groups, ops[..|ops| - 1]) + |groups[ops[|ops| - 1]]|
  }

  /** The total number of pairs of the types `ops`. */
  function FilteredSizes(ps: seq<Pair>, ops: seq<string>): nat
  {
    if ops == [] then 0 else FilteredSizes(ps, ops[..|ops| - 1]) + |Filter(ps, ops[|ops| - 1])|
  }

  lemma {:induction false} FilteredSizesEmpty(ops: seq<string>)
    ensures FilteredSizes([], ops) == 0
  {
    if ops != [] {
      FilteredSizesEmpty(ops[..|ops| - 1]);
    }
  }

  lemma {:induction false} FilteredSizesSnoc(ps: seq<Pair>, x: Pair, ops: seq<string>)
    requires Distinct(ops)
    ensures FilteredSizes(ps + [x], ops) == FilteredSizes(ps, ops) + (if x.node.opName in ops then 1 else 0)
  {
    if ops != [] {
      var init, o := ops[..|ops| - 1], ops[|ops| - 1];
      assert Distinct(init);
      FilteredSizesSnoc(ps, x, init);
      assert (ps + [x])[..|ps|] == ps;
      assert |Filter(ps + [x], o)| == |Filter(ps, o)| + (if x.node.opName == o then 1 else 0);
      assert ops == init + [o];
      assert x.node.opName == o ==> x.node.opName !in init;
    }
  }

  lemma {:induction false} FilteredSizesCover(ps: seq<Pair>, ops: seq<string>)
    requires Distinct(ops)
    requires forall j :: 0 <= j < |ps| ==> ps[j].node.opName in ops
    ensures FilteredSizes(ps, ops) == |ps|
    decreases |ps|
  {
    if ps == [] {
      FilteredSizesEmpty(ops);
    } else {
      var init, x := ps[..|ps| - 1], ps[|ps| - 1];
      assert init + [x] == ps;
      FilteredSizesCover(init, ops);
      FilteredSizesSnoc(init, x, ops);
    }
  }

  lemma {:induction false} SizesAreFiltered(groups: map<string, seq<Pair>>, ps: seq<Pair>, ops: seq<string>)
    requires Grouped(groups, ps)
    requires forall op :: op in ops ==> op in groups
    ensures SizesOf(groups, ops) == FilteredSizes(ps, ops)
  {
    if ops != [] {
      SizesAreFiltered(groups, ps, ops[..|ops| - 1]);
    }
  }

  /** Grouping by operator type loses and duplicates no pair: listing each
      type of the groups once, their sizes add up to the number of pairs. */
  lemma GroupsAddUp(groups: map<string, seq<Pair>>, ps: seq<Pair>, ops: seq<string>)
    requires Grouped(groups, ps)
    requires Distinct(ops) && forall op :: op in ops <==> op in groups
    ensures SizesOf(groups, ops) == |ps|
  {
    forall j | 0 <= j < |ps|
      ensures ps[j].node.opName in ops
    {
      assert OpOccurs(ps, ps[j].node.opName);
    }
    SizesAreFiltered(groups, ps, ops);
    FilteredSizesCover(ps, ops);
  }
}
